=== FILE: README.md ===
# Options strategy analytics — a Dafny model

This project models the analytics core of an options and futures strategy
builder for Indian index derivatives (NIFTY, BANKNIFTY, FINNIFTY). The
repository ships two copies of the application: the Next.js copy
(`tradved-next-app`) and the Vite copy (`Frontend`). Both copies do the same
things:

- keep a live option chain keyed by instrument token, and tag each instrument
  as an option or a future;
- let the user build a multi-leg strategy by hand, or load one from a
  ready-made template or a saved item;
- value every leg at expiry and on a scenario date, using cost-of-carry for
  futures and Black-76 for options;
- draw the payoff chart: its x-axis grid, its standard-deviation bands and its
  open-interest bars;
- summarise the risk: maximum profit and loss, breakevens, reward over risk,
  and intrinsic versus time value;
- project P&L and Greeks for a target spot and date;
- show the strike-wise IV table and the expected standard-deviation ranges.

The model is pure: immutable datatypes and total functions over `real` and
`seq`. JavaScript's loose values are explicit:

- `Num` is a number or NaN.
- `JsVal` is `undefined`, a number, or a text together with its two
  readings: what `parseFloat` reads from its longest numeric prefix, and what
  `Number` reads from the whole text (0 for a blank text). The two differ,
  for example, on "12abc" (12 against NaN).
- The `||` defaults are `NumOr`, `OrOne` and `ParseOr`.

Everything the code calls but does not define comes in through an `Env`
record of functions. That covers `Math.exp`, `Math.sqrt`, date parsing,
`timeToExpiry`, the Black-76 price and Greeks, and `toFixed` rounding. A
proof that needs a property of one of these functions says so in a
`requires`: for example, a square root that is never negative, or rounding
that preserves order. The configuration constants (default volatility, chart
padding, grid step, number of points) are a `Config` record. Where the two
copies differ, a `Variant` (`Tradved` or `Frontend`) selects the behaviour.

Modules follow the source files:

| module | models |
|---|---|
| `Common` | JavaScript numbers and loose values, sequence utilities (dedup, sorting) |
| `Market` | instruments, strategy legs, Greeks, the `Env` and `Config` records |
| `LiveData` | `LiveOptionDataContext.tsx`: tagging, underlyings, tradable instruments, lookup by token |
| `StrategyUtils` | `strategyUtils.ts`: strike step, ATM strike, strike by offset |
| `PayoffLeg` | `payoffChartUtils.ts`: per-leg value and P&L at expiry and on the scenario date |
| `PayoffGraph` | `payoffChartUtils.ts`: `generatePayoffGraphData` |
| `PayoffData` | `payoffDataCalculator.ts`: projected P&L and Greeks |
| `RiskSummary` | both `SummaryMetricsSection.tsx` files |
| `Builder` | `NewStrategySection.tsx`: premium, leg edits, remove/duplicate/clear/reset, save |
| `ReadyMade` | both `ReadyMadeStrategiesSection.tsx` files: templates, saved items, position cards |
| `Visualizer` | `Frontend/.../StrategyVisualizer.tsx`: spot, target, IV controls, scenario IV, loader |
| `DetailedData` | `DetailedDataSection.tsx`: IV table, scenario label, SD ranges |

## Model

| member | source | states |
|---|---|---|
| Common.Filter | tradved-next-app/src/lib/payoffChartUtils.ts:217-219 | `Array.prototype.filter`: an element is in the result exactly when it is in the input and is kept. |
| Common.FilterCounts | tradved-next-app/src/lib/payoffChartUtils.ts:217-219 | Each kept element occurs in the filtered list as often as in the input; every other element occurs zero times. |
| LiveData.Tag | tradved-next-app/src/contexts/LiveOptionDataContext.tsx:148-158 | Only `legTypeDb` may change, and only when it is absent. A future is tagged 'future'; another instrument with a strike is tagged 'option'; anything else stays untagged. |
| LiveData.TagIdempotent | tradved-next-app/src/contexts/LiveOptionDataContext.tsx:148-158 | Tagging an already tagged instrument changes nothing. |
| LiveData.AvailableUnderlyings | tradved-next-app/src/contexts/LiveOptionDataContext.tsx:89-95 | Strictly ascending in string order, and lists exactly the underlyings that occur in the chain. |
| LiveData.TradableByUnderlying | tradved-next-app/src/contexts/LiveOptionDataContext.tsx:97-130 | Nothing for an empty symbol. Futures are the case-insensitive matches that are futures, tagged 'future', sorted by expiry key, as a permutation of the matches. Options are exactly the matching non-futures with a strike and a type, tagged 'option', in chain order (`MatchingOptions`). |
| LiveData.MatchingOptionsSplits | tradved-next-app/src/contexts/LiveOptionDataContext.tsx:101-113 | The matching options of two chains laid end to end are their matching options laid end to end: chain order is kept. |
| LiveData.MatchingOptionsOne | tradved-next-app/src/contexts/LiveOptionDataContext.tsx:108-112 | A single instrument yields itself tagged 'option' exactly when it is a non-future with a strike and a type of the underlying. |
| LiveData.TradableDisjoint | tradved-next-app/src/contexts/LiveOptionDataContext.tsx:103-113 | No instrument appears both among the options and among the futures. |
| LiveData.TradableHasEveryFuture | tradved-next-app/src/contexts/LiveOptionDataContext.tsx:101-107 | Every future of the underlying appears, tagged, in the futures list. |
| LiveData.InstrumentByToken | tradved-next-app/src/contexts/LiveOptionDataContext.tsx:132-146 | Nothing for an empty token or a token the chain does not hold; otherwise an instrument with that token. |
| LiveData.ChainArray | tradved-next-app/src/contexts/LiveOptionDataContext.tsx:148-159 | One tagged entry per chain instrument, in order. |
| LiveData.ByTokenAgreesWithChainArray | tradved-next-app/src/contexts/LiveOptionDataContext.tsx:132-159 | When tokens are unique, looking up an instrument's token gives exactly its entry in the array view. |
| LiveData.ChainArrayIdempotent | tradved-next-app/src/contexts/LiveOptionDataContext.tsx:150-158 | Tagging the array view a second time changes nothing. |
| StrategyUtils.StrikeStep | tradved-next-app/src/lib/strategyUtils.ts:8-19 | The step is 100 exactly when the upper-cased symbol contains BANKNIFTY; otherwise it is 50, including for the empty symbol. |
| StrategyUtils.ATMStrike | tradved-next-app/src/lib/strategyUtils.ts:27-33 | None exactly for an empty list. Otherwise a listed strike at least as near the spot as every other, and strictly nearer than every earlier strike. |
| StrategyUtils.ATMTieGoesLow | tradved-next-app/src/lib/strategyUtils.ts:27-33 | On strikes listed in ascending order, the chosen strike is the lowest of those equally near the spot. |
| StrategyUtils.StrikeByOffset | tradved-next-app/src/lib/strategyUtils.ts:43-77 | None exactly when there are no strikes or no spot; otherwise always one of the given strikes. |
| StrategyUtils.OffsetZeroIsATM | tradved-next-app/src/lib/strategyUtils.ts:54-69 | Offset 0 gives a strike at least as near the spot as every given strike. |
| StrategyUtils.OffsetZeroTieGoesLow | tradved-next-app/src/lib/strategyUtils.ts:27-33 | Of two listed strikes equally near the spot with no listed strike between them, offset 0 picks the lower one, whatever the input order. |
| StrategyUtils.OffsetMonotone | tradved-next-app/src/lib/strategyUtils.ts:65-74 | A larger offset never gives a lower strike. |
| StrategyUtils.OffsetSuccessor | tradved-next-app/src/lib/strategyUtils.ts:65-74 | From a non-negative offset, one more step gives the least listed strike above the current one, whenever there is one. |
| StrategyUtils.OffsetPredecessor | tradved-next-app/src/lib/strategyUtils.ts:65-74 | From a non-positive offset, one step less gives the greatest listed strike below the current one, whenever there is one. |
| StrategyUtils.OffsetClampsToEnds | tradved-next-app/src/lib/strategyUtils.ts:72-74 | An offset past either end of the ladder gives the lowest or the highest strike. |
| PayoffLeg.Intrinsic | tradved-next-app/src/lib/payoffChartUtils.ts:97-98 | Never negative. It is either 0 or the option's moneyness, and never below that moneyness. |
| PayoffLeg.ValueAtExpiry | tradved-next-app/src/lib/payoffChartUtils.ts:89-103 | A call is worth max(0, S − K) and a put max(0, K − S), K being the instrument's strike when it has one and the leg's otherwise; an option with an unreadable strike or no type is worth 0. A future is worth the spot; any other leg is worth 0. |
| PayoffLeg.PnLAtExpiry | tradved-next-app/src/lib/payoffChartUtils.ts:108-127 | 0 for an unreadable entry price or an unknown leg type. |
| PayoffLeg.PnLAtExpiryFormula | tradved-next-app/src/lib/payoffChartUtils.ts:108-127 | With a readable entry price e and a known leg type, the expiry P&L is (value at expiry − e) × lots × lot size × direction. |
| PayoffLeg.PutCallParityAtExpiry | tradved-next-app/src/lib/payoffChartUtils.ts:97-98 | A call and a put of the same strike differ at expiry by spot minus strike. |
| PayoffLeg.FlipNegatesPnLAtExpiry | tradved-next-app/src/lib/payoffChartUtils.ts:108-127 | Swapping Buy and Sell negates the expiry P&L. |
| PayoffLeg.OppositeSidesCancel | tradved-next-app/src/lib/payoffChartUtils.ts:108-127 | Two legs that differ only in side have opposite expiry P&Ls. |
| PayoffLeg.LongOptionLossBounded | tradved-next-app/src/lib/payoffChartUtils.ts:108-121 | A bought option never loses more than its premium times the multiplier. |
| PayoffLeg.ShortOptionGainBounded | tradved-next-app/src/lib/payoffChartUtils.ts:108-121 | A written option never gains more than its premium times the multiplier. |
| PayoffLeg.LongCallMonotone | tradved-next-app/src/lib/payoffChartUtils.ts:97-121 | A bought call's expiry P&L never falls as the spot rises. |
| PayoffLeg.TheoreticalPrice | tradved-next-app/src/lib/payoffChartUtils.ts:132-172 | The entry price for an unknown instrument, incomplete option details or another leg type. A tagged future before its expiry is worth the spot when no time is left, else the cost-of-carry forward. A complete option with time left is worth its intrinsic value when its IV is at most the tiny threshold, else the Black-76 price of the forward at its strike, time, rate, IV and type. |
| PayoffLeg.PnLAtTarget | tradved-next-app/src/lib/payoffChartUtils.ts:178-195 | 0 when either the theoretical or the entry price is NaN. |
| PayoffLeg.PnLAtTargetFormula | tradved-next-app/src/lib/payoffChartUtils.ts:178-195 | With readable theoretical and entry prices, the scenario-date P&L is (theoretical − entry) × lots × lot size × direction. |
| PayoffLeg.UnpricedLegHasNoPnL | tradved-next-app/src/lib/payoffChartUtils.ts:141-145 | A leg without instrument or with incomplete option details shows zero P&L on the scenario date. |
| PayoffLeg.ExpiredOptionMatchesExpiryPnL | tradved-next-app/src/lib/payoffChartUtils.ts:146-150 | Once an option has expired on the scenario date, its scenario P&L equals its expiry P&L. |
| PayoffLeg.ExpiredFutureMatchesExpiryPnL | tradved-next-app/src/lib/payoffChartUtils.ts:155-164 | Once a future has expired on the scenario date, its scenario P&L equals its expiry P&L. |
| PayoffLeg.FlipNegatesPnLAtTarget | tradved-next-app/src/lib/payoffChartUtils.ts:178-195 | Swapping Buy and Sell negates the scenario-date P&L. |
| PayoffGraph.SelectedLegs | tradved-next-app/src/lib/payoffChartUtils.ts:217-219 | Exactly the legs that are selected and have a token, a numeric price and a leg type, in input order and multiplicity (`Common.Filter`). |
| PayoffGraph.SelectedLegsIdempotent | tradved-next-app/src/lib/payoffChartUtils.ts:217-219 | Filtering twice keeps the same legs. |
| PayoffGraph.Center | tradved-next-app/src/lib/payoffChartUtils.ts:221-228 | Never negative. Positive exactly when the scenario spot or the live spot is; equal to the scenario spot when that is positive. |
| PayoffGraph.RepresentativeIV | tradved-next-app/src/lib/payoffChartUtils.ts:237-250 | With a selected option leg, the first one's scenario IV when it is a positive number, else the default volatility. Without one, the IV of the chain entry nearest the centre, as a fraction, when some entry has a readable IV, else the default. Always positive when the default is. |
| PayoffGraph.SDBands | tradved-next-app/src/lib/payoffChartUtils.ts:235-264 | Bands exist exactly when the centre, the horizon and the representative IV are all positive. They are then the bands at one, two and three moves of the representative IV over the horizon around the centre. |
| PayoffGraph.BandsOrdered | tradved-next-app/src/lib/payoffChartUtils.ts:251-262 | With order-preserving rounding and a non-negative square root: 0 ≤ −2SD ≤ −1SD ≤ centre ≤ +1SD ≤ +2SD. |
| PayoffGraph.MinOf | tradved-next-app/src/lib/payoffChartUtils.ts:275-277 | A number exactly when every input is, and then a lower bound of the inputs and the initial value. |
| PayoffGraph.MaxOf | tradved-next-app/src/lib/payoffChartUtils.ts:276-278 | A number exactly when every input is, and then an upper bound of the inputs and the initial value. |
| PayoffGraph.PaddedRange | tradved-next-app/src/lib/payoffChartUtils.ts:274-295 | With bands, the range reaches the −2SD and +2SD levels. |
| PayoffGraph.EffectiveRange | tradved-next-app/src/lib/payoffChartUtils.ts:297-306 | The low end is at least 0.01 and the range is at least one grid step wide. Unless there are no strikes and the centre is positive, it is the floored padded range. |
| PayoffGraph.PaddedReachesExtremes | tradved-next-app/src/lib/payoffChartUtils.ts:274-284 | Before flooring, the padded range reaches the lowest and the highest positive strike and the centre. |
| PayoffGraph.RangeCoversStrikes | tradved-next-app/src/lib/payoffChartUtils.ts:270-298 | With a non-negative padding, the effective range contains every leg strike of at least 0.01, and the centre. |
| PayoffGraph.LastGridSpot | tradved-next-app/src/lib/payoffChartUtils.ts:311-313 | The last evenly spaced grid point is the rounded high end. |
| PayoffGraph.EvenGrid | tradved-next-app/src/lib/payoffChartUtils.ts:310-314 | n + 1 points, from the rounded low end to the rounded high end. |
| PayoffGraph.StepGrid | tradved-next-app/src/lib/payoffChartUtils.ts:315-321 | 2·⌊n/2⌋ + 1 points around the fallback centre; none for a negative count. |
| PayoffGraph.PnLGrid | tradved-next-app/src/lib/payoffChartUtils.ts:310-322 | Strictly ascending and never negative; its members are exactly the non-negative points of the even grid over a proper range, or else of the stepped grid around the fallback centre. |
| PayoffGraph.OIGrid | tradved-next-app/src/lib/payoffChartUtils.ts:325-335 | Exactly the rounded chain option strikes that lie inside the range: every point is one, and every such strike appears rounded. |
| PayoffGraph.ChainStrikes | tradved-next-app/src/lib/payoffChartUtils.ts:325-330 | Every entry is the readable strike of a chain option, and every chain option with a readable strike has its strike listed. |
| PayoffGraph.LastResortGrid | tradved-next-app/src/lib/payoffChartUtils.ts:340-345 | Eleven points in ascending order. |
| PayoffGraph.FinalGrid | tradved-next-app/src/lib/payoffChartUtils.ts:337-347 | Never empty and ascending. It is the sorted merge of the P&L and open-interest grids whenever these are not both empty. |
| PayoffGraph.FlipNegatesTotals | tradved-next-app/src/lib/payoffChartUtils.ts:354-361 | Reversing every leg negates both the expiry and the scenario-date P&L totals at every spot. |
| PayoffGraph.OpenInterest | tradved-next-app/src/lib/payoffChartUtils.ts:364-377 | 0 when no chain option of that kind is within half a step of the spot; NaN only when such an option has an unreadable open interest. |
| PayoffGraph.OpenInterestSplits | tradved-next-app/src/lib/payoffChartUtils.ts:364-377 | The open interest over two chains laid end to end is the sum of the two. |
| PayoffGraph.OpenInterestOne | tradved-next-app/src/lib/payoffChartUtils.ts:368-375 | A single instrument contributes `Number(oi)` exactly when it is an option of that kind within half a step of the spot with a truthy open interest, and 0 otherwise. |
| PayoffGraph.Percent | tradved-next-app/src/lib/payoffChartUtils.ts:379-384 | A percentage exactly when percentages are requested and the live spot is non-zero, and then the rounded 100 × total / live spot. |
| PayoffGraph.PointAt | tradved-next-app/src/lib/payoffChartUtils.ts:350-395 | The point sits at its grid spot. It is the current spot exactly when it lies within 0.01 of a positive centre. Its percentages are `Percent` of the expiry and scenario-date totals at that spot, and its call and put open interest are `OpenInterest` at that spot. |
| PayoffGraph.Points | tradved-next-app/src/lib/payoffChartUtils.ts:350-396 | One point per grid spot, in grid order. |
| PayoffGraph.GeneratePayoffGraph | tradved-next-app/src/lib/payoffChartUtils.ts:203-398 | Empty, with no bands, when there is no centre, no leg and no chain. Otherwise the bands are those of the representative IV and there is one point per spot of the final grid, in grid order. Points ascend by spot, the current-spot flag means within 0.01 of a positive centre, and each point shows the rounded expiry and scenario-date totals of the selected legs, their percentages and the open interest at its spot. |
| PayoffGraph.GraphHasPoints | tradved-next-app/src/lib/payoffChartUtils.ts:344-352 | With a centre, a selected leg or a chain, the graph has at least one point. |
| PayoffGraph.GraphIgnoresUnselectedLegs | tradved-next-app/src/lib/payoffChartUtils.ts:217-219 | Dropping the legs that do not take part leaves the whole chart unchanged. |
| PayoffGraph.NoLegsFlatPayoff | tradved-next-app/src/lib/payoffChartUtils.ts:351-362 | With no selected legs, every point shows zero P&L at expiry and on the scenario date. |
| PayoffData.SpotForCalc | tradved-next-app/src/lib/payoffDataCalculator.ts:206-216 | Never negative. In a projected scenario it is the positive parsed target; otherwise it is positive exactly when the live spot is. |
| PayoffData.IncludedLegs | tradved-next-app/src/lib/payoffDataCalculator.ts:242-245 | Exactly the selected legs with a token and a leg type, in input order and multiplicity (`Common.Filter`). |
| PayoffData.IntrinsicNum | tradved-next-app/src/lib/payoffDataCalculator.ts:300-304 | NaN exactly for an unreadable strike; otherwise the intrinsic value. |
| PayoffData.ValueLeg | tradved-next-app/src/lib/payoffDataCalculator.ts:246-363 | Entry price and zero Greeks without an instrument, for incomplete option details, or for a mismatched future. A tagged future is worth the spot once no time is left, else the cost-of-carry forward, with delta 1. A complete option with time left and an IV above the tiny threshold gets the Black-76 price and Greeks; otherwise its intrinsic value, with the Greeks computed at the floored time and IV. |
| PayoffData.PnLPerUnit | tradved-next-app/src/lib/payoffDataCalculator.ts:365-370 | value − entry when both are numbers; 0 when either is NaN. |
| PayoffData.SizeFactor | tradved-next-app/src/lib/payoffDataCalculator.ts:373-375 | Never 0, and 1 unless multiplying by lot size. |
| PayoffData.LotsFactor | tradved-next-app/src/lib/payoffDataCalculator.ts:376 | 1 unless multiplying by a truthy lot count; NaN only for truthy unreadable lots. |
| PayoffData.Scale | tradved-next-app/src/lib/payoffDataCalculator.ts:373-376 | NaN only when the lot count is truthy but unreadable and lots are multiplied. |
| PayoffData.LegPnL | tradved-next-app/src/lib/payoffDataCalculator.ts:378-379 | A leg's scaled P&L is NaN exactly when its scale is. |
| PayoffData.ProcessLeg | tradved-next-app/src/lib/payoffDataCalculator.ts:392-413 | The projected value is null exactly when it is NaN. Gamma is reported without direction. The last price is present exactly when the instrument lists one. |
| PayoffData.ProcessAllPointwise | tradved-next-app/src/lib/payoffDataCalculator.ts:246-247 | Processing a list of legs processes each leg on its own, in place: entry i of the result is leg i processed. |
| PayoffData.ProcessedLegValues | tradved-next-app/src/lib/payoffDataCalculator.ts:365-413 | A processed leg reports the leg's value (when it is a number), its P&L as (value − entry) × direction × scale, its delta, theta and vega with the leg's direction, and its entry price. |
| PayoffData.CalculateProjection | tradved-next-app/src/lib/payoffDataCalculator.ts:179-425 | One processed leg per included leg, in order; each is a selected leg with a token and a type. |
| PayoffData.TotalPnLMatchesLegs | tradved-next-app/src/lib/payoffDataCalculator.ts:382 | The total P&L is the sum of the legs' reported P&L values that are numbers. |
| PayoffData.NoMoveNoPnL | tradved-next-app/src/lib/payoffDataCalculator.ts:366-370 | A leg valued at its own entry price has zero P&L per unit. |
| PayoffData.UnpricedLegContributesNothing | tradved-next-app/src/lib/payoffDataCalculator.ts:250-258 | A leg left at its entry price with zero Greeks adds nothing to any total. |
| PayoffData.FlipNegatesLegContribution | tradved-next-app/src/lib/payoffDataCalculator.ts:378-390 | Swapping Buy and Sell negates what a leg adds to P&L, delta, theta and vega, and leaves gamma alone. |
| PayoffData.FlipNegatesProjectionTotals | tradved-next-app/src/lib/payoffDataCalculator.ts:382-390 | Reversing every leg negates total P&L, delta, theta and vega; total gamma is unchanged. |
| PayoffData.ExpiredOptionAgreesWithChart | tradved-next-app/src/lib/payoffDataCalculator.ts:299-304 | For an expired option, the calculator's value equals the chart's theoretical price on the same date. |
| PayoffData.LiveFutureAgreesWithChart | tradved-next-app/src/lib/payoffDataCalculator.ts:338-344 | For a live tagged future, the calculator's value equals the chart's cost-of-carry price on the same date. |
| RiskSummary.SummaryLegs | tradved-next-app/src/features/StrategyVisualizer/sections/SummaryMetricsSection.tsx:154-163 | Exactly the selected, typed legs with numeric price, lots and lot size, in input order and multiplicity (`Common.Filter`). |
| RiskSummary.TheoreticalLegPnL | tradved-next-app/src/features/StrategyVisualizer/sections/SummaryMetricsSection.tsx:105-126 | 0 for an unreadable entry price, and 0 for an option whose strike or type is unreadable. |
| RiskSummary.TheoreticalAgreesWithChart | tradved-next-app/src/features/StrategyVisualizer/sections/SummaryMetricsSection.tsx:105-126 | For futures, and for options with readable strike and type, the panel's P&L equals the chart's expiry P&L. |
| RiskSummary.TheoreticalFlip | tradved-next-app/src/features/StrategyVisualizer/sections/SummaryMetricsSection.tsx:105-126 | Swapping Buy and Sell negates the theoretical P&L. |
| RiskSummary.LongCallProfitUnbounded | tradved-next-app/src/features/StrategyVisualizer/sections/SummaryMetricsSection.tsx:224-228 | A bought call's expiry P&L exceeds any bound at some spot, which justifies "Unlimited" profit. |
| RiskSummary.ShortCallLossUnbounded | tradved-next-app/src/features/StrategyVisualizer/sections/SummaryMetricsSection.tsx:229-234 | A written call's expiry P&L falls below any bound at some spot, which justifies "Unlimited" loss. |
| RiskSummary.PnLAtZeroFlip | tradved-next-app/src/features/StrategyVisualizer/sections/SummaryMetricsSection.tsx:273-276 | Reversing every leg negates the P&L with the underlying at 0. |
| RiskSummary.PnLAtZeroSplits | tradved-next-app/src/features/StrategyVisualizer/sections/SummaryMetricsSection.tsx:273-276 | The P&L at 0 of two leg lists laid end to end is the sum of their P&Ls at 0. |
| RiskSummary.LegPnLAtZero | tradved-next-app/src/features/StrategyVisualizer/sections/SummaryMetricsSection.tsx:105-126 | With the underlying at 0 and a non-negative strike, a call contributes its premium (−entry × scale) and a put its strike minus its entry, times the scale. |
| RiskSummary.ValuedOptions | tradved-next-app/src/features/StrategyVisualizer/sections/SummaryMetricsSection.tsx:165-171 | Exactly the option legs with a readable strike and a CE/PE type, in input order and multiplicity (`Common.Filter`). |
| RiskSummary.MarketPrice | Frontend/src/features/StrategyVisualizer/sections/SummaryMetricsSection.tsx:191-198 | The instrument's last price when listed; the Frontend copy also requires the instrument to be tagged 'option'. Otherwise the leg's entry price. |
| RiskSummary.IntrinsicAndTimeValue | tradved-next-app/src/features/StrategyVisualizer/sections/SummaryMetricsSection.tsx:173-198 | Nothing without a positive spot or any valued option leg. |
| RiskSummary.IntrinsicPlusTimeIsMarketValue | tradved-next-app/src/features/StrategyVisualizer/sections/SummaryMetricsSection.tsx:182-196 | Intrinsic value plus time value is the signed market value of the option legs. |
| RiskSummary.IntrinsicValueIsTotal | tradved-next-app/src/features/StrategyVisualizer/sections/SummaryMetricsSection.tsx:173-190 | With a positive spot and some valued option, the intrinsic value is Σ max(0, moneyness) × direction × lots × lot size over the valued options. |
| RiskSummary.AddExposure | tradved-next-app/src/features/StrategyVisualizer/sections/SummaryMetricsSection.tsx:209-223 | A leg that is neither a future nor a typed option leaves every bucket unchanged. |
| RiskSummary.FlipMirrorsExposure | tradved-next-app/src/features/StrategyVisualizer/sections/SummaryMetricsSection.tsx:209-223 | Reversing every leg exchanges long and short quantities in every bucket. |
| RiskSummary.FlipExchangesUnlimited | tradved-next-app/src/features/StrategyVisualizer/sections/SummaryMetricsSection.tsx:224-234 | Unlimited profit turns into unlimited loss when every leg is reversed, and unlimited profit of the reversed legs means unlimited loss of the original. |
| RiskSummary.SeqMax | tradved-next-app/src/features/StrategyVisualizer/sections/SummaryMetricsSection.tsx:242 | A member of the list and an upper bound of it. |
| RiskSummary.SeqMin | tradved-next-app/src/features/StrategyVisualizer/sections/SummaryMetricsSection.tsx:243 | A member of the list and a lower bound of it. |
| RiskSummary.MaxProfit | tradved-next-app/src/features/StrategyVisualizer/sections/SummaryMetricsSection.tsx:270-298 | "Unlimited" exactly when flagged. "N/A" exactly with neither legs nor curve. Otherwise an upper bound of the curve and of the P&L at 0, attained by one of them. |
| RiskSummary.MaxLoss | tradved-next-app/src/features/StrategyVisualizer/sections/SummaryMetricsSection.tsx:270-298 | The same with lower bounds. |
| RiskSummary.ProfitNotBelowLoss | tradved-next-app/src/features/StrategyVisualizer/sections/SummaryMetricsSection.tsx:270-295 | Without unlimited sides, the maximum profit is never below the maximum loss. |
| RiskSummary.CrossingBetween | tradved-next-app/src/features/StrategyVisualizer/sections/SummaryMetricsSection.tsx:253-262 | At a strict sign change, the interpolated breakeven lies strictly between the two spots, and the line through the two points vanishes there. |
| RiskSummary.CrossingAtZero | tradved-next-app/src/features/StrategyVisualizer/sections/SummaryMetricsSection.tsx:257-262 | A point with zero P&L is its own interpolated breakeven. |
| RiskSummary.TradvedPair | tradved-next-app/src/features/StrategyVisualizer/sections/SummaryMetricsSection.tsx:245-266 | At most one breakeven per pair, and none unless the P&L changes sign or the earlier point is near zero. |
| RiskSummary.FrontendPair | Frontend/src/features/StrategyVisualizer/sections/SummaryMetricsSection.tsx:256-290 | At most one breakeven per pair, and none when both points are near zero without a sign change. |
| RiskSummary.Candidates | tradved-next-app/src/features/StrategyVisualizer/sections/SummaryMetricsSection.tsx:245-267 | Contains every pair's breakeven, and nothing that is not some pair's breakeven. |
| RiskSummary.Breakevens | tradved-next-app/src/features/StrategyVisualizer/sections/SummaryMetricsSection.tsx:152-267 | Strictly ascending, and exactly the breakevens of the consecutive pairs. |
| RiskSummary.SignChangeReported | tradved-next-app/src/features/StrategyVisualizer/sections/SummaryMetricsSection.tsx:253-262 | In both copies, a clear sign change between consecutive points reports its rounded crossing. |
| RiskSummary.ZeroBeforeMoveReported | tradved-next-app/src/features/StrategyVisualizer/sections/SummaryMetricsSection.tsx:253-265 | In both copies, a zero-P&L point that the curve leaves by more than the tolerance is reported. |
| RiskSummary.TradvedMissesFinalZero | tradved-next-app/src/features/StrategyVisualizer/sections/SummaryMetricsSection.tsx:253-266 | The curve (100, −5), (105, 0) has no breakeven in the tradved copy. |
| RiskSummary.FrontendReportsZeroAfterMove | Frontend/src/features/StrategyVisualizer/sections/SummaryMetricsSection.tsx:276-288 | In the Frontend copy, every zero-P&L point reached from beyond the tolerance is reported, the last point included. |
| RiskSummary.RiskReward | tradved-next-app/src/features/StrategyVisualizer/sections/SummaryMetricsSection.tsx:300-327 | Each display case (N/A, Unlimited/Unlimited, Unlimited Reward, Unlimited Risk, ∞, 0.00X, multiple) holds exactly under its condition. A multiple is positive, and it is profit over |loss| under reward/risk and |loss| over profit otherwise. |
| RiskSummary.RatioToggleReciprocal | tradved-next-app/src/features/StrategyVisualizer/sections/SummaryMetricsSection.tsx:322-326 | The reward/risk and risk/reward multiples multiply to 1. |
| RiskSummary.Summarize | tradved-next-app/src/features/StrategyVisualizer/sections/SummaryMetricsSection.tsx:150-328 | Profit and loss are "Unlimited" exactly under the exposure rules, and "N/A" exactly when neither is unlimited and there are no legs and no curve. Finite extremes bound the P&L at 0 and every curve point. The breakevens are those of the curve, the intrinsic and time values those of the participating legs, and the ratio follows the extremes. |
| RiskSummary.SummaryExtremesOrdered | tradved-next-app/src/features/StrategyVisualizer/sections/SummaryMetricsSection.tsx:270-295 | When both extremes of a summary are amounts, the maximum loss is not above the maximum profit. |
| Builder.PremiumPrice | tradved-next-app/src/features/StrategyVisualizer/sections/NewStrategySection.tsx:112 | A price that is not a number counts as 0. |
| Builder.CountOrOne | tradved-next-app/src/features/StrategyVisualizer/sections/NewStrategySection.tsx:113-114 | Always positive; anything other than 1 is the leg's own positive numeric count. |
| Builder.PremiumIgnoresUncounted | tradved-next-app/src/features/StrategyVisualizer/sections/NewStrategySection.tsx:111 | Unselected or untyped legs do not change the premium totals. |
| Builder.PremiumFlip | tradved-next-app/src/features/StrategyVisualizer/sections/NewStrategySection.tsx:108-120 | Reversing every leg negates both the total premium and the per-unit net. |
| Builder.UnitLotsTotalIsNet | tradved-next-app/src/features/StrategyVisualizer/sections/NewStrategySection.tsx:113-117 | With one lot of size one everywhere, the total premium is the per-unit net. |
| Builder.PremiumTotalsAreCashSum | tradved-next-app/src/features/StrategyVisualizer/sections/NewStrategySection.tsx:108-120 | The total premium is Σ −price × direction × lots × lot size, and the net Σ −price × direction, over the selected legs with a type. |
| Builder.StrikesFor | tradved-next-app/src/features/StrategyVisualizer/sections/NewStrategySection.tsx:133-137 | None for an empty expiry; otherwise strictly ascending and exactly the readable strikes listed for that expiry. |
| Builder.TypesFor | tradved-next-app/src/features/StrategyVisualizer/sections/NewStrategySection.tsx:139-143 | None when the expiry or the strike is missing. Otherwise exactly the listed types, with CE before PE. |
| Builder.PreferredType | tradved-next-app/src/features/StrategyVisualizer/sections/NewStrategySection.tsx:221 | CE whenever it is offered; otherwise an offered type; none exactly when nothing is offered. |
| Builder.FindOption | tradved-next-app/src/features/StrategyVisualizer/sections/NewStrategySection.tsx:145-148 | None for a missing key. A found option is listed and matches expiry, strike and type, and it is the first such option in chain order. None only if no such option is listed. |
| Builder.FindFuture | tradved-next-app/src/features/StrategyVisualizer/sections/NewStrategySection.tsx:150-153 | None for an empty token. A found future is listed with that token. None only if no future has it. When some future has the token, the first such future in the list is found. |
| Builder.LotsFrom | tradved-next-app/src/features/StrategyVisualizer/sections/NewStrategySection.tsx:206 | At least 1, and the parsed count itself when that is at least 1. |
| Builder.BindOption | tradved-next-app/src/features/StrategyVisualizer/sections/NewStrategySection.tsx:228-237 | Keeps identity, expiry, strike and type. When a contract with that expiry, strike and type is listed, the leg takes the first such contract's token, symbol (or the spelled one), lot size, price and IV (each kept when the contract lacks it). Otherwise the token is emptied and the symbol is spelled from a complete expiry, strike and type, else emptied. |
| Builder.BindOptionIdempotent | tradved-next-app/src/features/StrategyVisualizer/sections/NewStrategySection.tsx:228-237 | Binding an already bound leg again changes nothing. |
| Builder.EditLeg | tradved-next-app/src/features/StrategyVisualizer/sections/NewStrategySection.tsx:200-251 | Keeps id, status and type. An active position accepts only a selection change. Otherwise a side, lots, price or lot-size edit changes only that field (lots become at least 1, a price parseFloat or 0). An option IV edit stores parseFloat or 0; another leg keeps the raw value. An option expiry, strike or type edit stores the new value and rebinds the leg to the first listed contract matching its expiry, strike and type. An option strike edit with an expiry picks the preferred listed type. A future expiry edit takes the token, expiry, lot size and price of the listed future, or clears token and symbol when none is listed. |
| Builder.HandleLegChange | tradved-next-app/src/features/StrategyVisualizer/sections/NewStrategySection.tsx:199-253 | Same length. Legs with another id are untouched; legs with the id receive the edit. |
| Builder.OptionEditKeepsBinding | tradved-next-app/src/features/StrategyVisualizer/sections/NewStrategySection.tsx:212-237 | After an expiry, strike or type edit, an option leg with a token is bound to a listed contract. When a contract with its new expiry, strike and type is listed, the leg carries the first such contract's token, lot size, price and IV. Otherwise the token is empty and price, IV and lot size are as before. |
| Builder.ExpiryEditPicksATM | tradved-next-app/src/features/StrategyVisualizer/sections/NewStrategySection.tsx:213-222 | A new expiry with strikes selects a listed strike nearest the spot; among equally near strikes it takes the lowest. CE is chosen whenever CE is listed there. |
| Builder.ExpiryEditWithoutStrikes | tradved-next-app/src/features/StrategyVisualizer/sections/NewStrategySection.tsx:213-215 | A new expiry without strikes leaves no strike, no type and no token. |
| Builder.SelectionEditIdempotent | tradved-next-app/src/features/StrategyVisualizer/sections/NewStrategySection.tsx:199-205 | Applying the same selection edit twice equals applying it once. |
| Builder.RemoveLeg | tradved-next-app/src/features/StrategyVisualizer/sections/NewStrategySection.tsx:255-260 | Keeps exactly the legs with another id and the active positions, in input order and multiplicity (`Common.Filter`). |
| Builder.RemoveLegIdempotent | tradved-next-app/src/features/StrategyVisualizer/sections/NewStrategySection.tsx:255-260 | Removing the same id twice equals removing it once. |
| Builder.ClearTrades | tradved-next-app/src/features/StrategyVisualizer/sections/NewStrategySection.tsx:283-288 | Leaves exactly the active positions. |
| Builder.ClearTradesKeepsActive | tradved-next-app/src/features/StrategyVisualizer/sections/NewStrategySection.tsx:283-288 | Refused or not, the result is the active positions in order, so clearing twice is clearing once. |
| Builder.DuplicateLeg | tradved-next-app/src/features/StrategyVisualizer/sections/NewStrategySection.tsx:262-276 | Unchanged for an unknown id. Otherwise the old legs followed by one copy of the first leg with the id: fresh id, selected, new. Its price is parseFloat of the listed quote, or of the original's price when none is listed. An option copy takes the listed IV, or keeps the original's; any other copy has no IV. Nothing else changes. |
| Builder.ResetLeg | tradved-next-app/src/features/StrategyVisualizer/sections/NewStrategySection.tsx:291-300 | Only the price may change. Active positions and unlisted contracts are untouched; otherwise the price is the listed quote. |
| Builder.ResetPrices | tradved-next-app/src/features/StrategyVisualizer/sections/NewStrategySection.tsx:290-302 | One refreshed leg per leg, in order. |
| Builder.ResetPricesIdempotent | tradved-next-app/src/features/StrategyVisualizer/sections/NewStrategySection.tsx:290-302 | Refreshing prices twice equals refreshing once. |
| Builder.DuplicateNeedsNoReset | tradved-next-app/src/features/StrategyVisualizer/sections/NewStrategySection.tsx:262-302 | A duplicate already carries the current quote: refreshing its price changes nothing. |
| Builder.SelectAll | tradved-next-app/src/features/StrategyVisualizer/sections/NewStrategySection.tsx:307 | Every leg takes the given selection, and nothing else changes. |
| Builder.SelectAllPremium | tradved-next-app/src/features/StrategyVisualizer/sections/NewStrategySection.tsx:307 | After selecting every leg, the premium totals are the cash sum of every leg with a type. |
| Builder.DeselectAllPremium | tradved-next-app/src/features/StrategyVisualizer/sections/NewStrategySection.tsx:307 | After deselecting every leg, both premium totals are 0. |
| Builder.AllValid | tradved-next-app/src/features/StrategyVisualizer/sections/NewStrategySection.tsx:314-318 | True exactly when every leg is complete enough to save. |
| Builder.SaveRefusal | tradved-next-app/src/features/StrategyVisualizer/sections/NewStrategySection.tsx:309-321 | Each refusal exactly in its case, checked in order; no refusal exactly when there are selected typed legs, an underlying, and every such leg is valid. |
| Common.Trim | tradved-next-app/src/features/StrategyVisualizer/sections/NewStrategySection.tsx:325-326 | Empty exactly for a blank name; otherwise it neither starts nor ends with a space. It is never longer than the name. |
| Common.TrimIsSlice | tradved-next-app/src/features/StrategyVisualizer/sections/NewStrategySection.tsx:325-326 | The trimmed name is the part of the name that starts right after its leading spaces, and only spaces follow it. |
| Builder.PrepareSave | tradved-next-app/src/features/StrategyVisualizer/sections/NewStrategySection.tsx:309-331 | Refuses with no selected typed legs, then with no underlying, then with an invalid leg, each exactly in its case. A draft whose name prompt is dismissed or blank is cancelled. Otherwise it saves exactly those legs, each valid and carrying the requested status, with the multiplier or 1 when it is 0 or NaN, under the trimmed prompted name for a draft and the default name otherwise. |
| ReadyMade.FormatDisplayExpiry | tradved-next-app/src/features/StrategyVisualizer/sections/ReadyMadeStrategiesSection.tsx:136-153 | Unchanged unless 7 or 9 characters long. Then "DD MMM YYYY", with an upper-cased month and the year completed with "20" when given as two digits. |
| ReadyMade.FormatDisplayExpiryIdempotent | tradved-next-app/src/features/StrategyVisualizer/sections/ReadyMadeStrategiesSection.tsx:136-153 | Formatting a formatted expiry changes nothing. |
| ReadyMade.DefaultLotSize | tradved-next-app/src/features/StrategyVisualizer/sections/ReadyMadeStrategiesSection.tsx:463-470 | 15 exactly for BANKNIFTY names, 40 exactly for FINNIFTY names that are not BANKNIFTY names, and 50 otherwise. |
| ReadyMade.DefaultLotSizeFollowsStrikeStep | tradved-next-app/src/features/StrategyVisualizer/sections/ReadyMadeStrategiesSection.tsx:463-470 | The default lot size is 15 exactly when the strike step is 100. |
| ReadyMade.ExpiryOrder | tradved-next-app/src/features/StrategyVisualizer/sections/ReadyMadeStrategiesSection.tsx:390-400 | Sorted by date, with exactly the listed expiries; the tradved copy also removes repeats. |
| ReadyMade.NextExpiry | tradved-next-app/src/features/StrategyVisualizer/sections/ReadyMadeStrategiesSection.tsx:385-409 | The selected expiry, or a listed one no earlier than it; the selected one whenever it is not listed. When it moves on, no listed expiry dated after the selected one is dated before the result. |
| ReadyMade.NextExpiryAdvances | tradved-next-app/src/features/StrategyVisualizer/sections/ReadyMadeStrategiesSection.tsx:390-404 | In the tradved copy, a listed selected expiry with a later listed one moves on to a different listed expiry, dated no later than any listed expiry dated after the selected one. |
| ReadyMade.FrontendNextExpiryStalls | Frontend/src/features/StrategyVisualizer/sections/ReadyMadeStrategiesSection.tsx:382-397 | With two options on the selected expiry and one on a later expiry (24JUL2025 twice and 31JUL2025, say), the Frontend copy returns the selected expiry again, where the tradved copy moves to the later one. |
| ReadyMade.ChooseFuture | tradved-next-app/src/features/StrategyVisualizer/sections/ReadyMadeStrategiesSection.tsx:490-534 | Fails exactly with no futures, or for the dropdown selector with no token or no match. Otherwise it picks the dropdown match, the nearest, the next (or nearest), or the selected-else-nearest future. |
| ReadyMade.BuildLeg | tradved-next-app/src/features/StrategyVisualizer/sections/ReadyMadeStrategiesSection.tsx:373-560 | Skips unknown kinds. An option fails without expiry or spot, and is otherwise the option built on the leg's expiry (the next one for NEXT_AVAILABLE in a different-expiry template). A future is the future built on the chosen contract. A built leg is new, selected, keeps the template's side, has the template's lots ratio (or 1) as lots, and an option is bound to a listed contract on an expiry no earlier than the selected one. |
| ReadyMade.BuildOptionLeg | tradved-next-app/src/features/StrategyVisualizer/sections/ReadyMadeStrategiesSection.tsx:410-442 | Fails with "no options" when no option is listed on the expiry, with "no strikes" when none of its strikes is readable, and with "no target strike" without a strike offset; otherwise it is the pick at the offset among the sorted distinct readable strikes. |
| ReadyMade.PickOption | tradved-next-app/src/features/StrategyVisualizer/sections/ReadyMadeStrategiesSection.tsx:434-488 | Made exactly when an option of the template's type is listed at the strike the offset picks. A template leg without a type is never made. A made leg has that strike, type and expiry, the template's lots, and the token of a listed contract with exactly that expiry, strike and type; its lot size is that contract's, else the underlying's default; its price and IV are the contract's, else 0 and the default volatility; its symbol is the contract's, else the template's spelling with spaces. Otherwise it fails with "not listed". |
| ReadyMade.BuildFutureLeg | tradved-next-app/src/features/StrategyVisualizer/sections/ReadyMadeStrategiesSection.tsx:489-560 | Fails exactly when the selector chooses no contract. Otherwise the leg is the chosen future's token (also its expiry field), its lot size or the underlying's default, its last price or 0, with the template's side and lots. |
| ReadyMade.BuildLegsAllOrNothing | tradved-next-app/src/features/StrategyVisualizer/sections/ReadyMadeStrategiesSection.tsx:372-383 | The template builds exactly when no leg fails; otherwise it aborts at the first failure. |
| ReadyMade.BuildLegsCollects | tradved-next-app/src/features/StrategyVisualizer/sections/ReadyMadeStrategiesSection.tsx:372-561 | A built template holds exactly the legs its leg definitions made. |
| ReadyMade.BuildLegsKeepsEveryStep | tradved-next-app/src/features/StrategyVisualizer/sections/ReadyMadeStrategiesSection.tsx:372-383 | When no leg definition is skipped, a built template has one leg per definition. |
| ReadyMade.SelectTemplate | tradved-next-app/src/features/StrategyVisualizer/sections/ReadyMadeStrategiesSection.tsx:362-568 | Refused exactly without an underlying. Loads between 1 and as many legs as the template has. Aborts at the first failure, and warns when nothing is built from a non-empty template. |
| ReadyMade.LoadedOptionLegsAreListed | tradved-next-app/src/features/StrategyVisualizer/sections/ReadyMadeStrategiesSection.tsx:447-481 | Every loaded option leg names a listed contract with its expiry, strike and type. |
| ReadyMade.LoadedLegsAreNew | tradved-next-app/src/features/StrategyVisualizer/sections/ReadyMadeStrategiesSection.tsx:471-559 | Every loaded leg is new, selected and has non-zero lots. |
| ReadyMade.OptionTemplateLoadsEveryLeg | tradved-next-app/src/features/StrategyVisualizer/sections/ReadyMadeStrategiesSection.tsx:372-488 | A successful all-option template yields one leg per definition. |
| ReadyMade.LoadSavedLeg | tradved-next-app/src/features/StrategyVisualizer/sections/ReadyMadeStrategiesSection.tsx:587-611 | Keeps the id or takes a fresh one; keeps the status or makes it new. Lots and lot size become non-zero numbers and the price is parsed or 0. Options get a numeric strike and an IV defaulting to the default volatility. Everything else is kept. |
| ReadyMade.LoadSavedLegIdempotent | tradved-next-app/src/features/StrategyVisualizer/sections/ReadyMadeStrategiesSection.tsx:587-611 | Loading a loaded leg changes nothing. |
| ReadyMade.LoadSavedItem | tradved-next-app/src/features/StrategyVisualizer/sections/ReadyMadeStrategiesSection.tsx:579-618 | Refused exactly without legs; otherwise each leg is loaded in order. |
| ReadyMade.SaveThenLoad | tradved-next-app/src/features/StrategyVisualizer/sections/ReadyMadeStrategiesSection.tsx:579-618 | A saved strategy whose legs have ids and numeric lots, lot sizes and option strikes loads back into the builder as exactly the saved legs. |
| ReadyMade.PositionCard | tradved-next-app/src/features/StrategyVisualizer/sections/ReadyMadeStrategiesSection.tsx:706-728 | A P&L card exactly for an active position with legs. |
| ReadyMade.UnrealizedPlusNetIsMarkValue | tradved-next-app/src/features/StrategyVisualizer/sections/ReadyMadeStrategiesSection.tsx:709-728 | Unrealized P&L plus the initial net debit is the current mark value of the position. |
| ReadyMade.CardFlip | tradved-next-app/src/features/StrategyVisualizer/sections/ReadyMadeStrategiesSection.tsx:719-727 | Reversing every leg negates both the unrealized P&L and the net debit/credit. |
| ReadyMade.NoQuotesNoPnl | tradved-next-app/src/features/StrategyVisualizer/sections/ReadyMadeStrategiesSection.tsx:712-715 | Without live quotes, the unrealized P&L is 0. |
| ReadyMade.ShowPnl | tradved-next-app/src/features/StrategyVisualizer/sections/ReadyMadeStrategiesSection.tsx:741-767 | Zero exactly when below 0.01 in size. A percentage exactly when the net exceeds 0.01 in size, with percentage × \|net\| = 100 × P&L. |
| ReadyMade.NetLabel | tradved-next-app/src/features/StrategyVisualizer/sections/ReadyMadeStrategiesSection.tsx:729-734 | "Debit" exactly for a positive net and "Credit" exactly for a negative one. |
| ReadyMade.NetLabelFlip | tradved-next-app/src/features/StrategyVisualizer/sections/ReadyMadeStrategiesSection.tsx:719-734 | Reversing every leg turns a debit into a credit and back. |
| Visualizer.SpotQuote | Frontend/src/features/StrategyVisualizer/StrategyVisualizer.tsx:139-144 | The spot field when present, else the futures field, else nothing. |
| Visualizer.FirstWithData | Frontend/src/features/StrategyVisualizer/StrategyVisualizer.tsx:136-138 | An instrument of the underlying with market data, the first one in chain order; none exactly when there is no such instrument. |
| Visualizer.UnderlyingSpot | Frontend/src/features/StrategyVisualizer/StrategyVisualizer.tsx:124-146 | Always positive. None for an empty term or chain. Otherwise it is the quote of the first instrument of that underlying with market data when that quote is a positive number, and none when it is not. |
| Visualizer.SpotFieldDecides | Frontend/src/features/StrategyVisualizer/StrategyVisualizer.tsx:139-145 | A present spot field decides: a positive reading is the spot; an unreadable one gives none, without falling back to futures. |
| Visualizer.ChangeTarget | Frontend/src/features/StrategyVisualizer/StrategyVisualizer.tsx:247-255 | Always manual. A non-negative reading is stored rounded, and empty input clears the target. A negative or unreadable non-empty input keeps the old target. |
| Visualizer.ResetTargetToLive | Frontend/src/features/StrategyVisualizer/StrategyVisualizer.tsx:257-262 | No longer manual; the target becomes the rounded live spot when there is one, and stays put otherwise. |
| Visualizer.TargetStaysNonNegative | Frontend/src/features/StrategyVisualizer/StrategyVisualizer.tsx:247-262 | Neither handler ever stores a negative target. |
| Visualizer.ClampOffset | Frontend/src/features/StrategyVisualizer/StrategyVisualizer.tsx:283-289 | Within [−50, 50], and the identity there. |
| Visualizer.UpdateOffset | Frontend/src/features/StrategyVisualizer/StrategyVisualizer.tsx:279-294 | Leaves the per-contract adjustments alone; with one-decimal rounding the offset stays within [−50, 50]. |
| Visualizer.UpdateOffsetSettles | Frontend/src/features/StrategyVisualizer/StrategyVisualizer.tsx:279-294 | Re-applying the clamp and rounding to a stored offset changes nothing. |
| Visualizer.SetAdjustment | Frontend/src/features/StrategyVisualizer/StrategyVisualizer.tsx:296-304 | Stores parseFloat or 0 for that token and changes nothing else. |
| Visualizer.ResetIv | Frontend/src/features/StrategyVisualizer/StrategyVisualizer.tsx:306-309 | Zero offset and no adjustments. |
| Visualizer.ScenarioIVAsWritten | Frontend/src/features/StrategyVisualizer/StrategyVisualizer.tsx:366-377 | The default without an instrument or an IV. A numeric result is at least 0.001. |
| Visualizer.UnreadableIvEscapesFloor | Frontend/src/features/StrategyVisualizer/StrategyVisualizer.tsx:371-374 | A present but unreadable IV makes the result NaN, below no floor. |
| Visualizer.ScenarioIV | Frontend/src/features/StrategyVisualizer/StrategyVisualizer.tsx:366-377 | The default volatility without an instrument or with an unreadable IV; otherwise max(0.001, (IV + the contract adjustment + the global offset)/100). |
| Visualizer.ScenarioIVAgrees | Frontend/src/features/StrategyVisualizer/StrategyVisualizer.tsx:366-377 | Wherever the written code yields a number, and in particular whenever the listed IV is readable, the corrected function yields the same number. |
| Visualizer.ScenarioIVOf | Frontend/src/features/StrategyVisualizer/StrategyVisualizer.tsx:366-377 | The callback the calculators receive is the written scenario IV. Without an instrument it is the default volatility. Wherever it is a number it is at least 0.001 or the default, and equals the corrected scenario IV; it agrees with the corrected one whenever the IV is readable. It is NaN exactly when the instrument's IV is present but unreadable. |
| Visualizer.AdjustmentIsLocal | Frontend/src/features/StrategyVisualizer/StrategyVisualizer.tsx:296-304 | Adjusting one token leaves every other token's scenario IV unchanged. |
| Visualizer.ScenarioIVMonotoneInOffset | Frontend/src/features/StrategyVisualizer/StrategyVisualizer.tsx:372-374 | Raising the global offset never lowers a scenario IV. |
| Visualizer.ResetRestoresListedIV | Frontend/src/features/StrategyVisualizer/StrategyVisualizer.tsx:306-309 | After a reset, the scenario IV is the listed IV over 100, floored at 0.001. |
| Visualizer.LoadLeg | Frontend/src/features/StrategyVisualizer/StrategyVisualizer.tsx:313-325 | Fills a missing id, selection, price, IV and status with their defaults and changes nothing else. |
| Visualizer.LoadLegs | Frontend/src/features/StrategyVisualizer/StrategyVisualizer.tsx:311-331 | One loaded leg per incoming leg, in order. |
| Visualizer.LoadLegsIdempotent | Frontend/src/features/StrategyVisualizer/StrategyVisualizer.tsx:311-331 | Loading loaded legs changes nothing. |
| DetailedData.IvRowOf | tradved-next-app/src/features/StrategyVisualizer/sections/DetailedDataSection.tsx:142-176 | "N/A" exactly for a missing instrument, a non-option, or one without IV. Otherwise the listed IV and the contract's own adjustment. |
| DetailedData.ChangeIsTotalAdjustment | tradved-next-app/src/features/StrategyVisualizer/sections/DetailedDataSection.tsx:150-170 | A row's change is the contract's adjustment plus the global offset, and the effective IV is the listed IV plus both. |
| DetailedData.IvRows | tradved-next-app/src/features/StrategyVisualizer/sections/DetailedDataSection.tsx:142-176 | Every row is the row of a selected option leg with a token, and every such leg has its row. |
| DetailedData.IvRowsSplits | tradved-next-app/src/features/StrategyVisualizer/sections/DetailedDataSection.tsx:142-176 | The rows of two leg lists laid end to end are their rows laid end to end: leg order is kept. |
| DetailedData.IvRowsOne | tradved-next-app/src/features/StrategyVisualizer/sections/DetailedDataSection.tsx:142-149 | A single leg gives its row exactly when it is a selected option with a token. |
| DetailedData.GreeksSourceLabel | tradved-next-app/src/features/StrategyVisualizer/sections/DetailedDataSection.tsx:185-192 | "Projected Scenario" exactly with a target date and a positive target. |
| DetailedData.LabelMatchesCalculator | tradved-next-app/src/features/StrategyVisualizer/sections/DetailedDataSection.tsx:185-192 | Under "Projected Scenario" the calculator values the legs at the positive parsed target; under the live label at the live spot when it is a positive number, else at 0. |
| DetailedData.PanelParamsAsWritten | tradved-next-app/src/features/StrategyVisualizer/sections/DetailedDataSection.tsx:194-203 | The panel passes the target, the date and the IV function, but no live spot. |
| DetailedData.PanelLiveScenarioAtZero | tradved-next-app/src/features/StrategyVisualizer/sections/DetailedDataSection.tsx:194-203 | As written, the live scenario of the panel values every leg with the underlying at 0, whatever the live spot. |
| DetailedData.PanelParams | tradved-next-app/src/features/StrategyVisualizer/sections/DetailedDataSection.tsx:194-203 | The same inputs with the live spot passed along. |
| DetailedData.PanelLiveScenarioAtSpot | tradved-next-app/src/features/StrategyVisualizer/sections/DetailedDataSection.tsx:194-203 | With the live spot passed, the live scenario is valued at the live spot whenever it is a positive number. |
| DetailedData.SpotToUse | tradved-next-app/src/features/StrategyVisualizer/sections/DetailedDataSection.tsx:217-224 | The live spot when positive, else 48000 for BANKNIFTY, 23000 for NIFTY and 0 otherwise. |
| DetailedData.SdVolatility | tradved-next-app/src/features/StrategyVisualizer/sections/DetailedDataSection.tsx:225-232 | The scenario IV of the first selected option leg with a token (`FirstIvLeg`) when it is positive; the default when that IV is not positive or there is no such leg; positive when the default is. |
| DetailedData.FirstIvLeg | tradved-next-app/src/features/StrategyVisualizer/sections/DetailedDataSection.tsx:225-232 | A selected option leg with a token, the first one in leg order; none exactly when there is none. |
| DetailedData.SdRows | tradved-next-app/src/features/StrategyVisualizer/sections/DetailedDataSection.tsx:233-266 | The 1-SD and 2-SD rows exactly when the spot and the move are positive; none otherwise. The 1-SD move is spot × IV × √(days/365.25), and each row's percentage is its move over the spot, times 100. |
| DetailedData.SdRangesNested | tradved-next-app/src/features/StrategyVisualizer/sections/DetailedDataSection.tsx:244-266 | Both ranges are centred on the spot, the 2-SD move is twice the 1-SD move, and the 1-SD range lies strictly inside the 2-SD range. |
| DetailedData.SdRowsPresent | tradved-next-app/src/features/StrategyVisualizer/sections/DetailedDataSection.tsx:233-244 | With a positive spot, a positive volatility and a positive root of the horizon, both rows are shown. |

## Left out

- Rendering, styling, `alert`/`prompt` messages, `console` logging and the `toLocaleString` currency formatting. `toFixed` is an `Env` rounding function; a displayed string such as `String(target)` is represented by its number.
- Network, WebSocket and saving: the option chain is a sequence of instruments, and a save produces the payload without sending it.
- Clocks and randomness: `new Date()`, `Date.now()` and `Math.random()` become a date parameter and a `freshId` parameter.
- Date parsing and the `DDMMMYYYY` regex rewrite: an expiry's date is a key function passed in. Invalid dates (NaN times) are not modelled.
- `Math.exp`, `Math.sqrt`, Black-76 and `timeToExpiry` are `Env` functions; their internals live in files that are not part of this model.
- Floating point: arithmetic is on exact reals, and NaN is explicit in `Num`. Infinity is not modelled.
- `handleAddLeg` (NewStrategySection.tsx:155-197) is not modelled. It only seeds a leg with the first listed expiry; the edit that follows (`EditLeg`) is modelled.
- The strategy template definitions (`strategyDefinitions.ts`) are data; a template is a parameter.
- `formatDisplayExpiryForTable`, `getLegSummaryDisplay`, `expiryDateDisplay` and the card's single/"Multi-Expiry" expiry display are labels only.
- The input guard of `calculateProjectedStrategyData` (payoffDataCalculator.ts:191-204) and the `spotForCalc <= 0` guard (219-227) cannot trigger in the typed model: the callbacks always exist, and a projected scenario has a positive spot.
- The DetailedDataSection local IV increment buttons (127-140) call the same handlers the Visualizer models.
- Frontend `findStrikeByOffsetSteps` is imported from a file that is not part of this model; it is taken to be the tradved `strategyUtils.ts` function.
- A null spot is represented as NaN.
- ReadyMade.BuildLeg: a built option's strike is kept as its number, where the source stores the text `String(targetStrike)` (ReadyMadeStrategiesSection.tsx:479); the strike's text inside the fallback symbol is the selection's `numberText` function, standing for JavaScript's number-to-text conversion.
- Template legs are marked `selected` when built, which is the loader's default for legs without a selection.
- Builder.StrikesFor: unreadable strikes (NaN) are left out of the list, where the source would keep one NaN entry. An option template whose only strikes are unreadable therefore aborts with "no strikes" rather than "no target strike". With a mix of readable and unreadable strikes, ReadyMade.BuildLeg builds from the readable ones, where the source's nearest-strike search may settle on the NaN entry and abort.
- ReadyMade.ShowPnl: the "(0.0%)" branch for a non-zero P&L with a zero net cannot be reached once the P&L is at least 0.01, and is stated as never taken. The "Abs:" variant for a tiny net is shown as a P&L without percentage.
- RiskSummary.MaxLoss: the loss is displayed as an absolute value in the source; the model keeps the signed amount.
- Common.IsSpace: `trim()` also removes the vertical tab, form feed, no-break space, U+FEFF and the other Unicode spaces; only space, tab, line feed and carriage return are modelled. Common.Upper maps ASCII letters only, where `toUpperCase()` maps every cased letter.
- A missing text field is the empty text, so `expiryDate ?? expiry` (payoffDataCalculator.ts:326-329) is read as `expiryDate || expiry`. The two differ only for a future whose `expiryDate` is present but empty: the source then times the future to the empty date, the model to `expiry`.
- PayoffData.CalculateProjection: gamma is summed without direction, as written; the model states this and makes no claim about portfolio gamma.

## Findings

| source | as written | input that shows it | evidently intended | confidence | as-written member | corrected member |
|---|---|---|---|---|---|---|
| Frontend/src/features/StrategyVisualizer/sections/ReadyMadeStrategiesSection.tsx:382-397 | NEXT_AVAILABLE sorts the option expiries without removing repeats and takes the entry after the first match | two options expiring 24JUL2025 and one expiring 31JUL2025, with 24JUL2025 selected: the leg gets 24JUL2025 again | the next distinct expiry (31JUL2025), as in the tradved copy | high, not executed | ReadyMade.FrontendNextExpiryStalls | ReadyMade.NextExpiryAdvances |
| tradved-next-app/src/features/StrategyVisualizer/sections/SummaryMetricsSection.tsx:253-266 | a pair adds a breakeven only when the P&L changes sign strictly or the earlier point is at zero | payoff curve (100, −5), (105, 0): the zero at 105 is never reported | every point where the P&L reaches zero is a breakeven, as in the Frontend copy | medium, not executed | RiskSummary.TradvedMissesFinalZero | RiskSummary.FrontendReportsZeroAfterMove |
| Frontend/src/features/StrategyVisualizer/StrategyVisualizer.tsx:371-374 | `Math.max(0.001, NaN)` is NaN, so an IV text that `parseFloat` cannot read escapes the 0.001 floor | an instrument whose `iv` is "-": the scenario IV is NaN, and Black-76 prices the leg as NaN | the scenario IV stays at least 0.001, or falls back to the default volatility | medium, not executed | Visualizer.UnreadableIvEscapesFloor | Visualizer.ScenarioIV |
| tradved-next-app/src/features/StrategyVisualizer/sections/DetailedDataSection.tsx:194-203 | the panel's single-scenario call of the projection calculator passes no live spot, so without a projected target the legs are valued with the underlying at 0 | no target date and a live spot of 22000: every leg's Greeks and P&L are computed at spot 0 | the live scenario is valued at the live spot, which the calculator's own `underlyingSpotPrice` parameter (tradved-next-app/src/lib/payoffDataCalculator.ts:111, :214-215) exists to receive; every call site omits it, the payoff chart's calls (tradved-next-app/src/features/StrategyVisualizer/sections/PayoffChartSection.tsx:166, Frontend/src/features/StrategyVisualizer/sections/PayoffChartSection.tsx:157) included | medium, not executed | DetailedData.PanelLiveScenarioAtZero | DetailedData.PanelLiveScenarioAtSpot |

=== FILE: Builder.dfy ===
/** The strategy builder: premium totals of the legs being built, the strike
    and option-type choices offered for an expiry, editing, duplicating,
    removing and clearing legs, refreshing prices, and the validation done
    before a strategy is saved. Edits go through one function per action and
    return the new leg list. */
module Builder {
  import opened Common
  import opened Market
  import opened StrategyUtils

  /** What the builder knows besides the legs: the tradable instruments of
      the current underlying, its name and live spot, and the template that
      spells a fallback instrument symbol from underlying, expiry, strike and
      option type. */
  datatype Context = Context(
    options: seq<Instrument>,
    futures: seq<Instrument>,
    underlying: string,
    spot: Num,
    spell: (string, string, JsVal, Option<OptionKind>) -> string
  )

  /** The empty string stored as a strike: "no strike chosen". */
  const NoStrike: JsVal := JStr("", NaN, Fin(0.0))

  /** `v === ""` */
  predicate IsEmptyText(v: JsVal) {
    v.JStr? && v.text == ""
  }

  /** `Number(a) === Number(b)`; NaN equals nothing. */
  predicate SameNumber(a: JsVal, b: JsVal) {
    NumberOf(a).Fin? && NumberOf(b).Fin? && NumberOf(a).r == NumberOf(b).r
  }

  // ---------------------------------------------------------------------------
  // Premium totals
  // ---------------------------------------------------------------------------

  predicate Counted(leg: Leg) {
    leg.selected && HasLegType(leg.legType)
  }

  /** A numeric price as it is, anything else 0. */
  function PremiumPrice(leg: Leg): (p: Num)
    ensures !leg.price.JNum? ==> p == Fin(0.0)
  {
    if leg.price.JNum? then leg.price.n else Fin(0.0)
  }

  /** A positive numeric count as it is, anything else 1. */
  function CountOrOne(v: JsVal): (c: real)
    ensures c > 0.0
    ensures c != 1.0 ==> v.JNum? && v.n.Fin? && v.n.r == c
  {
    if v.JNum? && Gt(v.n, Fin(0.0)) then v.n.r else 1.0
  }

  datatype Premium = Premium(total: Num, net: Num)

  /** `-price * dir`: what the leg pays (negative) or receives per unit. */
  function CashPerUnit(leg: Leg): Num {
    var p := PremiumPrice(leg);
    if leg.buySell.Buy? then Neg(p) else p
  }

  function LegPremium(leg: Leg): Premium {
    var c := CashPerUnit(leg);
    Premium(Mul(c, Fin(CountOrOne(leg.lots) * CountOrOne(leg.lotSize))), c)
  }

  function AddPremium(a: Premium, b: Premium): Premium {
    Premium(Add(a.total, b.total), Add(a.net, b.net))
  }

  /** The premium received (positive) or paid (negative) by the selected legs
      that have a leg type: in total, and per unit. */
  function PremiumTotals(legs: seq<Leg>): Premium {
    if |legs| == 0 then Premium(Fin(0.0), Fin(0.0))
    else
      var rest := PremiumTotals(legs[1..]);
      if Counted(legs[0]) then AddPremium(LegPremium(legs[0]), rest) else rest
  }

  /** −price × direction × lots × lot size of one leg, and −price ×
      direction per unit, with lots and lot size read by `CountOrOne`. */
  function LegCash(leg: Leg): Premium {
    var p := PremiumPrice(leg);
    if p.NaN? then Premium(NaN, NaN)
    else
      var perUnit := -p.r * Direction(leg.buySell);
      Premium(Fin(perUnit * (CountOrOne(leg.lots) * CountOrOne(leg.lotSize))), Fin(perUnit))
  }

  /** Σ `LegCash` over the legs, in total and per unit. */
  function CashSum(legs: seq<Leg>): Premium {
    if |legs| == 0 then Premium(Fin(0.0), Fin(0.0)) else AddPremium(LegCash(legs[0]), CashSum(legs[1..]))
  }

  lemma LegPremiumIsCash(leg: Leg)
    ensures LegPremium(leg) == LegCash(leg)
  {
    var p := PremiumPrice(leg);
    if p.Fin? {
      SignedIsProduct(-p.r, leg.buySell);
    }
  }

  /** The totals are Σ −price × direction × lots × lot size (and Σ −price ×
      direction per unit) over the selected legs with a type. */
  lemma {:induction false} PremiumTotalsAreCashSum(legs: seq<Leg>)
    ensures PremiumTotals(legs) == CashSum(CountedLegs(legs))
  {
    if |legs| > 0 {
      var rest := CountedLegs(legs[1..]);
      PremiumTotalsAreCashSum(legs[1..]);
      if Counted(legs[0]) {
        assert CountedLegs(legs) == [legs[0]] + rest;
        assert ([legs[0]] + rest)[1..] == rest;
        LegPremiumIsCash(legs[0]);
      } else {
        assert CountedLegs(legs) == rest;
      }
    }
  }

  /** Unselected legs and legs without a type do not affect the totals. */
  lemma {:induction false} PremiumIgnoresUncounted(legs: seq<Leg>, extra: Leg)
    requires !Counted(extra)
    ensures PremiumTotals([extra] + legs) == PremiumTotals(legs)
  {
    assert ([extra] + legs)[1..] == legs;
  }

  lemma LegPremiumFlip(leg: Leg)
    ensures LegPremium(FlipLeg(leg)) == Premium(Neg(LegPremium(leg).total), Neg(LegPremium(leg).net))
  {
    var p := PremiumPrice(leg);
    assert PremiumPrice(FlipLeg(leg)) == p;
    if p.Fin? {
      var m := CountOrOne(leg.lots) * CountOrOne(leg.lotSize);
      assert (-p.r) * m == -(p.r * m);
    }
  }

  /** Reversing every leg turns the premium paid into premium received. */
  lemma {:induction false} PremiumFlip(legs: seq<Leg>)
    ensures PremiumTotals(FlipAll(legs)) == Premium(Neg(PremiumTotals(legs).total), Neg(PremiumTotals(legs).net))
  {
    if |legs| > 0 {
      assert FlipAll(legs)[1..] == FlipAll(legs[1..]);
      PremiumFlip(legs[1..]);
      var rest := PremiumTotals(legs[1..]);
      if Counted(legs[0]) {
        LegPremiumFlip(legs[0]);
        NegAdd(LegPremium(legs[0]).total, rest.total);
        NegAdd(LegPremium(legs[0]).net, rest.net);
      }
    }
  }

  /** With one lot of size one everywhere, the total is the per-unit net. */
  lemma {:induction false} UnitLotsTotalIsNet(legs: seq<Leg>)
    requires forall l :: l in legs ==> CountOrOne(l.lots) == 1.0 && CountOrOne(l.lotSize) == 1.0
    ensures PremiumTotals(legs).total == PremiumTotals(legs).net
  {
    if |legs| > 0 {
      assert legs[0] in legs;
      assert forall l :: l in legs[1..] ==> l in legs;
      UnitLotsTotalIsNet(legs[1..]);
      if Counted(legs[0]) {
        UnitLegPremium(legs[0]);
      }
    }
  }

  /** One lot of size one: the leg's total is its per-unit cash. */
  lemma UnitLegPremium(leg: Leg)
    requires CountOrOne(leg.lots) == 1.0 && CountOrOne(leg.lotSize) == 1.0
    ensures LegPremium(leg).total == LegPremium(leg).net
  {
    assert CountOrOne(leg.lots) * CountOrOne(leg.lotSize) == 1.0;
  }

  // ---------------------------------------------------------------------------
  // Choices offered for an expiry
  // ---------------------------------------------------------------------------

  function ReadableStrikes(options: seq<Instrument>, expiry: string): (r: seq<real>)
    ensures forall x :: x in r <==>
      exists i :: 0 <= i < |options| && options[i].expiry == expiry
                  && NumberOf(options[i].strike) == Fin(x)
  {
    if |options| == 0 then []
    else
      var rest := ReadableStrikes(options[1..], expiry);
      assert forall i :: 1 <= i < |options| ==> options[i] == options[1..][i - 1];
      var k := NumberOf(options[0].strike);
      if options[0].expiry == expiry && k.Fin? then [k.r] + rest else rest
  }

  /** The distinct readable strikes listed for an expiry, ascending; none for
      an empty expiry. Unreadable strikes are left out. */
  function StrikesFor(options: seq<Instrument>, expiry: string): (r: seq<real>)
    ensures expiry == "" ==> r == []
    ensures forall i, j :: 0 <= i < j < |r| ==> r[i] < r[j]
    ensures expiry != "" ==> forall x :: x in r <==>
      exists i :: 0 <= i < |options| && options[i].expiry == expiry && NumberOf(options[i].strike) == Fin(x)
  {
    if expiry == "" then [] else SortUniqueReals(ReadableStrikes(options, expiry))
  }

  predicate MatchesContract(o: Instrument, expiry: string, strike: JsVal) {
    o.expiry == expiry && SameNumber(o.strike, strike)
  }

  predicate Lists(options: seq<Instrument>, expiry: string, strike: JsVal, kind: OptionKind) {
    exists i :: 0 <= i < |options| && MatchesContract(options[i], expiry, strike) && options[i].optionType == Some(kind)
  }

  function HasKind(options: seq<Instrument>, expiry: string, strike: JsVal, kind: OptionKind): (b: bool)
    ensures b <==> Lists(options, expiry, strike, kind)
  {
    if |options| == 0 then false
    else
      assert forall i :: 1 <= i < |options| ==> options[i] == options[1..][i - 1];
      (MatchesContract(options[0], expiry, strike) && options[0].optionType == Some(kind))
      || HasKind(options[1..], expiry, strike, kind)
  }

  /** The option types listed for an expiry and strike, CE before PE; none
      when the expiry or the strike is missing. */
  function TypesFor(options: seq<Instrument>, expiry: string, strike: JsVal): (r: seq<OptionKind>)
    ensures expiry == "" || strike.Undef? || IsEmptyText(strike) ==> r == []
    ensures !(expiry == "" || strike.Undef? || IsEmptyText(strike)) ==>
      forall k :: k in r <==> Lists(options, expiry, strike, k)
    ensures |r| <= 2 && (|r| == 2 ==> r == [CE, PE])
  {
    if expiry == "" || strike.Undef? || IsEmptyText(strike) then []
    else
      var r := (if HasKind(options, expiry, strike, CE) then [CE] else [])
               + (if HasKind(options, expiry, strike, PE) then [PE] else []);
      assert forall k :: k in r <==> (k == CE && HasKind(options, expiry, strike, CE)) || (k == PE && HasKind(options, expiry, strike, PE));
      r
  }

  /** CE when it is on offer, else the first type offered. */
  function PreferredType(types: seq<OptionKind>): (t: Option<OptionKind>)
    ensures t.None? <==> |types| == 0
    ensures t.Some? ==> t.value in types
    ensures CE in types ==> t == Some(CE)
  {
    if CE in types then Some(CE) else if |types| > 0 then Some(types[0]) else None
  }

  /** The first listed option with this expiry, strike and type. */
  function FindOption(options: seq<Instrument>, expiry: string, strike: JsVal, kind: Option<OptionKind>): (r: Option<Instrument>)
    ensures expiry == "" || strike.Undef? || IsEmptyText(strike) || kind.None? ==> r.None?
    ensures r.Some? ==> r.value in options && MatchesContract(r.value, expiry, strike) && r.value.optionType == kind
    ensures r.None? && kind.Some? && !(expiry == "" || strike.Undef? || IsEmptyText(strike)) ==>
      !Lists(options, expiry, strike, kind.value)
    ensures !(expiry == "" || strike.Undef? || IsEmptyText(strike) || kind.None?) ==>
      forall k :: 0 <= k < |options| && MatchesContract(options[k], expiry, strike) && options[k].optionType == kind ==>
        r.Some? && (r.value == options[k] || r.value in options[..k])
  {
    if expiry == "" || strike.Undef? || IsEmptyText(strike) || kind.None? then None
    else FirstMatch(options, expiry, strike, kind.value)
  }

  function FirstMatch(options: seq<Instrument>, expiry: string, strike: JsVal, kind: OptionKind): (r: Option<Instrument>)
    ensures r.Some? ==> r.value in options && MatchesContract(r.value, expiry, strike) && r.value.optionType == Some(kind)
    ensures r.None? <==> !Lists(options, expiry, strike, kind)
    ensures forall k :: 0 <= k < |options| && MatchesContract(options[k], expiry, strike) && options[k].optionType == Some(kind) ==>
      r.Some? && (r.value == options[k] || r.value in options[..k])
  {
    if |options| == 0 then None
    else if MatchesContract(options[0], expiry, strike) && options[0].optionType == Some(kind) then
      assert forall k :: 0 < k < |options| ==> options[..k][0] == options[0];
      Some(options[0])
    else
      assert forall i :: 1 <= i < |options| ==> options[i] == options[1..][i - 1];
      assert forall k :: 1 <= k < |options| ==> options[..k] == [options[0]] + options[1..][..k - 1];
      FirstMatch(options[1..], expiry, strike, kind)
  }

  /** The future with this token; none for an empty token. */
  function FindFuture(futures: seq<Instrument>, token: string): (r: Option<Instrument>)
    ensures token == "" ==> r.None?
    ensures r.Some? ==> r.value in futures && r.value.token == token
    ensures r.None? && token != "" ==> forall f :: f in futures ==> f.token != token
    ensures token != "" ==> forall k :: 0 <= k < |futures| && futures[k].token == token ==>
      r.Some? && (r.value == futures[k] || r.value in futures[..k])
  {
    if token == "" || |futures| == 0 then None
    else if futures[0].token == token then
      assert forall k :: 0 < k < |futures| ==> futures[..k][0] == futures[0];
      Some(futures[0])
    else
      assert forall f :: f in futures[1..] ==> f in futures;
      assert forall f :: f in futures ==> f == futures[0] || f in futures[1..];
      assert forall i :: 1 <= i < |futures| ==> futures[i] == futures[1..][i - 1];
      assert forall k :: 1 <= k < |futures| ==> futures[..k] == [futures[0]] + futures[1..][..k - 1];
      FindFuture(futures[1..], token)
  }

  // ---------------------------------------------------------------------------
  // Editing a leg
  // ---------------------------------------------------------------------------

  /** One field edit of the leg row. `SetLots` carries what `parseInt` read. */
  datatype Edit =
    | SetSelected(selected: bool)
    | SetSide(side: Side)
    | SetLots(parsed: Num)
    | SetPrice(price: JsVal)
    | SetStrike(strike: JsVal)
    | SetIv(iv: JsVal)
    | SetExpiry(expiry: string)
    | SetOptionType(kind: Option<OptionKind>)
    | SetLotSize(lotSize: JsVal)

  /** `Math.max(1, parsed || 1)` */
  function LotsFrom(parsed: Num): (n: real)
    ensures n >= 1.0
    ensures parsed.Fin? && parsed.r >= 1.0 ==> n == parsed.r
  {
    Max(1.0, NumOr(parsed, 1.0))
  }

  /** The edited field stored, with lots and price normalised. */
  function Assign(leg: Leg, e: Edit): Leg {
    match e
    case SetSelected(b) => leg.(selected := b)
    case SetSide(s) => leg.(buySell := s)
    case SetLots(p) => leg.(lots := JNum(Fin(LotsFrom(p))))
    case SetPrice(v) => leg.(price := JNum(Fin(ParseOr(v, 0.0))))
    case SetStrike(v) => leg.(strike := v)
    case SetIv(v) => leg.(iv := v)
    case SetExpiry(x) => leg.(expiry := x)
    case SetOptionType(t) => leg.(optionType := t)
    case SetLotSize(v) => leg.(lotSize := v)
  }

  /** `instrumentSymbol || symbol || fallback` */
  function SymbolOr(i: Instrument, fallback: string): string {
    if i.instrumentSymbol != "" then i.instrumentSymbol else if i.symbol != "" then i.symbol else fallback
  }

  /** `lotSize || contractInfo.lotSize || current` */
  function OptionLotSize(i: Instrument, current: JsVal): JsVal {
    if Truthy(i.lotSize) then i.lotSize else if Truthy(i.contractLotSize) then i.contractLotSize else current
  }

  /** A listed value read with `parseFloat`, or the current one when absent. */
  function Quote(v: JsVal, current: JsVal): JsVal {
    if v.Undef? then current else JNum(ParseFloat(v))
  }

  /** The leg's token is that of a listed option with the leg's expiry,
      strike and type. */
  ghost predicate Bound(ctx: Context, leg: Leg) {
    exists o :: o in ctx.options && o.token == leg.token
      && MatchesContract(o, leg.expiry, leg.strike) && o.optionType == leg.optionType
  }

  /** The leg names an expiry, a strike and a type, and some listed option
      has exactly those. */
  predicate Listed(ctx: Context, leg: Leg) {
    && leg.expiry != "" && !leg.strike.Undef? && !IsEmptyText(leg.strike) && leg.optionType.Some?
    && Lists(ctx.options, leg.expiry, leg.strike, leg.optionType.value)
  }

  /** The leg names an expiry, a strike and a type, listed or not. */
  predicate Named(leg: Leg) {
    leg.expiry != "" && !IsEmptyText(leg.strike) && leg.optionType.Some?
  }

  /** Binds an option leg to the listed contract its expiry, strike and type
      name, or clears the binding. A listed contract is always found, and
      the leg then takes the first match's token, symbol and lot size, and
      its last price and IV when it quotes them; otherwise the token is
      cleared and every other field kept. */
  function BindOption(ctx: Context, leg: Leg): (r: Leg)
    ensures r.id == leg.id && r.status == leg.status && r.legType == leg.legType
    ensures r.expiry == leg.expiry && r.strike == leg.strike && r.optionType == leg.optionType
    ensures r.lots == leg.lots && r.selected == leg.selected && r.buySell == leg.buySell
    ensures r.token != "" ==> Bound(ctx, r)
    ensures Listed(ctx, leg) ==> FindOption(ctx.options, leg.expiry, leg.strike, leg.optionType).Some?
    ensures Listed(ctx, leg) ==>
      var d := FindOption(ctx.options, leg.expiry, leg.strike, leg.optionType).value;
      && r.token == d.token
      && r.symbol == SymbolOr(d, ctx.spell(ctx.underlying, leg.expiry, leg.strike, leg.optionType))
      && r.lotSize == OptionLotSize(d, leg.lotSize)
      && r.price == Quote(d.lastPrice, leg.price)
      && r.iv == Quote(d.iv, leg.iv)
    ensures !Listed(ctx, leg) ==>
      r == leg.(token := "", symbol := if Named(leg) then ctx.spell(ctx.underlying, leg.expiry, leg.strike, leg.optionType) else "")
  {
    if leg.expiry != "" && !IsEmptyText(leg.strike) && leg.optionType.Some? then
      match FindOption(ctx.options, leg.expiry, leg.strike, leg.optionType)
      case Some(d) =>
        leg.(token := d.token,
             symbol := SymbolOr(d, ctx.spell(ctx.underlying, leg.expiry, leg.strike, leg.optionType)),
             lotSize := OptionLotSize(d, leg.lotSize),
             price := Quote(d.lastPrice, leg.price),
             iv := Quote(d.iv, leg.iv))
      case None =>
        leg.(token := "", symbol := ctx.spell(ctx.underlying, leg.expiry, leg.strike, leg.optionType))
    else leg.(token := "", symbol := "")
  }

  /** Binding a bound leg again changes nothing: the quoted fields already
      hold the listed contract's values. */
  lemma BindOptionIdempotent(ctx: Context, leg: Leg)
    ensures BindOption(ctx, BindOption(ctx, leg)) == BindOption(ctx, leg)
  {
  }

  /** `spot || 0` */
  function SpotOrZero(ctx: Context): real {
    NumOr(ctx.spot, 0.0)
  }

  /** The follow-up of an edit on an option leg that is not an active position. */
  function OptionFollowUp(ctx: Context, leg: Leg, e: Edit): (r: Leg)
    ensures r.id == leg.id && r.status == leg.status && r.legType == leg.legType
    ensures r.lots == leg.lots && r.selected == leg.selected
    ensures !(e.SetStrike? || e.SetIv? || e.SetExpiry? || e.SetOptionType?) ==> r == leg
  {
    match e
    case SetStrike(v) =>
      var withStrike := leg.(strike := if IsEmptyText(v) then v else JNum(NumberOf(v)));
      if withStrike.expiry != "" then
        BindOption(ctx, withStrike.(optionType := PreferredType(TypesFor(ctx.options, withStrike.expiry, withStrike.strike))))
      else BindOption(ctx, withStrike)
    case SetIv(v) => leg.(iv := JNum(Fin(ParseOr(v, 0.0))))
    case SetExpiry(x) =>
      var strikes := StrikesFor(ctx.options, x);
      if |strikes| > 0 then
        var atm := JNum(Fin(ATMStrike(SpotOrZero(ctx), strikes).value));
        BindOption(ctx, leg.(strike := atm, optionType := PreferredType(TypesFor(ctx.options, x, atm))))
      else BindOption(ctx, leg.(strike := NoStrike, optionType := None))
    case SetOptionType(_) => BindOption(ctx, leg)
    case _ => leg
  }

  /** The follow-up of an expiry edit on a future leg: the expiry names the
      future by token. */
  function FutureFollowUp(ctx: Context, leg: Leg, e: Edit): (r: Leg)
    ensures r.id == leg.id && r.status == leg.status && r.legType == leg.legType
    ensures r.lots == leg.lots && r.selected == leg.selected
    ensures !e.SetExpiry? ==> r == leg
    ensures e.SetExpiry? && FindFuture(ctx.futures, e.expiry).Some? ==>
      var f := FindFuture(ctx.futures, e.expiry).value;
      && r.token == e.expiry && r.expiry == e.expiry
      && r.symbol == SymbolOr(f, ctx.underlying + " Future")
      && r.lotSize == (if Truthy(f.lotSize) then f.lotSize else leg.lotSize)
      && r.price == Quote(f.lastPrice, leg.price)
    ensures e.SetExpiry? && FindFuture(ctx.futures, e.expiry).None? ==> r == leg.(token := "", symbol := "")
  {
    if e.SetExpiry? then
      match FindFuture(ctx.futures, e.expiry)
      case Some(f) =>
        leg.(token := f.token, expiry := f.token,
             symbol := SymbolOr(f, ctx.underlying + " Future"),
             lotSize := if Truthy(f.lotSize) then f.lotSize else leg.lotSize,
             price := Quote(f.lastPrice, leg.price))
      case None => leg.(token := "", symbol := "")
    else leg
  }

  /** One edit applied to one leg. An active position accepts only a change
      of selection. */
  function EditLeg(ctx: Context, leg: Leg, e: Edit): (r: Leg)
    ensures r.id == leg.id && r.status == leg.status && r.legType == leg.legType
    ensures leg.status.ActivePosition? && !e.SetSelected? ==> r == leg
    ensures e.SetSelected? ==> r == leg.(selected := e.selected)
    ensures !leg.status.ActivePosition? && e.SetLots? ==>
              r.lots.JNum? && r.lots.n.Fin? && r.lots.n.r >= 1.0
    ensures !leg.status.ActivePosition? && e.SetPrice? ==> r == leg.(price := JNum(Fin(ParseOr(e.price, 0.0))))
    ensures !leg.status.ActivePosition? && e.SetSide? ==> r == leg.(buySell := e.side)
    ensures !leg.status.ActivePosition? && e.SetLots? ==> r == leg.(lots := JNum(Fin(LotsFrom(e.parsed))))
    ensures !leg.status.ActivePosition? && e.SetLotSize? ==> r == leg.(lotSize := e.lotSize)
    ensures !leg.status.ActivePosition? && e.SetIv? ==>
              r == leg.(iv := if leg.legType.OptionLeg? then JNum(Fin(ParseOr(e.iv, 0.0))) else e.iv)
    ensures !leg.status.ActivePosition? && e.SetStrike? && !leg.legType.OptionLeg? ==> r == leg.(strike := e.strike)
    ensures !leg.status.ActivePosition? && e.SetStrike? && leg.legType.OptionLeg? ==>
              && r.strike == (if IsEmptyText(e.strike) then e.strike else JNum(NumberOf(e.strike)))
              && r.expiry == leg.expiry && r.buySell == leg.buySell && r.lots == leg.lots
              && (leg.expiry == "" ==> r.optionType == leg.optionType)
              && (leg.expiry != "" ==> r.optionType == PreferredType(TypesFor(ctx.options, leg.expiry, r.strike)))
    ensures !leg.status.ActivePosition? && e.SetExpiry? && leg.legType.OptionLeg? ==> r.expiry == e.expiry
    ensures !leg.status.ActivePosition? && e.SetOptionType? && leg.legType.OptionLeg? ==>
              r.optionType == e.kind && r.expiry == leg.expiry && r.strike == leg.strike
    ensures !leg.status.ActivePosition? && leg.legType.OptionLeg? && (e.SetExpiry? || e.SetStrike? || e.SetOptionType?) ==>
              r == BindOption(ctx, Assign(leg, e).(strike := r.strike, optionType := r.optionType))
    ensures !leg.status.ActivePosition? && e.SetExpiry? && leg.legType.FutureLeg? && FindFuture(ctx.futures, e.expiry).Some? ==>
              var f := FindFuture(ctx.futures, e.expiry).value;
              && r.token == e.expiry && r.expiry == e.expiry
              && r.lotSize == (if Truthy(f.lotSize) then f.lotSize else leg.lotSize)
              && r.price == Quote(f.lastPrice, leg.price)
    ensures !leg.status.ActivePosition? && e.SetExpiry? && leg.legType.FutureLeg? && FindFuture(ctx.futures, e.expiry).None? ==>
              r == leg.(expiry := e.expiry, token := "", symbol := "")
  {
    if leg.status.ActivePosition? && !e.SetSelected? then leg
    else
      var u := Assign(leg, e);
      match leg.legType
      case OptionLeg => OptionFollowUp(ctx, u, e)
      case FutureLeg => FutureFollowUp(ctx, u, e)
      case OtherLeg(_) => u
  }

  /** `handleLegChange`: the edit reaches every leg with the given id and no
      other. */
  function HandleLegChange(ctx: Context, legs: seq<Leg>, id: string, e: Edit): (r: seq<Leg>)
    ensures |r| == |legs|
    ensures forall i :: 0 <= i < |legs| && legs[i].id != id ==> r[i] == legs[i]
    ensures forall i :: 0 <= i < |legs| && legs[i].id == id ==> r[i] == EditLeg(ctx, legs[i], e)
  {
    if |legs| == 0 then []
    else [if legs[0].id == id then EditLeg(ctx, legs[0], e) else legs[0]] + HandleLegChange(ctx, legs[1..], id, e)
  }

  /** After an edit of its expiry, strike or type, an option leg is bound to
      a listed contract with exactly that expiry, strike and type, or to none:
      whenever such a contract is listed the leg carries the first one's
      token, lot size and quotes, and otherwise its token is empty and its
      price, IV and lot size are unchanged. */
  lemma OptionEditKeepsBinding(ctx: Context, leg: Leg, e: Edit)
    requires leg.legType.OptionLeg? && !leg.status.ActivePosition?
    requires e.SetExpiry? || e.SetStrike? || e.SetOptionType?
    ensures var r := EditLeg(ctx, leg, e);
      r.token != "" ==> Bound(ctx, r)
    ensures var r := EditLeg(ctx, leg, e);
      Listed(ctx, r) ==>
        && FindOption(ctx.options, r.expiry, r.strike, r.optionType).Some?
        && var d := FindOption(ctx.options, r.expiry, r.strike, r.optionType).value;
        && r.token == d.token && r.lotSize == OptionLotSize(d, leg.lotSize)
        && r.price == Quote(d.lastPrice, leg.price) && r.iv == Quote(d.iv, leg.iv)
    ensures var r := EditLeg(ctx, leg, e);
      !Listed(ctx, r) ==> r.token == "" && r.price == leg.price && r.iv == leg.iv && r.lotSize == leg.lotSize
  {
    var r := EditLeg(ctx, leg, e);
    var u := Assign(leg, e).(strike := r.strike, optionType := r.optionType);
    assert r == BindOption(ctx, u);
    assert u.price == leg.price && u.iv == leg.iv && u.lotSize == leg.lotSize;
  }

  /** A new expiry with listed strikes selects the strike nearest the spot
      (the lower of two equally near ones) and CE whenever CE is listed. */
  lemma ExpiryEditPicksATM(ctx: Context, leg: Leg, expiry: string)
    requires leg.legType.OptionLeg? && !leg.status.ActivePosition?
    requires |StrikesFor(ctx.options, expiry)| > 0
    ensures var r := EditLeg(ctx, leg, SetExpiry(expiry));
      && r.expiry == expiry
      && r.strike.JNum? && r.strike.n.Fin?
      && r.strike.n.r in StrikesFor(ctx.options, expiry)
      && (forall x :: x in StrikesFor(ctx.options, expiry) ==> Distance(SpotOrZero(ctx), r.strike.n.r) <= Distance(SpotOrZero(ctx), x))
      && (forall x :: x in StrikesFor(ctx.options, expiry) && Distance(SpotOrZero(ctx), x) == Distance(SpotOrZero(ctx), r.strike.n.r) ==>
            r.strike.n.r <= x)
      && (Lists(ctx.options, expiry, r.strike, CE) ==> r.optionType == Some(CE))
      && (r.optionType.Some? ==> Lists(ctx.options, expiry, r.strike, r.optionType.value))
  {
    var strikes := StrikesFor(ctx.options, expiry);
    var atm := JNum(Fin(ATMStrike(SpotOrZero(ctx), strikes).value));
    assert expiry != "";
    var types := TypesFor(ctx.options, expiry, atm);
    assert forall k :: k in types <==> Lists(ctx.options, expiry, atm, k);
    ATMTieGoesLow(SpotOrZero(ctx), strikes);
  }

  /** An expiry with no listed strike leaves the leg without strike, type or
      binding. */
  lemma ExpiryEditWithoutStrikes(ctx: Context, leg: Leg, expiry: string)
    requires leg.legType.OptionLeg? && !leg.status.ActivePosition?
    requires |StrikesFor(ctx.options, expiry)| == 0
    ensures var r := EditLeg(ctx, leg, SetExpiry(expiry));
      r.strike == NoStrike && r.optionType.None? && r.token == "" && r.symbol == ""
  {
  }

  /** Selecting twice is selecting once. */
  lemma SelectionEditIdempotent(ctx: Context, legs: seq<Leg>, id: string, b: bool)
    ensures HandleLegChange(ctx, HandleLegChange(ctx, legs, id, SetSelected(b)), id, SetSelected(b))
            == HandleLegChange(ctx, legs, id, SetSelected(b))
  {
  }

  // ---------------------------------------------------------------------------
  // Removing, clearing, duplicating, refreshing, selecting
  // ---------------------------------------------------------------------------

  /** Whether a leg survives the removal of `id`. */
  function Survives(id: string): Leg -> bool {
    (l: Leg) => l.id != id || l.status.ActivePosition?
  }

  /** `handleRemoveLeg`: drops the legs with the id, except active positions. */
  function RemoveLeg(legs: seq<Leg>, id: string): (r: seq<Leg>)
    ensures forall l :: l in r <==> l in legs && (l.id != id || l.status.ActivePosition?)
    ensures |r| <= |legs|
    ensures r == Filter(legs, Survives(id))
  {
    if |legs| == 0 then []
    else
      assert legs == [legs[0]] + legs[1..];
      (if legs[0].id != id || legs[0].status.ActivePosition? then [legs[0]] else []) + RemoveLeg(legs[1..], id)
  }

  /** Removing the same id again changes nothing. */
  lemma {:induction false} RemoveLegIdempotent(legs: seq<Leg>, id: string)
    ensures RemoveLeg(RemoveLeg(legs, id), id) == RemoveLeg(legs, id)
  {
    if |legs| > 0 {
      RemoveLegIdempotent(legs[1..], id);
      var keep := legs[0].id != id || legs[0].status.ActivePosition?;
      var rest := RemoveLeg(legs[1..], id);
      if keep {
        assert RemoveLeg(legs, id) == [legs[0]] + rest;
        assert ([legs[0]] + rest)[1..] == rest;
      } else {
        assert RemoveLeg(legs, id) == rest;
      }
    }
  }

  predicate IsActive(leg: Leg) {
    leg.status.ActivePosition?
  }

  function ActiveLegs(legs: seq<Leg>): (r: seq<Leg>)
    ensures forall l :: l in r <==> l in legs && l.status.ActivePosition?
    ensures r == Filter(legs, IsActive)
    ensures |r| <= |legs|
    ensures |r| == |legs| <==> forall l :: l in legs ==> l.status.ActivePosition?
  {
    if |legs| == 0 then []
    else
      assert legs == [legs[0]] + legs[1..];
      (if legs[0].status.ActivePosition? then [legs[0]] else []) + ActiveLegs(legs[1..])
  }

  /** `handleClearTrades`: keeps the active positions; a list made only of
      active positions is refused and left as it is. */
  function ClearTrades(legs: seq<Leg>): (r: seq<Leg>)
    ensures forall l :: l in r <==> l in legs && l.status.ActivePosition?
  {
    var active := ActiveLegs(legs);
    if |active| == |legs| && |legs| > 0 then legs else active
  }

  lemma {:induction false} ActiveLegsOfActive(legs: seq<Leg>)
    requires forall l :: l in legs ==> l.status.ActivePosition?
    ensures ActiveLegs(legs) == legs
  {
    FilterKeepsAll(legs, IsActive);
  }

  /** Whether refused or not, clearing leaves exactly the active positions
      in their order, so clearing twice is clearing once. */
  lemma ClearTradesKeepsActive(legs: seq<Leg>)
    ensures ClearTrades(legs) == ActiveLegs(legs)
    ensures ClearTrades(ClearTrades(legs)) == ClearTrades(legs)
  {
    var active := ActiveLegs(legs);
    if |active| == |legs| && |legs| > 0 {
      ActiveLegsOfActive(legs);
    }
    ActiveLegsOfActive(active);
  }

  function FindLeg(legs: seq<Leg>, id: string): (r: Option<Leg>)
    ensures r.Some? ==> r.value in legs && r.value.id == id
    ensures r.None? <==> forall l :: l in legs ==> l.id != id
    ensures forall k :: 0 <= k < |legs| && legs[k].id == id ==> r.Some? && (r.value == legs[k] || r.value in legs[..k])
  {
    if |legs| == 0 then None
    else if legs[0].id == id then
      assert forall k :: 0 < k < |legs| ==> legs[..k][0] == legs[0];
      Some(legs[0])
    else
      assert forall l :: l in legs ==> l == legs[0] || l in legs[1..];
      assert forall i :: 1 <= i < |legs| ==> legs[i] == legs[1..][i - 1];
      assert forall k :: 1 <= k < |legs| ==> legs[..k] == [legs[0]] + legs[1..][..k - 1];
      FindLeg(legs[1..], id)
  }

  /** The current quote of the contract a leg names, if listed with a price. */
  function ListedPrice(ctx: Context, leg: Leg): Option<JsVal> {
    match leg.legType
    case OptionLeg =>
      var d := FindOption(ctx.options, leg.expiry, leg.strike, leg.optionType);
      if d.Some? && !d.value.lastPrice.Undef? then Some(d.value.lastPrice) else None
    case FutureLeg =>
      var f := FindFuture(ctx.futures, leg.expiry);
      if f.Some? && !f.value.lastPrice.Undef? then Some(f.value.lastPrice) else None
    case OtherLeg(_) => None
  }

  /** `handleDuplicateLeg`: appends a selected new copy of the first leg with
      the id, under `freshId`, priced at the current quote (the copied price
      otherwise); an option copy takes the listed IV when there is one, and
      any other copy loses its IV. */
  function DuplicateLeg(ctx: Context, legs: seq<Leg>, id: string, freshId: string): (r: seq<Leg>)
    ensures FindLeg(legs, id).None? ==> r == legs
    ensures FindLeg(legs, id).Some? ==> |r| == |legs| + 1 && r[..|legs|] == legs
    ensures FindLeg(legs, id).Some? ==>
      var src := FindLeg(legs, id).value;
      var copy := r[|legs|];
      && copy.id == freshId && copy.selected && copy.status == NewLeg
      && copy.(id := src.id, selected := src.selected, status := src.status, price := src.price, iv := src.iv) == src
      && copy.price == JNum(if ListedPrice(ctx, src).Some? then ParseFloat(ListedPrice(ctx, src).value) else ParseFloat(src.price))
      && (src.legType.OptionLeg? ==>
            var d := FindOption(ctx.options, src.expiry, src.strike, src.optionType);
            copy.iv == if d.Some? && !d.value.iv.Undef? then JNum(ParseFloat(d.value.iv)) else src.iv)
      && (!src.legType.OptionLeg? ==> copy.iv == Undef)
  {
    match FindLeg(legs, id)
    case None => legs
    case Some(src) =>
      var quoted := ListedPrice(ctx, src);
      var price := if quoted.Some? then ParseFloat(quoted.value) else ParseFloat(src.price);
      var iv :=
        if src.legType.OptionLeg? then
          var d := FindOption(ctx.options, src.expiry, src.strike, src.optionType);
          if d.Some? && !d.value.iv.Undef? then JNum(ParseFloat(d.value.iv)) else src.iv
        else Undef;
      legs + [src.(id := freshId, selected := true, status := NewLeg, price := JNum(price), iv := iv)]
  }

  /** A leg that is not an active position takes the current quote of its
      contract when there is one. */
  function ResetLeg(ctx: Context, leg: Leg): (r: Leg)
    ensures r.(price := leg.price) == leg
    ensures leg.status.ActivePosition? || ListedPrice(ctx, leg).None? ==> r == leg
    ensures !leg.status.ActivePosition? && ListedPrice(ctx, leg).Some? ==>
              r.price == JNum(ParseFloat(ListedPrice(ctx, leg).value))
  {
    var q := ListedPrice(ctx, leg);
    if !leg.status.ActivePosition? && q.Some? then leg.(price := JNum(ParseFloat(q.value))) else leg
  }

  /** A duplicate already carries the current quote: refreshing its price
      changes nothing. */
  lemma DuplicateNeedsNoReset(ctx: Context, legs: seq<Leg>, id: string, freshId: string)
    requires FindLeg(legs, id).Some?
    ensures var r := DuplicateLeg(ctx, legs, id, freshId);
      ResetLeg(ctx, r[|legs|]) == r[|legs|]
  {
    var src := FindLeg(legs, id).value;
    var copy := DuplicateLeg(ctx, legs, id, freshId)[|legs|];
    assert ListedPrice(ctx, copy) == ListedPrice(ctx, src) by {
      assert copy.legType == src.legType && copy.expiry == src.expiry;
      assert copy.strike == src.strike && copy.optionType == src.optionType;
    }
  }

  /** Refreshing a price twice is refreshing it once. */
  lemma ResetLegIdempotent(ctx: Context, leg: Leg)
    ensures ResetLeg(ctx, ResetLeg(ctx, leg)) == ResetLeg(ctx, leg)
  {
    var once := ResetLeg(ctx, leg);
    assert ListedPrice(ctx, once) == ListedPrice(ctx, leg) by {
      assert once.(price := leg.price) == leg;
    }
  }

  /** `handleResetPrices` */
  function ResetPrices(ctx: Context, legs: seq<Leg>): (r: seq<Leg>)
    ensures |r| == |legs|
    ensures forall i :: 0 <= i < |legs| ==> r[i] == ResetLeg(ctx, legs[i])
  {
    if |legs| == 0 then [] else [ResetLeg(ctx, legs[0])] + ResetPrices(ctx, legs[1..])
  }

  lemma ResetPricesIdempotent(ctx: Context, legs: seq<Leg>)
    ensures ResetPrices(ctx, ResetPrices(ctx, legs)) == ResetPrices(ctx, legs)
  {
    forall i | 0 <= i < |legs|
      ensures ResetLeg(ctx, ResetLeg(ctx, legs[i])) == ResetLeg(ctx, legs[i])
    {
      ResetLegIdempotent(ctx, legs[i]);
    }
  }

  function SelectAll(legs: seq<Leg>, b: bool): (r: seq<Leg>)
    ensures |r| == |legs|
    ensures forall i :: 0 <= i < |legs| ==> r[i] == legs[i].(selected := b)
  {
    if |legs| == 0 then [] else [legs[0].(selected := b)] + SelectAll(legs[1..], b)
  }

  predicate Typed(leg: Leg) {
    HasLegType(leg.legType)
  }

  /** Selecting a leg does not change what it costs. */
  lemma CashIgnoresSelection(leg: Leg, b: bool)
    ensures LegCash(leg.(selected := b)) == LegCash(leg)
  {
    var s := leg.(selected := b);
    assert CashPerUnit(s) == CashPerUnit(leg);
    assert LegPremium(s) == LegPremium(leg);
    LegPremiumIsCash(s);
    LegPremiumIsCash(leg);
  }

  /** "Select all" makes the premium totals those of every leg with a type. */
  lemma {:induction false} SelectAllPremium(legs: seq<Leg>)
    ensures PremiumTotals(SelectAll(legs, true)) == CashSum(Filter(legs, Typed))
  {
    if |legs| > 0 {
      var s := SelectAll(legs, true);
      var rest := Filter(legs[1..], Typed);
      assert s[1..] == SelectAll(legs[1..], true);
      SelectAllPremium(legs[1..]);
      assert PremiumTotals(s) == if Counted(s[0]) then AddPremium(LegPremium(s[0]), PremiumTotals(s[1..])) else PremiumTotals(s[1..]);
      assert Counted(s[0]) == Typed(legs[0]);
      if Typed(legs[0]) {
        assert Filter(legs, Typed) == [legs[0]] + rest;
        assert CashSum([legs[0]] + rest) == AddPremium(LegCash(legs[0]), CashSum(rest)) by {
          assert ([legs[0]] + rest)[1..] == rest;
        }
        CashIgnoresSelection(legs[0], true);
        LegPremiumIsCash(s[0]);
      } else {
        assert Filter(legs, Typed) == rest;
      }
    }
  }

  /** "Deselect all" leaves nothing to pay or receive. */
  lemma {:induction false} DeselectAllPremium(legs: seq<Leg>)
    ensures PremiumTotals(SelectAll(legs, false)) == Premium(Fin(0.0), Fin(0.0))
  {
    if |legs| > 0 {
      assert SelectAll(legs, false)[1..] == SelectAll(legs[1..], false);
      DeselectAllPremium(legs[1..]);
    }
  }

  // ---------------------------------------------------------------------------
  // Validation before saving
  // ---------------------------------------------------------------------------

  /** `v >= 1` under JavaScript's numeric comparison. */
  predicate AtLeastOne(v: JsVal) {
    NumberOf(v).Fin? && NumberOf(v).r >= 1.0
  }

  /** A leg complete enough to be saved. */
  predicate ValidLeg(leg: Leg) {
    match leg.legType
    case OptionLeg =>
      leg.token != "" && !IsBlank(leg.symbol) && leg.expiry != "" && !IsEmptyText(leg.strike)
      && leg.optionType.Some? && AtLeastOne(leg.lots) && IsNumber(leg.price)
      && AtLeastOne(leg.lotSize) && IsNumber(leg.iv)
    case FutureLeg =>
      leg.token != "" && !IsBlank(leg.symbol) && leg.expiry != ""
      && AtLeastOne(leg.lots) && IsNumber(leg.price) && AtLeastOne(leg.lotSize)
    case OtherLeg(_) => false
  }

  function CountedLegs(legs: seq<Leg>): (r: seq<Leg>)
    ensures forall l :: l in r <==> l in legs && Counted(l)
    ensures |r| <= |legs|
    ensures r == Filter(legs, Counted)
  {
    if |legs| == 0 then []
    else
      assert legs == [legs[0]] + legs[1..];
      (if Counted(legs[0]) then [legs[0]] else []) + CountedLegs(legs[1..])
  }

  function WithStatus(legs: seq<Leg>, s: Status): (r: seq<Leg>)
    ensures |r| == |legs|
    ensures forall i :: 0 <= i < |legs| ==> r[i] == legs[i].(status := s)
  {
    if |legs| == 0 then [] else [legs[0].(status := s)] + WithStatus(legs[1..], s)
  }

  /** The outcome of "save as draft" / "trade": a refusal, or the payload. */
  datatype SaveOutcome =
    | NothingSelected
    | NoUnderlying
    | IncompleteLegs
    | Cancelled
    | SavePayload(underlying: string, legs: seq<Leg>, status: Status, multiplier: real, name: string)

  function AllValid(legs: seq<Leg>): (b: bool)
    ensures b <==> forall l :: l in legs ==> ValidLeg(l)
  {
    if |legs| == 0 then true
    else
      assert forall l :: l in legs ==> l == legs[0] || l in legs[1..];
      ValidLeg(legs[0]) && AllValid(legs[1..])
  }

  /** The refusals of a save, checked in order: no selected leg with a type,
      no underlying, an incomplete leg. `None` lets the save go on. */
  function SaveRefusal(legs: seq<Leg>, underlying: string): (r: Option<SaveOutcome>)
    ensures r == Some(NothingSelected) <==> |CountedLegs(legs)| == 0
    ensures r == Some(NoUnderlying) <==> |CountedLegs(legs)| > 0 && underlying == ""
    ensures r == Some(IncompleteLegs) <==>
      |CountedLegs(legs)| > 0 && underlying != "" && exists l :: l in CountedLegs(legs) && !ValidLeg(l)
    ensures r.None? <==>
      |CountedLegs(legs)| > 0 && underlying != "" && forall l :: l in CountedLegs(legs) ==> ValidLeg(l)
    ensures r.Some? ==> r.value.NothingSelected? || r.value.NoUnderlying? || r.value.IncompleteLegs?
  {
    var chosen := CountedLegs(legs);
    if |chosen| == 0 then Some(NothingSelected)
    else if underlying == "" then Some(NoUnderlying)
    else if !AllValid(chosen) then Some(IncompleteLegs)
    else None
  }

  /** Setting the status keeps every leg valid. */
  lemma WithStatusKeepsValid(legs: seq<Leg>, s: Status)
    requires forall l :: l in legs ==> ValidLeg(l)
    ensures forall i :: 0 <= i < |legs| ==> WithStatus(legs, s)[i].status == s && ValidLeg(WithStatus(legs, s)[i])
  {
    forall i | 0 <= i < |legs|
      ensures ValidLeg(WithStatus(legs, s)[i])
    {
      assert legs[i] in legs;
    }
  }

  /** The checks made before saving, in order; the saved legs carry the
      requested status and the multiplier defaults to 1. A draft is named by
      the answer to the name prompt (`None` when the prompt is dismissed),
      trimmed; a dismissed or blank answer saves nothing. Any other save
      keeps `defaultName`. */
  function PrepareSave(legs: seq<Leg>, underlying: string, status: Status, multiplier: Num,
                       defaultName: string, answer: Option<string>): (r: SaveOutcome)
    ensures r.NothingSelected? <==> |CountedLegs(legs)| == 0
    ensures r.NoUnderlying? <==> |CountedLegs(legs)| > 0 && underlying == ""
    ensures r.IncompleteLegs? <==> |CountedLegs(legs)| > 0 && underlying != "" && exists l :: l in CountedLegs(legs) && !ValidLeg(l)
    ensures r.Cancelled? <==>
      && |CountedLegs(legs)| > 0 && underlying != "" && (forall l :: l in CountedLegs(legs) ==> ValidLeg(l))
      && status == Draft && (answer.None? || IsBlank(answer.value))
    ensures r.SavePayload? ==> underlying != "" && |r.legs| > 0 && r.underlying == underlying && r.status == status
    ensures r.SavePayload? ==> r.legs == WithStatus(CountedLegs(legs), status)
    ensures r.SavePayload? ==> forall i :: 0 <= i < |r.legs| ==> r.legs[i].status == status && ValidLeg(r.legs[i])
    ensures r.SavePayload? ==> r.multiplier == (if multiplier.Fin? && multiplier.r != 0.0 then multiplier.r else 1.0)
    ensures r.SavePayload? ==> r.name == (if status == Draft then Trim(answer.value) else defaultName)
    ensures r.SavePayload? && status == Draft ==> r.name != ""
  {
    match SaveRefusal(legs, underlying)
    case Some(refusal) => refusal
    case None =>
      if status == Draft && (answer.None? || IsBlank(answer.value)) then Cancelled
      else
        var chosen := CountedLegs(legs);
        var saved := WithStatus(chosen, status);
        WithStatusKeepsValid(chosen, status);
        SavePayload(underlying, saved, status, NumOr(multiplier, 1.0), if status == Draft then Trim(answer.value) else defaultName)
  }
}

=== FILE: Common.dfy ===
/** Values, enumerations and sequence utilities shared by every part of the
    strategy analytics model.

    JavaScript numbers are modelled as `Num` (a real or NaN); loosely typed
    record fields (`price`, `lots`, `strike`, `iv`, ...) as `JsVal`. */
module Common {

  datatype Option<+T> = None | Some(value: T) {
    function GetOr(default: T): T {
      match this
      case Some(v) => v
      case None => default
    }
  }

  // ---------------------------------------------------------------------------
  // JavaScript numbers
  // ---------------------------------------------------------------------------

  /** A JavaScript number: a finite real or NaN (infinities are not modelled). */
  datatype Num = Fin(r: real) | NaN

  function Add(a: Num, b: Num): (c: Num)
    ensures c.Fin? <==> a.Fin? && b.Fin?
  {
    if a.Fin? && b.Fin? then Fin(a.r + b.r) else NaN
  }

  function Sub(a: Num, b: Num): (c: Num)
    ensures c.Fin? <==> a.Fin? && b.Fin?
  {
    if a.Fin? && b.Fin? then Fin(a.r - b.r) else NaN
  }

  function Mul(a: Num, b: Num): (c: Num)
    ensures c.Fin? <==> a.Fin? && b.Fin?
  {
    if a.Fin? && b.Fin? then Fin(a.r * b.r) else NaN
  }

  function Neg(a: Num): (c: Num)
    ensures c.Fin? <==> a.Fin?
  {
    if a.Fin? then Fin(-a.r) else NaN
  }

  lemma NegAdd(a: Num, b: Num)
    ensures Neg(Add(a, b)) == Add(Neg(a), Neg(b))
  {
  }

  lemma AddSwap(a: Num, b: Num, c: Num, d: Num)
    ensures Add(Add(a, b), Add(c, d)) == Add(Add(a, c), Add(b, d))
  {
  }

  /** `a > b`; every comparison with NaN is false. */
  predicate Gt(a: Num, b: Num) {
    a.Fin? && b.Fin? && a.r > b.r
  }

  /** `Math.max(a, b)`: NaN as soon as one argument is NaN. */
  function MaxNum(a: Num, b: Num): (c: Num)
    ensures c.Fin? <==> a.Fin? && b.Fin?
    ensures c.Fin? ==> c.r >= a.r && c.r >= b.r && (c.r == a.r || c.r == b.r)
  {
    if a.Fin? && b.Fin? then Fin(Max(a.r, b.r)) else NaN
  }

  function Abs(x: real): (r: real)
    ensures r >= 0.0 && (r == x || r == -x)
  {
    if x < 0.0 then -x else x
  }

  function Max(a: real, b: real): (r: real)
    ensures r >= a && r >= b && (r == a || r == b)
  {
    if a >= b then a else b
  }

  function Min(a: real, b: real): (r: real)
    ensures r <= a && r <= b && (r == a || r == b)
  {
    if a <= b then a else b
  }

  // ---------------------------------------------------------------------------
  // Loosely typed JavaScript fields
  // ---------------------------------------------------------------------------

  /** A loosely typed field: absent (`undefined`), a number, or a string
      together with the two numbers JavaScript reads from it: `prefix` is what
      `parseFloat` reads (the longest numeric prefix, so "12abc" reads 12 and
      "0x10" reads 0) and `whole` what `Number` reads (the whole trimmed
      text, so "12abc" reads NaN and "0x10" reads 16). */
  datatype JsVal = Undef | JNum(n: Num) | JStr(text: string, prefix: Num, whole: Num)

  /** `typeof v === "number"` */
  predicate IsNumber(v: JsVal) {
    v.JNum?
  }

  /** `parseFloat(String(v))` */
  function ParseFloat(v: JsVal): (n: Num)
    ensures v.JNum? ==> n == v.n
    ensures v.Undef? ==> n.NaN?
  {
    match v
    case Undef => NaN
    case JNum(n) => n
    case JStr(_, prefix, _) => prefix
  }

  /** `Number(v)`: the number itself, NaN for `undefined`, 0 for a blank
      string and the whole-text reading of any other string. */
  function NumberOf(v: JsVal): (n: Num)
    ensures v.JStr? && IsBlank(v.text) ==> n == Fin(0.0)
    ensures v.JStr? && !IsBlank(v.text) ==> n == v.whole
    ensures !v.JStr? ==> n == ParseFloat(v)
  {
    match v
    case JStr(text, _, whole) => if IsBlank(text) then Fin(0.0) else whole
    case _ => ParseFloat(v)
  }

  /** JavaScript truthiness of a field. */
  predicate Truthy(v: JsVal) {
    match v
    case Undef => false
    case JNum(n) => n.Fin? && n.r != 0.0
    case JStr(text, _, _) => text != ""
  }

  /** `x || d` applied to a number: NaN and 0 are replaced by `d`. */
  function NumOr(n: Num, d: real): (r: real)
    ensures n.Fin? && n.r != 0.0 ==> r == n.r
    ensures !(n.Fin? && n.r != 0.0) ==> r == d
  {
    if n.Fin? && n.r != 0.0 then n.r else d
  }

  /** `Number(v) || 1`, the multiplier default used for lots and lot sizes. */
  function OrOne(v: JsVal): (r: real)
    ensures r != 0.0
  {
    NumOr(NumberOf(v), 1.0)
  }

  /** `parseFloat(String(v)) || d` */
  function ParseOr(v: JsVal, d: real): real {
    NumOr(ParseFloat(v), d)
  }

  // ---------------------------------------------------------------------------
  // Enumerations of the strategy domain
  // ---------------------------------------------------------------------------

  datatype Side = Buy | Sell

  /** +1 for a Buy leg, -1 for a Sell leg. */
  function Direction(side: Side): (d: real)
    ensures d == 1.0 || d == -1.0
    ensures side.Buy? <==> d > 0.0
  {
    if side.Buy? then 1.0 else -1.0
  }

  function Flip(side: Side): (s: Side)
    ensures Direction(s) == -Direction(side)
    ensures s != side
  {
    if side.Buy? then Sell else Buy
  }

  /** `x * Direction(side)`, written as a case split so that the sign stays
      linear for the solver. */
  function Signed(x: real, side: Side): real {
    if side.Buy? then x else -x
  }

  /** The case split is the product with the direction. */
  lemma SignedIsProduct(x: real, side: Side)
    ensures Signed(x, side) == x * Direction(side)
  {
  }

  /** Multiplying by a positive factor keeps the order. */
  lemma MulMonotone(a: real, b: real, m: real)
    requires a <= b && m > 0.0
    ensures a * m <= b * m
  {
  }

  datatype OptionKind = CE | PE

  /** The kind of a leg; `OtherLeg("")` is a missing `legType`. */
  datatype LegKind = OptionLeg | FutureLeg | OtherLeg(name: string)

  /** `!!leg.legType` */
  predicate HasLegType(k: LegKind) {
    !(k.OtherLeg? && k.name == "")
  }

  /** The lifecycle status of a leg; `NoStatus` is a missing status. */
  datatype Status = NewLeg | ActivePosition | Draft | NoStatus

  /** Dates are compared through their time value only. */
  type Date = int

  // ---------------------------------------------------------------------------
  // Strings
  // ---------------------------------------------------------------------------

  predicate IsSpace(c: char) {
    c == ' ' || c == '\t' || c == '\n' || c == '\r'
  }

  /** `s.trim() === ""` */
  predicate IsBlank(s: string) {
    forall i :: 0 <= i < |s| ==> IsSpace(s[i])
  }

  /** `s.trimStart()` on the characters `IsSpace` accepts. */
  function TrimStart(s: string): (r: string)
    ensures |r| <= |s| && r == s[|s| - |r|..]
    ensures forall i :: 0 <= i < |s| - |r| ==> IsSpace(s[i])
    ensures |r| > 0 ==> !IsSpace(r[0])
  {
    if |s| > 0 && IsSpace(s[0]) then TrimStart(s[1..]) else s
  }

  /** How many spaces `s` starts with: they are all spaces, and the character
      after them is not. */
  function LeadingSpaces(s: string): (n: nat)
    ensures n <= |s|
    ensures forall k :: 0 <= k < n ==> IsSpace(s[k])
    ensures n < |s| ==> !IsSpace(s[n])
  {
    if |s| > 0 && IsSpace(s[0]) then 1 + LeadingSpaces(s[1..]) else 0
  }

  /** `s.trimEnd()` on the characters `IsSpace` accepts. */
  function TrimEnd(s: string): (r: string)
    ensures |r| <= |s| && r == s[..|r|]
    ensures forall i :: |r| <= i < |s| ==> IsSpace(s[i])
    ensures |r| > 0 ==> !IsSpace(r[|r| - 1])
  {
    if |s| > 0 && IsSpace(s[|s| - 1]) then TrimEnd(s[..|s| - 1]) else s
  }

  /** `trimStart` removes exactly the leading spaces. */
  lemma {:induction false} LeadingSpacesTrimmed(s: string)
    ensures |s| - |TrimStart(s)| == LeadingSpaces(s)
  {
    if |s| > 0 && IsSpace(s[0]) {
      LeadingSpacesTrimmed(s[1..]);
    }
  }

  /** Trimming the end of the trimmed start leaves the slice after the
      leading spaces, with only spaces after it. */
  lemma TrimSlice(s: string)
    ensures var r := TrimEnd(TrimStart(s));
      && LeadingSpaces(s) + |r| <= |s|
      && r == s[LeadingSpaces(s)..LeadingSpaces(s) + |r|]
      && forall k :: LeadingSpaces(s) + |r| <= k < |s| ==> IsSpace(s[k])
  {
    var front := TrimStart(s);
    var i := LeadingSpaces(s);
    LeadingSpacesTrimmed(s);
    assert front == s[i..];
    TrimEndOfSuffix(s, i);
  }

  /** `trimEnd` of the suffix from `i` is the slice from `i`, followed only
      by spaces. */
  lemma TrimEndOfSuffix(s: string, i: nat)
    requires i <= |s|
    ensures var r := TrimEnd(s[i..]);
      && i + |r| <= |s|
      && r == s[i..i + |r|]
      && forall k :: i + |r| <= k < |s| ==> IsSpace(s[k])
  {
    var front := s[i..];
    var r := TrimEnd(front);
    assert r == s[i..i + |r|];
    forall k | i + |r| <= k < |s|
      ensures IsSpace(s[k])
    {
      assert s[k] == front[k - i];
    }
  }

  /** `s.trim()`: the slice of `s` between its leading and trailing spaces
      (`TrimIsSlice`). */
  function Trim(s: string): (r: string)
    ensures IsBlank(s) <==> r == ""
    ensures |r| > 0 ==> !IsSpace(r[0]) && !IsSpace(r[|r| - 1])
    ensures |r| <= |s|
  {
    var front := TrimStart(s);
    var r := TrimEnd(front);
    assert |r| > 0 ==> r[0] == front[0];
    assert IsBlank(s) ==> |front| == 0 by {
      if |front| > 0 { assert front[0] == s[|s| - |front|]; }
    }
    r
  }

  /** The trimmed text is the slice of `s` that starts after its leading
      spaces, and only spaces follow it. */
  lemma TrimIsSlice(s: string)
    ensures LeadingSpaces(s) + |Trim(s)| <= |s|
    ensures Trim(s) == s[LeadingSpaces(s)..LeadingSpaces(s) + |Trim(s)|]
    ensures forall k :: LeadingSpaces(s) + |Trim(s)| <= k < |s| ==> IsSpace(s[k])
  {
    assert Trim(s) == TrimEnd(TrimStart(s));
    TrimSlice(s);
  }

  function UpperChar(c: char): char {
    if 'a' <= c <= 'z' then (c as int - 32) as char else c
  }

  /** `s.toUpperCase()` on ASCII letters. */
  function Upper(s: string): (u: string)
    ensures |u| == |s|
    ensures forall i :: 0 <= i < |s| ==> u[i] == UpperChar(s[i])
  {
    if |s| == 0 then "" else [UpperChar(s[0])] + Upper(s[1..])
  }

  /** `s.includes(sub)` */
  predicate Contains(s: string, sub: string)
    decreases |s|
  {
    StartsWith(s, sub) || (|s| > 0 && Contains(s[1..], sub))
  }

  predicate StartsWith(s: string, prefix: string) {
    |prefix| <= |s| && s[..|prefix|] == prefix
  }

  // ---------------------------------------------------------------------------
  // Sequences
  // ---------------------------------------------------------------------------

  function Sum(xs: seq<real>): real {
    if |xs| == 0 then 0.0 else xs[0] + Sum(xs[1..])
  }

  lemma {:induction false} SumAppend(a: seq<real>, b: seq<real>)
    ensures Sum(a + b) == Sum(a) + Sum(b)
  {
    if |a| == 0 {
      assert a + b == b;
    } else {
      assert (a + b)[1..] == a[1..] + b;
      SumAppend(a[1..], b);
    }
  }

  /** `s.filter(keep)`: the kept elements, each as often as in `s`. Their
      order is the input order, as `FilterSplits` and `FilterOne` state. */
  function Filter<T(!new)>(s: seq<T>, keep: T -> bool): (r: seq<T>)
    ensures |r| <= |s|
    ensures forall x :: x in r <==> x in s && keep(x)
  {
    if |s| == 0 then []
    else
      assert s == [s[0]] + s[1..];
      (if keep(s[0]) then [s[0]] else []) + Filter(s[1..], keep)
  }

  /** Filtering distributes over concatenation: kept elements keep their order. */
  lemma {:induction false} FilterSplits<T(!new)>(a: seq<T>, b: seq<T>, keep: T -> bool)
    ensures Filter(a + b, keep) == Filter(a, keep) + Filter(b, keep)
  {
    if |a| == 0 {
      assert a + b == b;
    } else {
      assert (a + b)[0] == a[0];
      assert (a + b)[1..] == a[1..] + b;
      FilterSplits(a[1..], b, keep);
    }
  }

  /** Each kept element occurs in the result as often as in the input; a
      dropped one does not occur. */
  lemma {:induction false} FilterCounts<T(!new)>(s: seq<T>, keep: T -> bool)
    ensures forall x :: multiset(Filter(s, keep))[x] == if keep(x) then multiset(s)[x] else 0
  {
    if |s| > 0 {
      FilterCounts(s[1..], keep);
      assert s == [s[0]] + s[1..];
      assert multiset(s) == multiset{s[0]} + multiset(s[1..]);
      assert multiset(Filter(s, keep))
          == multiset(if keep(s[0]) then [s[0]] else []) + multiset(Filter(s[1..], keep));
    }
  }

  /** A single element is kept exactly when `keep` holds of it. */
  lemma FilterOne<T(!new)>(x: T, keep: T -> bool)
    ensures Filter([x], keep) == if keep(x) then [x] else []
  {
    assert [x][1..] == [];
  }

  /** When every element is kept, filtering changes nothing. */
  lemma {:induction false} FilterKeepsAll<T(!new)>(s: seq<T>, keep: T -> bool)
    requires forall x :: x in s ==> keep(x)
    ensures Filter(s, keep) == s
  {
    if |s| > 0 {
      assert s[0] in s;
      assert forall x :: x in s[1..] ==> x in s;
      FilterKeepsAll(s[1..], keep);
      assert Filter(s, keep) == [s[0]] + s[1..];
    }
  }

  /** `Array.from(new Set(s))`: first occurrences, in order. */
  function Dedup<T(==,!new)>(s: seq<T>): (r: seq<T>)
    ensures forall x :: x in r <==> x in s
    ensures NoDuplicates(r)
    ensures |r| <= |s|
  {
    if |s| == 0 then []
    else
      var prefix := Dedup(s[..|s| - 1]);
      var last := s[|s| - 1];
      assert forall x :: x in s <==> x in s[..|s| - 1] || x == last;
      if last in prefix then prefix else prefix + [last]
  }

  ghost predicate NoDuplicates<T>(s: seq<T>) {
    forall i, j :: 0 <= i < j < |s| ==> s[i] != s[j]
  }

  /** `s.indexOf(x)`, or -1. */
  function IndexOf<T(==)>(s: seq<T>, x: T): (k: int)
    ensures -1 <= k < |s|
    ensures k >= 0 ==> s[k] == x && x !in s[..k]
    ensures k == -1 <==> x !in s
  {
    if |s| == 0 then -1
    else if s[0] == x then 0
    else
      var k := IndexOf(s[1..], x);
      assert s[1..][..if k < 0 then 0 else k] == s[1..if k < 0 then 1 else k + 1];
      if k < 0 then -1 else k + 1
  }

  // ---------------------------------------------------------------------------
  // Strict sorting with de-duplication: `Array.from(new Set(s)).sort(cmp)`
  // ---------------------------------------------------------------------------

  ghost predicate StrictTotalOrder<T(!new)>(less: (T, T) -> bool) {
    && (forall a, b :: less(a, b) ==> !less(b, a))
    && (forall a, b, c :: less(a, b) && less(b, c) ==> less(a, c))
    && (forall a, b :: a != b ==> less(a, b) || less(b, a))
  }

  ghost predicate StrictlySorted<T>(s: seq<T>, less: (T, T) -> bool) {
    forall i, j :: 0 <= i < j < |s| ==> less(s[i], s[j])
  }

  function InsertUnique<T(==,!new)>(x: T, s: seq<T>, less: (T, T) -> bool): (r: seq<T>)
    requires StrictTotalOrder(less)
    requires StrictlySorted(s, less)
    ensures StrictlySorted(r, less)
    ensures forall y :: y in r <==> y == x || y in s
    ensures |r| <= |s| + 1
  {
    if |s| == 0 then [x]
    else if x == s[0] then s
    else if less(x, s[0]) then
      assert forall j :: 0 < j < |s| ==> less(s[0], s[j]);
      [x] + s
    else
      var rest := InsertUnique(x, s[1..], less);
      assert forall j :: 1 <= j < |s| ==> less(s[0], s[j]);
      assert forall y :: y in rest ==> less(s[0], y);
      [s[0]] + rest
  }

  /** The distinct elements of `s`, strictly increasing under `less`. */
  function SortUnique<T(==,!new)>(s: seq<T>, less: (T, T) -> bool): (r: seq<T>)
    requires StrictTotalOrder(less)
    ensures StrictlySorted(r, less)
    ensures forall y :: y in r <==> y in s
    ensures |r| <= |s|
  {
    if |s| == 0 then []
    else
      var r := InsertUnique(s[|s| - 1], SortUnique(s[..|s| - 1], less), less);
      assert forall y :: y in s <==> y in s[..|s| - 1] || y == s[|s| - 1];
      r
  }

  predicate RealLess(a: real, b: real) {
    a < b
  }

  lemma RealLessIsStrictTotal()
    ensures StrictTotalOrder(RealLess)
  {
  }

  /** `Array.from(new Set(s)).sort((a, b) => a - b)` on numbers. */
  function SortUniqueReals(s: seq<real>): (r: seq<real>)
    ensures forall i, j :: 0 <= i < j < |r| ==> r[i] < r[j]
    ensures forall y :: y in r <==> y in s
    ensures |r| <= |s|
  {
    RealLessIsStrictTotal();
    SortUnique(s, RealLess)
  }

  /** The default `Array.prototype.sort` order on strings: lexicographic by
      character code, a proper prefix first. */
  predicate StringLess(a: string, b: string) {
    if |a| == 0 then |b| > 0
    else if |b| == 0 then false
    else if a[0] == b[0] then StringLess(a[1..], b[1..])
    else a[0] < b[0]
  }

  lemma {:induction false} StringLessAsymmetric(a: string, b: string)
    ensures StringLess(a, b) ==> !StringLess(b, a)
  {
    if |a| > 0 && |b| > 0 && a[0] == b[0] {
      StringLessAsymmetric(a[1..], b[1..]);
    }
  }

  lemma {:induction false} StringLessTransitive(a: string, b: string, c: string)
    ensures StringLess(a, b) && StringLess(b, c) ==> StringLess(a, c)
  {
    if |a| > 0 && |b| > 0 && |c| > 0 && a[0] == b[0] && b[0] == c[0] {
      StringLessTransitive(a[1..], b[1..], c[1..]);
    }
  }

  lemma {:induction false} StringLessTotal(a: string, b: string)
    ensures a != b ==> StringLess(a, b) || StringLess(b, a)
  {
    if |a| > 0 && |b| > 0 && a[0] == b[0] {
      StringLessTotal(a[1..], b[1..]);
      if a != b {
        assert a == [a[0]] + a[1..] && b == [b[0]] + b[1..];
      }
    }
  }

  lemma StringLessIsStrictTotal()
    ensures StrictTotalOrder(StringLess)
  {
    forall a: string, b: string
      ensures StringLess(a, b) ==> !StringLess(b, a)
    {
      StringLessAsymmetric(a, b);
    }
    forall a: string, b: string, c: string
      ensures StringLess(a, b) && StringLess(b, c) ==> StringLess(a, c)
    {
      StringLessTransitive(a, b, c);
    }
    forall a: string, b: string
      ensures a != b ==> StringLess(a, b) || StringLess(b, a)
    {
      StringLessTotal(a, b);
    }
  }

  /** `Array.from(new Set(s)).sort()` on strings. */
  function SortUniqueStrings(s: seq<string>): (r: seq<string>)
    ensures StrictlySorted(r, StringLess)
    ensures forall y :: y in r <==> y in s
  {
    StringLessIsStrictTotal();
    SortUnique(s, StringLess)
  }

  // ---------------------------------------------------------------------------
  // Stable sorting by a numeric key: `s.sort((a, b) => key(a) - key(b))`
  // ---------------------------------------------------------------------------

  ghost predicate SortedByKey<T>(s: seq<T>, key: T -> real) {
    forall i, j :: 0 <= i < j < |s| ==> key(s[i]) <= key(s[j])
  }

  /** Inserts `x` after every element whose key is not greater than its own,
      which keeps equal keys in their original order. */
  function InsertByKey<T>(s: seq<T>, x: T, key: T -> real): (r: seq<T>)
    requires SortedByKey(s, key)
    ensures SortedByKey(r, key)
    ensures multiset(r) == multiset(s) + multiset{x}
    ensures |r| == |s| + 1
    ensures r[0] == x || (|s| > 0 && r[0] == s[0])
  {
    if |s| == 0 then [x]
    else if key(x) < key(s[0]) then [x] + s
    else
      var rest := InsertByKey(s[1..], x, key);
      assert s == [s[0]] + s[1..];
      assert key(s[0]) <= key(rest[0]);
      assert multiset([s[0]] + rest) == multiset{s[0]} + multiset(rest);
      [s[0]] + rest
  }

  /** A stable insertion sort: the JavaScript sort of an array by a numeric key. */
  function SortByKey<T>(s: seq<T>, key: T -> real): (r: seq<T>)
    ensures SortedByKey(r, key)
    ensures multiset(r) == multiset(s)
    ensures |r| == |s|
  {
    if |s| == 0 then []
    else
      assert s == s[..|s| - 1] + [s[|s| - 1]];
      InsertByKey(SortByKey(s[..|s| - 1], key), s[|s| - 1], key)
  }
}

=== FILE: DetailedData.dfy ===
/** The detailed-data panel: the strike-wise IV table, the label of the
    Greeks' scenario, and the one- and two-standard-deviation price ranges
    expected by the target day. */
module DetailedData {
  import opened Common
  import opened Market
  import opened PayoffGraph
  import opened PayoffData
  import opened Visualizer

  // ---------------------------------------------------------------------------
  // Strike-wise IV table
  // ---------------------------------------------------------------------------

  /** Selected option legs with a token get a row. */
  predicate HasIvRow(leg: Leg) {
    leg.selected && leg.token != "" && leg.legType == OptionLeg
  }

  /** The figures of a row before formatting, or "N/A" throughout. */
  datatype IvCells = NotAvailable | IvFigures(effective: Num, original: Num, change: Num, adjustment: real)

  datatype IvRow = IvRow(id: string, token: string, symbol: string, cells: IvCells)

  /** The row of one leg. `spell` writes the `${strike}${optionType}`
      fallback symbol. */
  function IvRowOf(leg: Leg, lookup: Lookup, c: IvControls, spell: (JsVal, Option<OptionKind>) -> string): (r: IvRow)
    ensures r.id == leg.id && r.token == leg.token
    ensures r.cells.NotAvailable? <==>
      lookup(leg.token).None? || lookup(leg.token).value.legTypeDb != DbOption || lookup(leg.token).value.iv.Undef?
    ensures r.cells.IvFigures? ==> r.cells.original == ParseFloat(lookup(leg.token).value.iv)
    ensures r.cells.IvFigures? ==> r.cells.adjustment == AdjustmentFor(c, leg.token)
  {
    match lookup(leg.token)
    case Some(i) =>
      if i.legTypeDb != DbOption || i.iv.Undef? then
        IvRow(leg.id, leg.token, if leg.symbol != "" then leg.symbol else "N/A", NotAvailable)
      else
        var original := ParseFloat(i.iv);
        var adjustment := AdjustmentFor(c, leg.token);
        var effective := Add(Add(original, Fin(adjustment)), Fin(c.offset));
        IvRow(leg.id, leg.token,
              if i.instrumentSymbol != "" then i.instrumentSymbol
              else if i.symbol != "" then i.symbol
              else spell(i.strike, i.optionType),
              IvFigures(effective, original, Sub(effective, original), adjustment))
    case None =>
      IvRow(leg.id, leg.token, if leg.symbol != "" then leg.symbol else "N/A", NotAvailable)
  }

  /** A row's change is exactly the contract's own adjustment plus the
      global offset, whenever its listed IV can be read. */
  lemma ChangeIsTotalAdjustment(leg: Leg, lookup: Lookup, c: IvControls, spell: (JsVal, Option<OptionKind>) -> string)
    requires IvRowOf(leg, lookup, c, spell).cells.IvFigures?
    requires IvRowOf(leg, lookup, c, spell).cells.original.Fin?
    ensures IvRowOf(leg, lookup, c, spell).cells.change == Fin(AdjustmentFor(c, leg.token) + c.offset)
    ensures IvRowOf(leg, lookup, c, spell).cells.effective ==
      Fin(IvRowOf(leg, lookup, c, spell).cells.original.r + AdjustmentFor(c, leg.token) + c.offset)
  {
    var o := IvRowOf(leg, lookup, c, spell).cells.original.r;
    assert o + AdjustmentFor(c, leg.token) + c.offset - o == AdjustmentFor(c, leg.token) + c.offset;
  }

  /** `strikewiseIVsDisplayData`: one row per selected option leg with a
      token, in leg order. */
  function IvRows(legs: seq<Leg>, lookup: Lookup, c: IvControls, spell: (JsVal, Option<OptionKind>) -> string): (r: seq<IvRow>)
    ensures |r| <= |legs|
    ensures forall row :: row in r ==> exists l :: l in legs && HasIvRow(l) && row == IvRowOf(l, lookup, c, spell)
    ensures forall l :: l in legs && HasIvRow(l) ==> IvRowOf(l, lookup, c, spell) in r
  {
    if |legs| == 0 then []
    else
      var rest := IvRows(legs[1..], lookup, c, spell);
      assert forall l :: l in legs[1..] ==> l in legs;
      assert forall l :: l in legs ==> l == legs[0] || l in legs[1..];
      if HasIvRow(legs[0]) then [IvRowOf(legs[0], lookup, c, spell)] + rest else rest
  }

  /** The rows keep the legs' order: the rows of two leg lists laid end to
      end are their rows laid end to end. */
  lemma {:induction false} IvRowsSplits(a: seq<Leg>, b: seq<Leg>, lookup: Lookup, c: IvControls,
                                        spell: (JsVal, Option<OptionKind>) -> string)
    ensures IvRows(a + b, lookup, c, spell) == IvRows(a, lookup, c, spell) + IvRows(b, lookup, c, spell)
  {
    if |a| == 0 {
      assert a + b == b;
    } else {
      assert (a + b)[0] == a[0];
      assert (a + b)[1..] == a[1..] + b;
      IvRowsSplits(a[1..], b, lookup, c, spell);
    }
  }

  /** One leg gives its row exactly when it is a selected option with a token. */
  lemma IvRowsOne(leg: Leg, lookup: Lookup, c: IvControls, spell: (JsVal, Option<OptionKind>) -> string)
    ensures IvRows([leg], lookup, c, spell) == if HasIvRow(leg) then [IvRowOf(leg, lookup, c, spell)] else []
  {
    assert [leg][1..] == [];
  }

  // ---------------------------------------------------------------------------
  // Scenario label
  // ---------------------------------------------------------------------------

  datatype GreeksSource = ProjectedScenario | LiveScenario

  /** `greeksSourceLabel` */
  function GreeksSourceLabel(targetDate: string, target: JsVal): (r: GreeksSource)
    ensures r == ProjectedScenario <==> targetDate != "" && Gt(ParseFloat(target), Fin(0.0))
  {
    if targetDate != "" && Gt(ParseFloat(target), Fin(0.0)) then ProjectedScenario else LiveScenario
  }

  /** Under "Projected Scenario" the calculator values the legs at the
      target spot; under the live label at the live spot when it is a
      positive number, else at 0. */
  lemma LabelMatchesCalculator(p: DataParams)
    ensures GreeksSourceLabel(p.targetDate, p.niftyTarget) == ProjectedScenario ==>
      Fin(SpotForCalc(p)) == ParseFloat(p.niftyTarget) && SpotForCalc(p) > 0.0
    ensures GreeksSourceLabel(p.targetDate, p.niftyTarget) == LiveScenario ==>
      SpotForCalc(p) == if Gt(p.underlyingSpot, Fin(0.0)) then p.underlyingSpot.r else 0.0
  {
  }

  /** The calculator inputs of the panel's single-scenario table as the panel
      builds them: the live spot is not passed, so it reads as undefined. */
  function PanelParamsAsWritten(target: JsVal, targetDate: string, rate: real, scenarioIV: string -> Num,
                                lookup: Lookup, byLotSize: bool, byLots: bool, liveSpot: Num, now: Date): (p: DataParams)
    ensures p.underlyingSpot.NaN?
    ensures p.niftyTarget == target && p.targetDate == targetDate
  {
    DataParams(target, targetDate, rate, scenarioIV, lookup, byLotSize, byLots, NaN, now)
  }

  /** The same inputs with the live spot passed along through the
      calculator's own `underlyingSpotPrice` parameter, which no call site of
      the calculator in either copy fills in. */
  function PanelParams(target: JsVal, targetDate: string, rate: real, scenarioIV: string -> Num,
                       lookup: Lookup, byLotSize: bool, byLots: bool, liveSpot: Num, now: Date): (p: DataParams)
    ensures p.underlyingSpot == liveSpot
    ensures p == PanelParamsAsWritten(target, targetDate, rate, scenarioIV, lookup, byLotSize, byLots, liveSpot, now)
                   .(underlyingSpot := liveSpot)
  {
    DataParams(target, targetDate, rate, scenarioIV, lookup, byLotSize, byLots, liveSpot, now)
  }

  /** As written, the live scenario of the panel values every leg with the
      underlying at 0, whatever the live spot. */
  lemma PanelLiveScenarioAtZero(target: JsVal, targetDate: string, rate: real, scenarioIV: string -> Num,
                                lookup: Lookup, byLotSize: bool, byLots: bool, liveSpot: Num, now: Date)
    requires GreeksSourceLabel(targetDate, target) == LiveScenario
    ensures SpotForCalc(PanelParamsAsWritten(target, targetDate, rate, scenarioIV, lookup, byLotSize, byLots, liveSpot, now)) == 0.0
  {
    LabelMatchesCalculator(PanelParamsAsWritten(target, targetDate, rate, scenarioIV, lookup, byLotSize, byLots, liveSpot, now));
  }

  /** With the live spot passed, the live scenario is valued at the live spot. */
  lemma PanelLiveScenarioAtSpot(target: JsVal, targetDate: string, rate: real, scenarioIV: string -> Num,
                                lookup: Lookup, byLotSize: bool, byLots: bool, liveSpot: Num, now: Date)
    requires GreeksSourceLabel(targetDate, target) == LiveScenario && Gt(liveSpot, Fin(0.0))
    ensures SpotForCalc(PanelParams(target, targetDate, rate, scenarioIV, lookup, byLotSize, byLots, liveSpot, now)) == liveSpot.r
  {
    LabelMatchesCalculator(PanelParams(target, targetDate, rate, scenarioIV, lookup, byLotSize, byLots, liveSpot, now));
  }

  // ---------------------------------------------------------------------------
  // Standard-deviation ranges
  // ---------------------------------------------------------------------------

  /** The live spot when positive (NaN stands for none), else a fixed
      stand-in for the two main indices. */
  function SpotToUse(spot: Num, underlying: string): (r: real)
    ensures Gt(spot, Fin(0.0)) ==> r == spot.r
    ensures !Gt(spot, Fin(0.0)) ==> r == (if underlying == "BANKNIFTY" then 48000.0 else if underlying == "NIFTY" then 23000.0 else 0.0)
    ensures r >= 0.0
  {
    if spot.Fin? && spot.r > 0.0 then spot.r
    else if underlying == "BANKNIFTY" then 48000.0
    else if underlying == "NIFTY" then 23000.0
    else 0.0
  }

  /** The first selected option leg with a token, if any. */
  function FirstIvLeg(legs: seq<Leg>): (r: Option<Leg>)
    ensures r.Some? ==> r.value in legs && HasIvRow(r.value)
    ensures r.None? <==> forall l :: l in legs ==> !HasIvRow(l)
    ensures forall k :: 0 <= k < |legs| && HasIvRow(legs[k]) ==> r.Some? && (r.value == legs[k] || r.value in legs[..k])
  {
    if |legs| == 0 then None
    else if HasIvRow(legs[0]) then
      assert forall k :: 0 < k < |legs| ==> legs[..k][0] == legs[0];
      Some(legs[0])
    else
      assert forall l :: l in legs[1..] ==> l in legs;
      assert forall l :: l in legs ==> l == legs[0] || l in legs[1..];
      assert forall i :: 1 <= i < |legs| ==> legs[i] == legs[1..][i - 1];
      assert forall k :: 1 <= k < |legs| ==> legs[..k] == [legs[0]] + legs[1..][..k - 1];
      FirstIvLeg(legs[1..])
  }

  /** The volatility the ranges use: the first such leg's scenario IV when
      positive, else the default volatility. */
  function SdVolatility(legs: seq<Leg>, scenarioIV: string -> Num, defaultVolatility: real): (v: real)
    ensures defaultVolatility > 0.0 ==> v > 0.0
    ensures FirstIvLeg(legs).None? ==> v == defaultVolatility
    ensures FirstIvLeg(legs).Some? && Gt(scenarioIV(FirstIvLeg(legs).value.token), Fin(0.0)) ==>
      v == scenarioIV(FirstIvLeg(legs).value.token).r
    ensures FirstIvLeg(legs).Some? && !Gt(scenarioIV(FirstIvLeg(legs).value.token), Fin(0.0)) ==> v == defaultVolatility
  {
    match FirstIvLeg(legs)
    case Some(l) => if Gt(scenarioIV(l.token), Fin(0.0)) then scenarioIV(l.token).r else defaultVolatility
    case None => defaultVolatility
  }

  /** One row of the table: `k` standard deviations of `points` each side of the spot. */
  datatype SdRow = SdRow(k: int, points: real, percent: real, low: real, high: real)

  function SdRowAt(spot: real, move: real, k: int): SdRow
    requires spot > 0.0
  {
    var points := move * k as real;
    SdRow(k, points, points / spot * 100.0, spot - points, spot + points)
  }

  /** The one- and two-standard-deviation rows, present only when the spot
      and the one-SD move are positive. */
  function SdRows(env: Env, spot: real, volatility: real, sdDays: real): (r: seq<SdRow>)
    ensures |r| == 0 || |r| == 2
    ensures |r| == 2 <==> spot > 0.0 && SdMove(env, spot, volatility, sdDays) > 0.0
    ensures |r| == 2 ==> r[0].k == 1 && r[1].k == 2
    ensures |r| == 2 ==> r[0].points == SdMove(env, spot, volatility, sdDays)
    ensures |r| == 2 ==> r[0].percent * spot == r[0].points * 100.0 && r[1].percent * spot == r[1].points * 100.0
  {
    var move := SdMove(env, spot, volatility, sdDays);
    if spot > 0.0 && move > 0.0 then [SdRowAt(spot, move, 1), SdRowAt(spot, move, 2)] else []
  }

  /** The ranges are centred on the spot, the one-SD range lies strictly
      inside the two-SD range, and the two-SD move is twice the one-SD move. */
  lemma SdRangesNested(env: Env, spot: real, volatility: real, sdDays: real)
    requires |SdRows(env, spot, volatility, sdDays)| == 2
    ensures var r := SdRows(env, spot, volatility, sdDays);
      && r[0].high - spot == spot - r[0].low == r[0].points > 0.0
      && r[1].high - spot == spot - r[1].low == r[1].points
      && r[1].points == 2.0 * r[0].points
      && r[1].low < r[0].low < spot < r[0].high < r[1].high
  {
  }

  /** With a positive spot, a positive volatility and a positive horizon the
      rows are present as long as the square root of the horizon is positive. */
  lemma SdRowsPresent(env: Env, spot: real, volatility: real, sdDays: real)
    requires spot > 0.0 && volatility > 0.0 && env.sqrt(sdDays / 365.25) > 0.0
    ensures |SdRows(env, spot, volatility, sdDays)| == 2
  {
    assert spot * volatility > 0.0;
    PositiveProduct(spot * volatility, env.sqrt(sdDays / 365.25));
  }

  lemma PositiveProduct(a: real, b: real)
    requires a > 0.0 && b > 0.0
    ensures a * b > 0.0
  {
  }
}

=== FILE: LiveData.dfy ===
/** The live instrument map as the rest of the application sees it: the list
    of underlyings, the options and futures of one underlying, lookup by
    token, and the array view of the map. The map (keyed by token) is a
    sequence in iteration order. */
module LiveData {
  import opened Common
  import opened Market

  /** Fills `legTypeDb` when it is absent: futures become 'future', other
      instruments that carry a strike become 'option'. */
  function Tag(i: Instrument): (r: Instrument)
    ensures r.(legTypeDb := i.legTypeDb) == i
    ensures i.legTypeDb != Untagged ==> r == i
    ensures r.legTypeDb == Untagged <==> i.legTypeDb == Untagged && !IsFuture(i) && i.strike.Undef?
    ensures r.legTypeDb == DbFuture && i.legTypeDb == Untagged ==> IsFuture(i)
    ensures i.legTypeDb == Untagged && IsFuture(i) ==> r.legTypeDb == DbFuture
    ensures i.legTypeDb == Untagged && !IsFuture(i) && !i.strike.Undef? ==> r.legTypeDb == DbOption
  {
    if IsFuture(i) && i.legTypeDb == Untagged then i.(legTypeDb := DbFuture)
    else if !i.strike.Undef? && i.legTypeDb == Untagged then i.(legTypeDb := DbOption)
    else i
  }

  lemma TagIdempotent(i: Instrument)
    ensures Tag(Tag(i)) == Tag(i)
  {
  }

  // ---------------------------------------------------------------------------
  // availableUnderlyings
  // ---------------------------------------------------------------------------

  function Underlyings(chain: seq<Instrument>): (r: seq<string>)
    ensures |r| == |chain|
    ensures forall i :: 0 <= i < |chain| ==> r[i] == chain[i].underlying
  {
    if |chain| == 0 then [] else [chain[0].underlying] + Underlyings(chain[1..])
  }

  /** The distinct underlyings of the chain in default string order. */
  function AvailableUnderlyings(chain: seq<Instrument>): (r: seq<string>)
    ensures StrictlySorted(r, StringLess)
    ensures forall u :: u in r <==> exists i :: 0 <= i < |chain| && chain[i].underlying == u
  {
    var all := Underlyings(chain);
    assert forall u :: u in all <==> exists i :: 0 <= i < |chain| && chain[i].underlying == u by {
      forall u | u in all
        ensures exists i :: 0 <= i < |chain| && chain[i].underlying == u
      {
        var i :| 0 <= i < |all| && all[i] == u;
        assert chain[i].underlying == u;
      }
    }
    SortUniqueStrings(all)
  }

  // ---------------------------------------------------------------------------
  // getTradableInstrumentsByUnderlying
  // ---------------------------------------------------------------------------

  datatype Tradable = Tradable(options: seq<Instrument>, futures: seq<Instrument>)

  /** Underlyings are compared upper-cased. */
  predicate SameUnderlying(i: Instrument, symbol: string) {
    Upper(i.underlying) == Upper(symbol)
  }

  /** A non-future with both a strike and an option type is an option. */
  predicate IsListedOption(i: Instrument) {
    !IsFuture(i) && !i.strike.Undef? && i.optionType.Some?
  }

  /** The sort key of a future: the time of `expiryDate || expiry || 0`. */
  function FutureKey(env: Env): Instrument -> real {
    (f: Instrument) =>
      (if f.expiryDate != "" then env.dateOf(f.expiryDate)
       else if f.expiry != "" then env.dateOf(f.expiry)
       else 0) as real
  }

  function MatchingFutures(chain: seq<Instrument>, symbol: string): (r: seq<Instrument>)
    ensures forall x :: x in r <==>
      exists i :: 0 <= i < |chain| && IsFuture(chain[i]) && SameUnderlying(chain[i], symbol)
                  && x == chain[i].(legTypeDb := DbFuture)
    ensures forall x :: x in r ==> IsFuture(x) && x.legTypeDb == DbFuture && SameUnderlying(x, symbol)
  {
    if |chain| == 0 then []
    else
      var rest := MatchingFutures(chain[1..], symbol);
      assert forall i :: 1 <= i < |chain| ==> chain[i] == chain[1..][i - 1];
      if IsFuture(chain[0]) && SameUnderlying(chain[0], symbol)
      then [chain[0].(legTypeDb := DbFuture)] + rest
      else rest
  }

  function MatchingOptions(chain: seq<Instrument>, symbol: string): (r: seq<Instrument>)
    ensures forall x :: x in r <==>
      exists i :: 0 <= i < |chain| && IsListedOption(chain[i]) && SameUnderlying(chain[i], symbol)
                  && x == chain[i].(legTypeDb := DbOption)
  {
    if |chain| == 0 then []
    else
      var rest := MatchingOptions(chain[1..], symbol);
      assert forall i :: 1 <= i < |chain| ==> chain[i] == chain[1..][i - 1];
      if IsListedOption(chain[0]) && SameUnderlying(chain[0], symbol)
      then [chain[0].(legTypeDb := DbOption)] + rest
      else rest
  }

  /** The matching options of a chain keep the chain's order: the result
      for two chains laid end to end is the two results laid end to end. */
  lemma {:induction false} MatchingOptionsSplits(a: seq<Instrument>, b: seq<Instrument>, symbol: string)
    ensures MatchingOptions(a + b, symbol) == MatchingOptions(a, symbol) + MatchingOptions(b, symbol)
  {
    if |a| == 0 {
      assert a + b == b;
    } else {
      assert (a + b)[0] == a[0];
      assert (a + b)[1..] == a[1..] + b;
      MatchingOptionsSplits(a[1..], b, symbol);
    }
  }

  /** A one-instrument chain yields that option, tagged, or nothing. */
  lemma MatchingOptionsOne(i: Instrument, symbol: string)
    ensures MatchingOptions([i], symbol) ==
      if IsListedOption(i) && SameUnderlying(i, symbol) then [i.(legTypeDb := DbOption)] else []
  {
    assert [i][1..] == [];
  }

  /** The options and futures of one underlying: futures sorted by expiry,
      options in map order; nothing for an empty symbol. */
  function TradableByUnderlying(env: Env, chain: seq<Instrument>, symbol: string): (r: Tradable)
    ensures symbol == "" ==> r.options == [] && r.futures == []
    ensures forall f :: f in r.futures ==> IsFuture(f) && f.legTypeDb == DbFuture && SameUnderlying(f, symbol)
    ensures forall o :: o in r.options ==> IsListedOption(o) && o.legTypeDb == DbOption && SameUnderlying(o, symbol)
    ensures SortedByKey(r.futures, FutureKey(env))
    ensures symbol != "" ==> multiset(r.futures) == multiset(MatchingFutures(chain, symbol))
    ensures symbol != "" ==> r.options == MatchingOptions(chain, symbol)
  {
    if symbol == "" then Tradable([], [])
    else
      var futures := MatchingFutures(chain, symbol);
      var sorted := SortByKey(futures, FutureKey(env));
      assert forall f :: f in sorted ==> f in futures by {
        forall f | f in sorted
          ensures f in futures
        {
          assert f in multiset(sorted);
        }
      }
      Tradable(MatchingOptions(chain, symbol), sorted)
  }

  /** No instrument is listed both as an option and as a future. */
  lemma TradableDisjoint(env: Env, chain: seq<Instrument>, symbol: string)
    ensures forall x :: x in TradableByUnderlying(env, chain, symbol).options ==>
              x !in TradableByUnderlying(env, chain, symbol).futures
  {
  }

  /** Every future of the underlying is listed, tagged. */
  lemma TradableHasEveryFuture(env: Env, chain: seq<Instrument>, symbol: string, k: nat)
    requires symbol != "" && k < |chain|
    requires IsFuture(chain[k]) && SameUnderlying(chain[k], symbol)
    ensures chain[k].(legTypeDb := DbFuture) in TradableByUnderlying(env, chain, symbol).futures
  {
    var x := chain[k].(legTypeDb := DbFuture);
    assert x in MatchingFutures(chain, symbol);
    assert x in multiset(TradableByUnderlying(env, chain, symbol).futures);
  }

  // ---------------------------------------------------------------------------
  // getInstrumentByToken and liveInstrumentChainArray
  // ---------------------------------------------------------------------------

  /** Tokens are the map's keys, so they are distinct. */
  ghost predicate KeyedByToken(chain: seq<Instrument>) {
    forall i, j :: 0 <= i < j < |chain| ==> chain[i].token != chain[j].token
  }

  function Find(chain: seq<Instrument>, token: string): (r: Option<Instrument>)
    ensures r.None? <==> forall i :: 0 <= i < |chain| ==> chain[i].token != token
    ensures r.Some? ==> exists i :: 0 <= i < |chain| && chain[i].token == token && r.value == chain[i]
  {
    if |chain| == 0 then None
    else if chain[0].token == token then Some(chain[0])
    else
      var r := Find(chain[1..], token);
      assert forall i :: 1 <= i < |chain| ==> chain[i] == chain[1..][i - 1];
      r
  }

  /** The tagged instrument with this token; nothing for an empty or unknown token. */
  function InstrumentByToken(chain: seq<Instrument>, token: string): (r: Option<Instrument>)
    ensures token == "" ==> r.None?
    ensures r.None? <==> token == "" || forall i :: 0 <= i < |chain| ==> chain[i].token != token
    ensures r.Some? ==> r.value.token == token
  {
    if token == "" then None
    else match Find(chain, token)
      case None => None
      case Some(i) => Some(Tag(i))
  }

  /** All map values, tagged. */
  function ChainArray(chain: seq<Instrument>): (r: seq<Instrument>)
    ensures |r| == |chain|
    ensures forall i :: 0 <= i < |chain| ==> r[i] == Tag(chain[i])
  {
    if |chain| == 0 then [] else [Tag(chain[0])] + ChainArray(chain[1..])
  }

  /** Lookup by token and the array view agree on every instrument. */
  lemma {:induction false} ByTokenAgreesWithChainArray(chain: seq<Instrument>, k: nat)
    requires KeyedByToken(chain) && k < |chain| && chain[k].token != ""
    ensures InstrumentByToken(chain, chain[k].token) == Some(ChainArray(chain)[k])
  {
    var f := Find(chain, chain[k].token);
    var i :| 0 <= i < |chain| && chain[i].token == chain[k].token && f.value == chain[i];
    assert i == k;
  }

  /** Tagging the array view again changes nothing. */
  lemma ChainArrayIdempotent(chain: seq<Instrument>)
    ensures ChainArray(ChainArray(chain)) == ChainArray(chain)
  {
    assert forall i :: 0 <= i < |chain| ==> Tag(Tag(chain[i])) == Tag(chain[i]);
  }
}

=== FILE: Market.dfy ===
/** The data model shared by the strategy builder, the payoff chart and the
    summary panels: strategy legs, live instruments, and the numeric
    primitives the application imports from code outside this model. */
module Market {
  import opened Common

  // ---------------------------------------------------------------------------
  // Instruments of the live option chain
  // ---------------------------------------------------------------------------

  /** The two copies of the application: the Next.js app (`Tradved`) and the
      older React front end (`Frontend`), where their logic differs. */
  datatype Variant = Tradved | Frontend

  datatype InstrumentType = FUTIDX | FUTSTK | OPTIDX | OPTSTK

  /** The `legTypeDb` tag; `Untagged` when the field is absent. */
  datatype DbType = Untagged | DbOption | DbFuture

  /** Quote fields of an instrument (`marketData`). */
  datatype MarketData = MarketData(spot: JsVal, futures: JsVal, iv: JsVal, oi: JsVal)

  /** One entry of the live chain, keyed by `token`. A missing string field is
      "" and a missing loose field is `Undef`; `optionType` is `None` when the
      key is absent. `contractLotSize` is `contractInfo.lotSize`. */
  datatype Instrument = Instrument(
    token: string,
    underlying: string,
    instrumentType: InstrumentType,
    legTypeDb: DbType,
    strike: JsVal,
    optionType: Option<OptionKind>,
    expiry: string,
    expiryDate: string,
    lastPrice: JsVal,
    iv: JsVal,
    lotSize: JsVal,
    contractLotSize: JsVal,
    instrumentSymbol: string,
    symbol: string,
    marketData: Option<MarketData>
  )

  /** FUTIDX and FUTSTK instruments are futures. */
  predicate IsFuture(i: Instrument) {
    i.instrumentType == FUTIDX || i.instrumentType == FUTSTK
  }

  /** A token lookup, as `getInstrumentByToken` provides it to the calculators. */
  type Lookup = string -> Option<Instrument>

  // ---------------------------------------------------------------------------
  // Strategy legs
  // ---------------------------------------------------------------------------

  /** A leg of the strategy being built or analysed. Numeric fields arrive as
      numbers or strings depending on where the leg came from, so they are
      `JsVal`; a blank `strike` is the builder's "no strike chosen". */
  datatype Leg = Leg(
    id: string,
    selected: bool,
    token: string,
    legType: LegKind,
    buySell: Side,
    optionType: Option<OptionKind>,
    strike: JsVal,
    expiry: string,
    price: JsVal,
    lots: JsVal,
    lotSize: JsVal,
    iv: JsVal,
    symbol: string,
    status: Status
  )

  function FlipLeg(leg: Leg): (r: Leg)
    ensures r.buySell != leg.buySell
    ensures r.(buySell := leg.buySell) == leg
  {
    leg.(buySell := Flip(leg.buySell))
  }

  function FlipAll(legs: seq<Leg>): (r: seq<Leg>)
    ensures |r| == |legs|
    ensures forall i :: 0 <= i < |legs| ==> r[i] == FlipLeg(legs[i])
  {
    if |legs| == 0 then [] else [FlipLeg(legs[0])] + FlipAll(legs[1..])
  }

  // ---------------------------------------------------------------------------
  // Numerics the application imports
  // ---------------------------------------------------------------------------

  datatype Greeks = Greeks(delta: Num, gamma: Num, theta: Num, vega: Num)

  /** Per-share Black-76 price and Greeks, time to expiry, `Math.exp`,
      `Math.sqrt`, date parsing and `toFixed` rounding. They are parameters:
      none of them is defined in the modelled code.
      - `dateOf(s)` is `new Date(s).getTime()`;
      - `timeToExpiry(expiry, asOf)` is a year fraction;
      - `round2(x)` is `Number(x.toFixed(2))`, `round1` the same with one
        decimal, and `round0(x)` is `Number(x.toFixed(0))`: the summary keys
        breakevens by that text, which determines the rounded value and is
        determined by it, so the model keeps the value. */
  datatype Env = Env(
    exp: real -> real,
    sqrt: real -> real,
    dateOf: string -> Date,
    timeToExpiry: (Date, Date) -> real,
    black76Price: (real, Num, real, real, Num, OptionKind) -> Num,
    black76Greeks: (real, Num, real, real, Num, OptionKind) -> Greeks,
    round2: real -> real,
    round1: real -> real,
    round0: real -> real
  )

  /** The cost-of-carry forward price `spot * Math.exp(rate * t)`. */
  function Forward(env: Env, spot: real, rate: real, t: real): real {
    spot * env.exp(rate * t)
  }

  /** Values from the application's configuration file. */
  datatype Config = Config(
    defaultVolatility: real,
    riskFreeRate: real,
    graphPoints: int,
    intervalStep: real,
    paddingFactor: real
  )

  /** A rounding function that preserves order and fixes 0. */
  ghost predicate MonotoneRounding(round: real -> real) {
    && round(0.0) == 0.0
    && (forall x, y :: x <= y ==> round(x) <= round(y))
  }

  ghost predicate SqrtNonNegative(env: Env) {
    forall x :: env.sqrt(x) >= 0.0
  }
}

=== FILE: PayoffData.dfy ===
/** Projected P&L and Greeks of every selected leg, and their totals, for
    the scenario the user set (target spot and date) or for the live spot
    today. */
module PayoffData {
  import opened Common
  import opened Market
  import opened PayoffLeg

  /** The calculator's inputs besides the legs. `underlyingSpot` is NaN when
      the live spot is not a number; `now` is the clock reading. */
  datatype DataParams = DataParams(
    niftyTarget: JsVal,
    targetDate: string,
    rate: real,
    scenarioIV: string -> Num,
    lookup: Lookup,
    multiplyByLotSize: bool,
    multiplyByNumLots: bool,
    underlyingSpot: Num,
    now: Date
  )

  datatype ProcessedLeg = ProcessedLeg(
    leg: Leg,
    projectedValue: Option<real>,
    projectedPnL: Num,
    projectedGreeks: Greeks,
    entryPrice: Num,
    ltp: Option<Num>
  )

  /** Portfolio totals; the P&L skips legs whose P&L is NaN, so it is always a number. */
  datatype Totals = Totals(pnl: real, delta: Num, gamma: Num, theta: Num, vega: Num)

  datatype Projection = Projection(legs: seq<ProcessedLeg>, totals: Totals)

  const ZeroGreeks: Greeks := Greeks(Fin(0.0), Fin(0.0), Fin(0.0), Fin(0.0))
  const FutureGreeks: Greeks := Greeks(Fin(1.0), Fin(0.0), Fin(0.0), Fin(0.0))
  const ZeroTotals: Totals := Totals(0.0, Fin(0.0), Fin(0.0), Fin(0.0), Fin(0.0))

  // ---------------------------------------------------------------------------
  // Scenario
  // ---------------------------------------------------------------------------

  /** The projected scenario applies when a target date is set and the
      target spot reads as a positive number. */
  predicate UseProjected(p: DataParams) {
    p.targetDate != "" && Gt(ParseFloat(p.niftyTarget), Fin(0.0))
  }

  /** The spot the legs are valued at: the target spot in a projected
      scenario, else a positive live spot, else 0. */
  function SpotForCalc(p: DataParams): (s: real)
    ensures s >= 0.0
    ensures UseProjected(p) ==> s > 0.0 && Fin(s) == ParseFloat(p.niftyTarget)
    ensures !UseProjected(p) ==> (s > 0.0 <==> Gt(p.underlyingSpot, Fin(0.0)))
  {
    if UseProjected(p) then ParseFloat(p.niftyTarget).r
    else if Gt(p.underlyingSpot, Fin(0.0)) then p.underlyingSpot.r
    else 0.0
  }

  function ProjectionDate(env: Env, p: DataParams): Date {
    if UseProjected(p) then env.dateOf(p.targetDate) else p.now
  }

  // ---------------------------------------------------------------------------
  // One leg
  // ---------------------------------------------------------------------------

  /** Selected, with a token and a leg type. */
  predicate Included(leg: Leg) {
    leg.selected && leg.token != "" && HasLegType(leg.legType)
  }

  function IncludedLegs(legs: seq<Leg>): (r: seq<Leg>)
    ensures forall l :: l in r <==> l in legs && Included(l)
    ensures r == Filter(legs, Included)
  {
    if |legs| == 0 then []
    else if Included(legs[0]) then [legs[0]] + IncludedLegs(legs[1..])
    else IncludedLegs(legs[1..])
  }

  /** `Math.max(0, ±(spot - Number(strike)))`; NaN for an unreadable strike. */
  function IntrinsicNum(kind: OptionKind, spot: real, k: Num): (v: Num)
    ensures v.Fin? <==> k.Fin?
    ensures v.Fin? ==> v.r == Intrinsic(kind, spot, k.r)
  {
    if k.NaN? then NaN else Fin(Intrinsic(kind, spot, k.r))
  }

  datatype Valuation = Valuation(value: Num, greeks: Greeks)

  /** Per-unit value and Greeks of a leg on the projection date. Without an
      instrument, or with details that do not fit the leg type, the leg
      keeps its entry price and zero Greeks. */
  function ValueLeg(env: Env, rate: real, leg: Leg, spot: real, date: Date,
                    scenarioIV: string -> Num, inst: Option<Instrument>): (v: Valuation)
    ensures inst.None? || leg.legType.OtherLeg? ==> v == Valuation(ParseFloat(leg.price), ZeroGreeks)
    ensures inst.Some? && leg.legType.OptionLeg? && !OptionDetailsComplete(inst.value)
            ==> v == Valuation(ParseFloat(leg.price), ZeroGreeks)
    ensures inst.Some? && leg.legType.FutureLeg?
            && (inst.value.legTypeDb != DbFuture || (inst.value.expiryDate == "" && inst.value.expiry == ""))
            ==> v == Valuation(ParseFloat(leg.price), ZeroGreeks)
    ensures inst.Some? && leg.legType.FutureLeg? && inst.value.legTypeDb == DbFuture
            && (inst.value.expiryDate != "" || inst.value.expiry != "")
            ==> var t := env.timeToExpiry(FutureExpiry(env, inst.value), date);
                v.greeks == FutureGreeks && v.value == if t <= Tiny then Fin(spot) else Fin(Forward(env, spot, rate, t))
    ensures inst.Some? && leg.legType.OptionLeg? && OptionDetailsComplete(inst.value)
            ==> var t := env.timeToExpiry(env.dateOf(inst.value.expiry), date);
                var iv := scenarioIV(leg.token);
                var kind := inst.value.optionType.value;
                var k := NumberOf(inst.value.strike);
                if t > Tiny && Gt(iv, Fin(Tiny)) then
                  v.value == env.black76Price(Forward(env, spot, rate, t), k, t, rate, iv, kind)
                  && v.greeks == env.black76Greeks(Forward(env, spot, rate, t), k, t, rate, iv, kind)
                else
                  v.value == IntrinsicNum(kind, spot, k)
                  && v.greeks == env.black76Greeks(spot, k, if t <= 0.0 then Tiny else t, rate,
                                                   if Gt(iv, Fin(0.0)) then iv else Fin(0.0001), kind)
  {
    var fallback := Valuation(ParseFloat(leg.price), ZeroGreeks);
    match inst
    case None => fallback
    case Some(i) =>
      match leg.legType
      case OptionLeg =>
        if !OptionDetailsComplete(i) then fallback
        else
          var iv := scenarioIV(leg.token);
          var t := env.timeToExpiry(env.dateOf(i.expiry), date);
          var kind := i.optionType.value;
          var k := NumberOf(i.strike);
          if t > Tiny && Gt(iv, Fin(Tiny)) then
            var f := Forward(env, spot, rate, t);
            Valuation(env.black76Price(f, k, t, rate, iv, kind), env.black76Greeks(f, k, t, rate, iv, kind))
          else
            var tg := if t <= 0.0 then Tiny else t;
            var ivg := if Gt(iv, Fin(0.0)) then iv else Fin(0.0001);
            Valuation(IntrinsicNum(kind, spot, k), env.black76Greeks(spot, k, tg, rate, ivg, kind))
      case FutureLeg =>
        if i.legTypeDb == DbFuture && (i.expiryDate != "" || i.expiry != "") then
          var t := env.timeToExpiry(FutureExpiry(env, i), date);
          Valuation(if t <= Tiny then Fin(spot) else Fin(Forward(env, spot, rate, t)), FutureGreeks)
        else fallback
      case OtherLeg(_) => fallback
  }

  /** `pnl = value - entry` per unit, 0 when either is NaN. */
  function PnLPerUnit(value: Num, entry: Num): (d: real)
    ensures value.Fin? && entry.Fin? ==> d == value.r - entry.r
    ensures value.NaN? || entry.NaN? ==> d == 0.0
  {
    if value.NaN? || entry.NaN? then 0.0 else value.r - entry.r
  }

  /** The contract size `Number(lotSize) || 1` when multiplying by lot size, else 1. */
  function SizeFactor(p: DataParams, leg: Leg): (x: real)
    ensures x != 0.0
    ensures !p.multiplyByLotSize ==> x == 1.0
  {
    if p.multiplyByLotSize then OrOne(leg.lotSize) else 1.0
  }

  /** The number of lots when multiplying by lots and lots is truthy, else 1. */
  function LotsFactor(p: DataParams, leg: Leg): (l: Num)
    ensures l.NaN? ==> p.multiplyByNumLots && Truthy(leg.lots) && NumberOf(leg.lots).NaN?
    ensures !p.multiplyByNumLots || !Truthy(leg.lots) ==> l == Fin(1.0)
  {
    if p.multiplyByNumLots && Truthy(leg.lots) then NumberOf(leg.lots) else Fin(1.0)
  }

  /** The factor a leg's per-unit figures are scaled by. */
  function Scale(p: DataParams, leg: Leg): (s: Num)
    ensures s.NaN? ==> p.multiplyByNumLots && Truthy(leg.lots) && NumberOf(leg.lots).NaN?
  {
    Mul(Fin(SizeFactor(p, leg)), LotsFactor(p, leg))
  }

  /** Multiply a per-unit figure by the position direction (+1 or -1). */
  function Directed(x: Num, side: Side): (y: Num)
    ensures y.Fin? <==> x.Fin?
    ensures side.Buy? ==> y == x
    ensures side.Sell? ==> y == Neg(x)
  {
    if side.Buy? then x else Neg(x)
  }

  /** `x * direction * scale` */
  function ScaledDirected(x: Num, side: Side, s: Num): (y: Num)
    ensures y.Fin? <==> x.Fin? && s.Fin?
  {
    Mul(Directed(x, side), s)
  }

  /** Value and Greeks of a leg at the calculator's spot and date. */
  function LegValuation(env: Env, p: DataParams, spot: real, date: Date, leg: Leg): Valuation {
    ValueLeg(env, p.rate, leg, spot, date, p.scenarioIV, p.lookup(leg.token))
  }

  /** The leg's scaled, directional P&L given its valuation: NaN only when the scale is. */
  function LegPnL(p: DataParams, leg: Leg, v: Valuation): (pnl: Num)
    ensures pnl.NaN? <==> Scale(p, leg).NaN?
  {
    ScaledDirected(Fin(PnLPerUnit(v.value, ParseFloat(leg.price))), leg.buySell, Scale(p, leg))
  }

  function ProcessLeg(env: Env, p: DataParams, spot: real, date: Date, leg: Leg): (r: ProcessedLeg)
    ensures r.leg == leg
    ensures r.projectedValue.None? <==> LegValuation(env, p, spot, date, leg).value.NaN?
    ensures r.projectedGreeks.gamma == LegValuation(env, p, spot, date, leg).greeks.gamma
    ensures r.ltp.Some? <==> p.lookup(leg.token).Some? && !p.lookup(leg.token).value.lastPrice.Undef?
  {
    var inst := p.lookup(leg.token);
    var v := LegValuation(env, p, spot, date, leg);
    ProcessedLeg(
      leg,
      if v.value.NaN? then None else Some(v.value.r),
      LegPnL(p, leg, v),
      Greeks(Directed(v.greeks.delta, leg.buySell), v.greeks.gamma,
             Directed(v.greeks.theta, leg.buySell), Directed(v.greeks.vega, leg.buySell)),
      ParseFloat(leg.price),
      if inst.Some? && !inst.value.lastPrice.Undef? then Some(ParseFloat(inst.value.lastPrice)) else None)
  }

  /** The processed leg carries the valuation's value, the per-unit P&L
      (value − entry) signed by side and multiplied by the scale, the Greeks
      with delta, theta and vega negated for a sold leg, and the entry price. */
  lemma ProcessedLegValues(env: Env, p: DataParams, spot: real, date: Date, leg: Leg)
    ensures var r := ProcessLeg(env, p, spot, date, leg);
            var v := LegValuation(env, p, spot, date, leg);
            && (r.projectedValue.Some? ==> v.value == Fin(r.projectedValue.value))
            && r.projectedPnL == Mul(Fin(Signed(PnLPerUnit(v.value, ParseFloat(leg.price)), leg.buySell)), Scale(p, leg))
            && (leg.buySell.Buy? ==> r.projectedGreeks == v.greeks)
            && (leg.buySell.Sell? ==> r.projectedGreeks == Greeks(Neg(v.greeks.delta), v.greeks.gamma, Neg(v.greeks.theta), Neg(v.greeks.vega)))
            && r.entryPrice == ParseFloat(leg.price)
  {
  }

  // ---------------------------------------------------------------------------
  // Totals
  // ---------------------------------------------------------------------------

  /** A number as itself, NaN as 0 (`if (!isNaN(x)) total += x`). */
  function FinitePart(x: Num): real {
    if x.Fin? then x.r else 0.0
  }

  /** What a directional Greek adds to its total: nothing when it is NaN. */
  function GreekContribution(g: Num, side: Side, s: Num): Num {
    if g.NaN? then Fin(0.0) else ScaledDirected(g, side, s)
  }

  /** Gamma is added without direction. */
  function GammaContribution(g: Num, s: Num): Num {
    if g.NaN? then Fin(0.0) else Mul(g, s)
  }

  /** What a leg adds to the totals, given its scaled P&L, its per-unit
      Greeks, its side and its scale: the P&L when a number, and each scaled
      directional Greek (gamma without direction) unless the Greek is NaN. */
  function Contribution(legPnL: Num, g: Greeks, side: Side, s: Num): Totals {
    Totals(
      FinitePart(legPnL),
      GreekContribution(g.delta, side, s),
      GammaContribution(g.gamma, s),
      GreekContribution(g.theta, side, s),
      GreekContribution(g.vega, side, s))
  }

  /** What a leg adds to the totals on the projection date. */
  function LegContribution(env: Env, p: DataParams, spot: real, date: Date, leg: Leg): Totals {
    var v := LegValuation(env, p, spot, date, leg);
    Contribution(LegPnL(p, leg, v), v.greeks, leg.buySell, Scale(p, leg))
  }

  function AddTotals(a: Totals, b: Totals): Totals {
    Totals(a.pnl + b.pnl, Add(a.delta, b.delta), Add(a.gamma, b.gamma), Add(a.theta, b.theta), Add(a.vega, b.vega))
  }

  function Contributions(env: Env, p: DataParams, spot: real, date: Date, legs: seq<Leg>): (cs: seq<Totals>)
    ensures |cs| == |legs|
    ensures forall i :: 0 <= i < |legs| ==> cs[i] == LegContribution(env, p, spot, date, legs[i])
  {
    if |legs| == 0 then [] else [LegContribution(env, p, spot, date, legs[0])] + Contributions(env, p, spot, date, legs[1..])
  }

  function SumTotals(cs: seq<Totals>): Totals {
    if |cs| == 0 then ZeroTotals else AddTotals(cs[0], SumTotals(cs[1..]))
  }

  function TotalsOf(env: Env, p: DataParams, spot: real, date: Date, legs: seq<Leg>): Totals {
    SumTotals(Contributions(env, p, spot, date, legs))
  }

  function ProcessAll(env: Env, p: DataParams, spot: real, date: Date, legs: seq<Leg>): (r: seq<ProcessedLeg>)
    ensures |r| == |legs|
    ensures forall i :: 0 <= i < |legs| ==> r[i].leg == legs[i]
  {
    if |legs| == 0 then [] else [ProcessLeg(env, p, spot, date, legs[0])] + ProcessAll(env, p, spot, date, legs[1..])
  }

  /** Each leg is processed on its own. */
  lemma {:induction false} ProcessAllPointwise(env: Env, p: DataParams, spot: real, date: Date, legs: seq<Leg>)
    ensures forall i :: 0 <= i < |legs| ==> ProcessAll(env, p, spot, date, legs)[i] == ProcessLeg(env, p, spot, date, legs[i])
  {
    if |legs| > 0 {
      var r := ProcessAll(env, p, spot, date, legs);
      var rest := ProcessAll(env, p, spot, date, legs[1..]);
      ProcessAllPointwise(env, p, spot, date, legs[1..]);
      assert r == [ProcessLeg(env, p, spot, date, legs[0])] + rest;
      forall i | 1 <= i < |legs|
        ensures r[i] == ProcessLeg(env, p, spot, date, legs[i])
      {
        assert r[i] == rest[i - 1] && legs[i] == legs[1..][i - 1];
      }
    }
  }

  /** The projection of every included leg, in order, with the totals. */
  function CalculateProjection(env: Env, p: DataParams, legs: seq<Leg>): (r: Projection)
    ensures |r.legs| == |IncludedLegs(legs)|
    ensures forall i :: 0 <= i < |r.legs| ==> r.legs[i].leg == IncludedLegs(legs)[i]
    ensures forall pl :: pl in r.legs ==> Included(pl.leg) && pl.leg in legs
  {
    var included := IncludedLegs(legs);
    var spot := SpotForCalc(p);
    var date := ProjectionDate(env, p);
    var out := ProcessAll(env, p, spot, date, included);
    assert forall pl :: pl in out ==> pl.leg in included by {
      forall pl | pl in out ensures pl.leg in included {
        var i :| 0 <= i < |out| && out[i] == pl;
        assert out[i].leg == included[i];
      }
    }
    Projection(out, TotalsOf(env, p, spot, date, included))
  }

  // ---------------------------------------------------------------------------
  // Properties
  // ---------------------------------------------------------------------------

  /** Sum of the P&L values that are numbers. */
  function FinitePnLSum(out: seq<ProcessedLeg>): real {
    if |out| == 0 then 0.0
    else FinitePart(out[0].projectedPnL) + FinitePnLSum(out[1..])
  }

  /** The P&L a leg adds to the total is its reported P&L when that is a number. */
  lemma ContributionIsReportedPnL(env: Env, p: DataParams, spot: real, date: Date, leg: Leg)
    ensures LegContribution(env, p, spot, date, leg).pnl
            == FinitePart(ProcessLeg(env, p, spot, date, leg).projectedPnL)
  {
  }

  /** Position by position equal P&L figures give equal sums. */
  lemma {:induction false} PnLSumsAgree(cs: seq<Totals>, out: seq<ProcessedLeg>)
    requires |cs| == |out|
    requires forall i :: 0 <= i < |cs| ==> cs[i].pnl == FinitePart(out[i].projectedPnL)
    ensures SumTotals(cs).pnl == FinitePnLSum(out)
  {
    if |cs| > 0 {
      PnLSumsAgree(cs[1..], out[1..]);
    }
  }

  lemma TotalsPnLIsSumOfLegs(env: Env, p: DataParams, spot: real, date: Date, legs: seq<Leg>)
    ensures SumTotals(Contributions(env, p, spot, date, legs)).pnl == FinitePnLSum(ProcessAll(env, p, spot, date, legs))
  {
    var cs := Contributions(env, p, spot, date, legs);
    var out := ProcessAll(env, p, spot, date, legs);
    ProcessAllPointwise(env, p, spot, date, legs);
    forall i | 0 <= i < |legs|
      ensures cs[i].pnl == FinitePart(out[i].projectedPnL)
    {
      ContributionIsReportedPnL(env, p, spot, date, legs[i]);
    }
    PnLSumsAgree(cs, out);
  }

  /** The total P&L is the sum of the legs' P&L values that are numbers. */
  lemma TotalPnLMatchesLegs(env: Env, p: DataParams, legs: seq<Leg>)
    ensures CalculateProjection(env, p, legs).totals.pnl == FinitePnLSum(CalculateProjection(env, p, legs).legs)
  {
    TotalsPnLIsSumOfLegs(env, p, SpotForCalc(p), ProjectionDate(env, p), IncludedLegs(legs));
  }

  lemma ZeroTimesScale(s: Num)
    ensures s.Fin? ==> Mul(Fin(0.0), s) == Fin(0.0)
  {
  }

  lemma DirectedZero(side: Side)
    ensures Directed(Fin(0.0), side) == Fin(0.0)
  {
  }

  lemma NoMoveNoPnL(price: JsVal)
    ensures PnLPerUnit(ParseFloat(price), ParseFloat(price)) == 0.0
  {
  }

  /** A leg left at its entry price with zero Greeks (an unknown
      instrument, say) contributes no P&L, and no delta unless its lot count
      is unreadable. */
  lemma UnpricedLegContributesNothing(p: DataParams, leg: Leg)
    ensures var c := Contribution(LegPnL(p, leg, Valuation(ParseFloat(leg.price), ZeroGreeks)),
                                  ZeroGreeks, leg.buySell, Scale(p, leg));
      c.pnl == 0.0 && (c.delta == Fin(0.0) || Scale(p, leg).NaN?)
  {
    ZeroTimesScale(Scale(p, leg));
    DirectedZero(leg.buySell);
    NoMoveNoPnL(leg.price);
  }

  function NegGreeksTotals(t: Totals): Totals {
    Totals(-t.pnl, Neg(t.delta), t.gamma, Neg(t.theta), Neg(t.vega))
  }

  lemma FlipKeepsValuation(env: Env, p: DataParams, spot: real, date: Date, leg: Leg)
    ensures LegValuation(env, p, spot, date, FlipLeg(leg)) == LegValuation(env, p, spot, date, leg)
  {
    var f := FlipLeg(leg);
    assert f.token == leg.token && f.legType == leg.legType && f.price == leg.price;
  }

  lemma ScaledDirectedFlip(x: Num, side: Side, s: Num)
    ensures ScaledDirected(x, Flip(side), s) == Neg(ScaledDirected(x, side, s))
  {
    if x.Fin? && s.Fin? {
      assert (-x.r) * s.r == -(x.r * s.r);
    }
  }

  lemma GreekContributionFlip(g: Num, side: Side, s: Num)
    ensures GreekContribution(g, Flip(side), s) == Neg(GreekContribution(g, side, s))
  {
    ScaledDirectedFlip(g, side, s);
  }

  lemma FlipKeepsScale(p: DataParams, leg: Leg)
    ensures Scale(p, FlipLeg(leg)) == Scale(p, leg)
  {
    var f := FlipLeg(leg);
    assert f.lots == leg.lots && f.lotSize == leg.lotSize;
  }

  lemma FlipNegatesLegPnL(p: DataParams, leg: Leg, v: Valuation)
    ensures LegPnL(p, FlipLeg(leg), v) == Neg(LegPnL(p, leg, v))
  {
    FlipKeepsScale(p, leg);
    assert FlipLeg(leg).price == leg.price;
    ScaledDirectedFlip(Fin(PnLPerUnit(v.value, ParseFloat(leg.price))), leg.buySell, Scale(p, leg));
  }

  lemma FinitePartNeg(x: Num)
    ensures FinitePart(Neg(x)) == -FinitePart(x)
  {
  }

  /** Negating a leg's P&L and swapping its side negates its P&L, delta,
      theta and vega contributions and leaves gamma alone. */
  lemma FlipNegatesContribution(legPnL: Num, g: Greeks, side: Side, s: Num)
    ensures Contribution(Neg(legPnL), g, Flip(side), s) == NegGreeksTotals(Contribution(legPnL, g, side, s))
  {
    FinitePartNeg(legPnL);
    GreekContributionFlip(g.delta, side, s);
    GreekContributionFlip(g.theta, side, s);
    GreekContributionFlip(g.vega, side, s);
  }

  /** Swapping Buy and Sell on a leg negates what it adds to the totals, gamma aside. */
  lemma FlipNegatesLegContribution(env: Env, p: DataParams, spot: real, date: Date, leg: Leg)
    ensures LegContribution(env, p, spot, date, FlipLeg(leg)) == NegGreeksTotals(LegContribution(env, p, spot, date, leg))
  {
    var v := LegValuation(env, p, spot, date, leg);
    FlipKeepsValuation(env, p, spot, date, leg);
    FlipKeepsScale(p, leg);
    FlipNegatesLegPnL(p, leg, v);
    assert FlipLeg(leg).buySell == Flip(leg.buySell);
    FlipNegatesContribution(LegPnL(p, leg, v), v.greeks, leg.buySell, Scale(p, leg));
  }

  lemma {:induction false} IncludedLegsCommutesWithFlip(legs: seq<Leg>)
    ensures IncludedLegs(FlipAll(legs)) == FlipAll(IncludedLegs(legs))
  {
    if |legs| > 0 {
      assert FlipAll(legs)[1..] == FlipAll(legs[1..]);
      IncludedLegsCommutesWithFlip(legs[1..]);
      if Included(legs[0]) {
        assert FlipAll([legs[0]] + IncludedLegs(legs[1..]))[1..] == FlipAll(IncludedLegs(legs[1..]));
      }
    }
  }

  lemma AddTotalsNeg(a: Totals, b: Totals)
    ensures AddTotals(NegGreeksTotals(a), NegGreeksTotals(b)) == NegGreeksTotals(AddTotals(a, b))
  {
  }

  function NegAll(cs: seq<Totals>): (r: seq<Totals>)
    ensures |r| == |cs|
  {
    if |cs| == 0 then [] else [NegGreeksTotals(cs[0])] + NegAll(cs[1..])
  }

  lemma {:induction false} SumTotalsNeg(cs: seq<Totals>)
    ensures SumTotals(NegAll(cs)) == NegGreeksTotals(SumTotals(cs))
  {
    if |cs| > 0 {
      SumTotalsNeg(cs[1..]);
      assert NegAll(cs)[1..] == NegAll(cs[1..]);
      AddTotalsNeg(cs[0], SumTotals(cs[1..]));
    }
  }

  lemma {:induction false} FlipNegatesContributions(env: Env, p: DataParams, spot: real, date: Date, legs: seq<Leg>)
    ensures Contributions(env, p, spot, date, FlipAll(legs)) == NegAll(Contributions(env, p, spot, date, legs))
  {
    if |legs| > 0 {
      var f := FlipAll(legs);
      assert f[1..] == FlipAll(legs[1..]);
      assert f[0] == FlipLeg(legs[0]);
      FlipNegatesLegContribution(env, p, spot, date, legs[0]);
      FlipNegatesContributions(env, p, spot, date, legs[1..]);
      var cs := Contributions(env, p, spot, date, legs);
      assert cs[1..] == Contributions(env, p, spot, date, legs[1..]);
      assert NegAll(cs)[1..] == NegAll(cs[1..]);
    }
  }

  /** Swapping Buy and Sell on every leg negates the total P&L, delta, theta
      and vega; total gamma is unchanged. */
  lemma FlipNegatesProjectionTotals(env: Env, p: DataParams, legs: seq<Leg>)
    ensures CalculateProjection(env, p, FlipAll(legs)).totals
            == NegGreeksTotals(CalculateProjection(env, p, legs).totals)
  {
    IncludedLegsCommutesWithFlip(legs);
    var cs := Contributions(env, p, SpotForCalc(p), ProjectionDate(env, p), IncludedLegs(legs));
    FlipNegatesContributions(env, p, SpotForCalc(p), ProjectionDate(env, p), IncludedLegs(legs));
    SumTotalsNeg(cs);
  }

  /** For an expired option whose leg and instrument agree on the option
      type, the calculator's value is the chart's value on the same date. */
  lemma ExpiredOptionAgreesWithChart(env: Env, p: DataParams, leg: Leg, spot: real, date: Date)
    requires leg.legType.OptionLeg? && p.lookup(leg.token).Some?
    requires OptionDetailsComplete(p.lookup(leg.token).value)
    requires leg.optionType == p.lookup(leg.token).value.optionType
    requires NumberOf(p.lookup(leg.token).value.strike).Fin?
    requires env.timeToExpiry(env.dateOf(p.lookup(leg.token).value.expiry), date) <= Tiny
    ensures ValueLeg(env, p.rate, leg, spot, date, p.scenarioIV, p.lookup(leg.token)).value
            == TheoreticalPrice(env, p.rate, leg, spot, date, p.scenarioIV, p.lookup)
  {
  }

  /** For a live future tagged as a future, the calculator's value is the
      chart's cost-of-carry value on the same date. */
  lemma LiveFutureAgreesWithChart(env: Env, p: DataParams, leg: Leg, spot: real, date: Date)
    requires leg.legType.FutureLeg? && p.lookup(leg.token).Some?
    requires p.lookup(leg.token).value.legTypeDb == DbFuture
    requires p.lookup(leg.token).value.expiryDate != "" || p.lookup(leg.token).value.expiry != ""
    requires date < FutureExpiry(env, p.lookup(leg.token).value)
    ensures ValueLeg(env, p.rate, leg, spot, date, p.scenarioIV, p.lookup(leg.token)).value
            == TheoreticalPrice(env, p.rate, leg, spot, date, p.scenarioIV, p.lookup)
  {
  }
}

=== FILE: PayoffGraph.dfy ===
/** The payoff chart's data: the standard-deviation bands around the
    scenario centre, the spot grid, and the P&L and open interest at every
    grid point. */
module PayoffGraph {
  import opened Common
  import opened Market
  import opened PayoffLeg

  /** The arguments of the chart generator besides the legs. `targetText`/`targetRead` are the
      scenario-target text box and what `parseFloat` reads from it. */
  datatype GraphParams = GraphParams(
    targetText: string,
    targetRead: Num,
    displaySpot: Num,
    targetISO: string,
    rate: real,
    scenarioIV: string -> Num,
    lookup: Lookup,
    graphPoints: int,
    underlying: real,
    showPercentage: bool,
    sdDays: real,
    chain: seq<Instrument>
  )

  datatype Bands = Bands(center: real, minus2: real, minus1: real, plus1: real, plus2: real)

  datatype Point = Point(
    spot: real,
    pnlAtExpiry: real,
    pnlAtTarget: real,
    pnlAtExpiryPct: Option<real>,
    pnlAtTargetPct: Option<real>,
    callOI: Num,
    putOI: Num,
    isCurrentSpot: bool
  )

  datatype Graph = Graph(points: seq<Point>, bands: Option<Bands>)

  datatype Range = Range(low: real, high: real)

  // ---------------------------------------------------------------------------
  // Legs and centre
  // ---------------------------------------------------------------------------

  /** A leg takes part when selected, with a token, a numeric price and a leg type. */
  predicate ChartSelected(leg: Leg) {
    leg.selected && leg.token != "" && IsNumber(leg.price) && HasLegType(leg.legType)
  }

  function SelectedLegs(legs: seq<Leg>): (r: seq<Leg>)
    ensures forall l :: l in r <==> l in legs && ChartSelected(l)
    ensures |r| <= |legs|
    ensures r == Filter(legs, ChartSelected)
  {
    if |legs| == 0 then []
    else if ChartSelected(legs[0]) then [legs[0]] + SelectedLegs(legs[1..])
    else SelectedLegs(legs[1..])
  }

  /** Selecting twice selects nothing more. */
  lemma {:induction false} SelectedLegsIdempotent(legs: seq<Leg>)
    ensures SelectedLegs(SelectedLegs(legs)) == SelectedLegs(legs)
  {
    if |legs| > 0 {
      SelectedLegsIdempotent(legs[1..]);
      if ChartSelected(legs[0]) {
        assert ([legs[0]] + SelectedLegs(legs[1..]))[1..] == SelectedLegs(legs[1..]);
      }
    }
  }

  /** The scenario spot: the parsed target text, else a positive slider
      spot, else a positive live spot, else 0. */
  function RawSpot(p: GraphParams): real {
    if p.targetText != "" && p.targetRead.Fin? then p.targetRead.r
    else if p.displaySpot.Fin? && p.displaySpot.r > 0.0 then p.displaySpot.r
    else if p.underlying > 0.0 then p.underlying
    else 0.0
  }

  /** The centre of the chart: the scenario spot when positive, else the
      live spot when positive, else 0. */
  function Center(p: GraphParams): (c: real)
    ensures c >= 0.0
    ensures c > 0.0 <==> RawSpot(p) > 0.0 || p.underlying > 0.0
    ensures RawSpot(p) > 0.0 ==> c == RawSpot(p)
  {
    var raw := RawSpot(p);
    if raw > 0.0 then raw else if p.underlying > 0.0 then p.underlying else 0.0
  }

  // ---------------------------------------------------------------------------
  // Standard-deviation bands
  // ---------------------------------------------------------------------------

  function FirstOptionLeg(legs: seq<Leg>): (r: Option<Leg>)
    ensures r.Some? ==> r.value in legs && r.value.legType.OptionLeg?
    ensures r.None? <==> forall l :: l in legs ==> !l.legType.OptionLeg?
  {
    if |legs| == 0 then None
    else if legs[0].legType.OptionLeg? then Some(legs[0])
    else FirstOptionLeg(legs[1..])
  }

  /** A chain option whose quote carries a usable implied volatility. */
  predicate IvCandidate(i: Instrument) {
    && i.legTypeDb == DbOption
    && i.marketData.Some?
    && Truthy(i.marketData.value.iv)
    && Gt(ParseFloat(i.marketData.value.iv), Fin(0.0))
    && !i.strike.Undef?
  }

  function IvCandidates(chain: seq<Instrument>): (r: seq<Instrument>)
    ensures forall i :: i in r <==> i in chain && IvCandidate(i)
  {
    if |chain| == 0 then []
    else if IvCandidate(chain[0]) then [chain[0]] + IvCandidates(chain[1..])
    else IvCandidates(chain[1..])
  }

  /** `a` is strictly nearer the centre than `b` (false when a strike is unreadable). */
  predicate StrikeNearer(a: Instrument, b: Instrument, c: real) {
    var ka := ParseFloat(a.strike);
    var kb := ParseFloat(b.strike);
    ka.Fin? && kb.Fin? && Abs(ka.r - c) < Abs(kb.r - c)
  }

  /** The `reduce` that keeps the first element and replaces it only by a
      strictly nearer one. */
  function NearestToCenter(s: seq<Instrument>, c: real): (r: Option<Instrument>)
    ensures r.None? <==> |s| == 0
    ensures r.Some? ==> r.value in s
    ensures r.Some? && (forall j :: 0 <= j < |s| ==> ParseFloat(s[j].strike).Fin?) ==>
      forall j :: 0 <= j < |s| ==> !StrikeNearer(s[j], r.value, c)
  {
    if |s| == 0 then None
    else
      var prev := NearestToCenter(s[..|s| - 1], c);
      var curr := s[|s| - 1];
      if prev.None? || StrikeNearer(curr, prev.value, c) then Some(curr) else prev
  }

  /** The volatility behind the bands: the first option leg's scenario IV,
      or (with no option leg) the chain option nearest the centre; the
      configured default when that value is not positive. */
  function RepresentativeIV(cfg: Config, p: GraphParams, selected: seq<Leg>, c: real): (v: real)
    ensures v > 0.0 || v == cfg.defaultVolatility
    ensures FirstOptionLeg(selected).Some? ==>
      var iv := p.scenarioIV(FirstOptionLeg(selected).value.token);
      v == if Gt(iv, Fin(0.0)) then iv.r else cfg.defaultVolatility
    ensures FirstOptionLeg(selected).None? && |IvCandidates(p.chain)| == 0 ==> v == cfg.defaultVolatility
    ensures FirstOptionLeg(selected).None? && |IvCandidates(p.chain)| > 0 ==>
      var i := NearestToCenter(IvCandidates(p.chain), c).value;
      i in IvCandidates(p.chain) && v == ParseFloat(i.marketData.value.iv).r / 100.0
  {
    match FirstOptionLeg(selected)
    case Some(leg) =>
      var iv := p.scenarioIV(leg.token);
      if Gt(iv, Fin(0.0)) then iv.r else cfg.defaultVolatility
    case None =>
      if |p.chain| == 0 then cfg.defaultVolatility
      else match NearestToCenter(IvCandidates(p.chain), c)
        case None => cfg.defaultVolatility
        case Some(i) =>
          var parsed := ParseFloat(i.marketData.value.iv);
          if parsed.Fin? && parsed.r > 0.0 then parsed.r / 100.0 else cfg.defaultVolatility
  }

  /** The five band levels for a move of `move` around `c`. */
  function MakeBands(env: Env, c: real, move: real): Bands {
    Bands(
      env.round2(c),
      Max(0.0, env.round2(c - 2.0 * move)),
      Max(0.0, env.round2(c - move)),
      env.round2(c + move),
      env.round2(c + 2.0 * move))
  }

  /** `c * iv * Math.sqrt(days / 365.25)` */
  function SdMove(env: Env, c: real, iv: real, days: real): real {
    c * iv * env.sqrt(days / 365.25)
  }

  /** Bands exist only for a positive centre, a positive horizon and a positive volatility. */
  function SDBands(env: Env, cfg: Config, p: GraphParams, selected: seq<Leg>, c: real): (b: Option<Bands>)
    ensures b.Some? <==> c > 0.0 && p.sdDays > 0.0 && RepresentativeIV(cfg, p, selected, c) > 0.0
    ensures b.Some? ==> b.value == MakeBands(env, c, SdMove(env, c, RepresentativeIV(cfg, p, selected, c), p.sdDays))
  {
    if c > 0.0 && p.sdDays > 0.0 then
      var iv := RepresentativeIV(cfg, p, selected, c);
      if iv > 0.0 && p.sdDays / 365.25 > 0.0 then Some(MakeBands(env, c, SdMove(env, c, iv, p.sdDays)))
      else None
    else None
  }

  /** With order-preserving rounding and a non-negative square root the
      bands are ordered and non-negative. */
  lemma BandsOrdered(env: Env, cfg: Config, p: GraphParams, selected: seq<Leg>, c: real)
    requires MonotoneRounding(env.round2) && SqrtNonNegative(env)
    requires SDBands(env, cfg, p, selected, c).Some?
    ensures var b := SDBands(env, cfg, p, selected, c).value;
      0.0 <= b.minus2 <= b.minus1 <= b.center <= b.plus1 <= b.plus2
  {
    var iv := RepresentativeIV(cfg, p, selected, c);
    var m := SdMove(env, c, iv, p.sdDays);
    assert m >= 0.0 by {
      assert c * iv > 0.0;
      assert env.sqrt(p.sdDays / 365.25) >= 0.0;
    }
    assert env.round2(c - 2.0 * m) <= env.round2(c - m);
    assert env.round2(c - m) <= env.round2(c);
    assert env.round2(0.0) <= env.round2(c);
    assert env.round2(c) <= env.round2(c + m);
    assert env.round2(c + m) <= env.round2(c + 2.0 * m);
  }

  // ---------------------------------------------------------------------------
  // Spot range
  // ---------------------------------------------------------------------------

  /** The strikes of the selected option legs that have one, as `Number` reads them. */
  function LegStrikes(selected: seq<Leg>): (r: seq<Num>)
    ensures |r| <= |selected|
  {
    if |selected| == 0 then []
    else
      var rest := LegStrikes(selected[1..]);
      if selected[0].legType.OptionLeg? && !selected[0].strike.Undef?
      then [NumberOf(selected[0].strike)] + rest
      else rest
  }

  /** `Math.min(...xs, init)`: NaN as soon as one value is NaN. */
  function MinOf(xs: seq<Num>, init: real): (m: Num)
    ensures m.Fin? <==> forall i :: 0 <= i < |xs| ==> xs[i].Fin?
    ensures m.Fin? ==> m.r <= init && forall i :: 0 <= i < |xs| ==> m.r <= xs[i].r
  {
    if |xs| == 0 then Fin(init)
    else
      var rest := MinOf(xs[1..], init);
      if xs[0].NaN? || rest.NaN? then NaN else Fin(Min(xs[0].r, rest.r))
  }

  /** `Math.max(...xs, init)`: NaN as soon as one value is NaN. */
  function MaxOf(xs: seq<Num>, init: real): (m: Num)
    ensures m.Fin? <==> forall i :: 0 <= i < |xs| ==> xs[i].Fin?
    ensures m.Fin? ==> m.r >= init && forall i :: 0 <= i < |xs| ==> m.r >= xs[i].r
  {
    if |xs| == 0 then Fin(init)
    else
      var rest := MaxOf(xs[1..], init);
      if xs[0].NaN? || rest.NaN? then NaN else Fin(Max(xs[0].r, rest.r))
  }

  /** The span from the lowest to the highest value, padded by `pad` on each
      side; a side whose extreme is not positive falls back to 0, or to a
      doubly padded centre (else 2000) above. */
  function PaddedSpan(pad: real, minR: Num, maxR: Num, c: real): (r: Range)
    ensures pad >= 0.0 && Gt(minR, Fin(0.0)) ==> r.low <= minR.r
    ensures pad >= 0.0 && Gt(maxR, Fin(0.0)) ==> r.high >= maxR.r
  {
    var low := if Gt(minR, Fin(0.0)) then minR.r * (1.0 - pad) else 0.0;
    var high := if Gt(maxR, Fin(0.0)) then maxR.r * (1.0 + pad)
                else if c > 0.0 then c * (1.0 + pad * 2.0) else 2000.0;
    Range(low, high)
  }

  /** The padded range before the lower floor and the centre clamp: the
      span of the leg strikes and the centre, padded, or a window around the
      live spot (or [0, 2000]) for a low centre with no strikes, widened to
      the outer bands. */
  function PaddedRange(cfg: Config, p: GraphParams, strikes: seq<Num>, c: real, bands: Option<Bands>): (r: Range)
    ensures bands.Some? ==> r.low <= bands.value.minus2 && r.high >= bands.value.plus2
  {
    var pad := cfg.paddingFactor;
    var minR := if |strikes| > 0 then MinOf(strikes, c) else Fin(c);
    var maxR := if |strikes| > 0 then MaxOf(strikes, c) else Fin(c);
    var span := PaddedSpan(pad, minR, maxR, c);
    var low1 := if c < 100.0 && |strikes| == 0 && p.underlying > 0.0 then p.underlying * (1.0 - pad)
                else if c < 100.0 && |strikes| == 0 then 0.0 else span.low;
    var high1 := if c < 100.0 && |strikes| == 0 && p.underlying > 0.0 then p.underlying * (1.0 + pad)
                 else if c < 100.0 && |strikes| == 0 then 2000.0 else span.high;
    match bands
    case Some(b) => Range(Min(low1, b.minus2), Max(high1, b.plus2))
    case None => Range(low1, high1)
  }

  /** The effective range: at least 0.01 and at least one step wide; with no
      strikes it is clamped to half the centre either side of it. */
  function EffectiveRange(cfg: Config, padded: Range, noStrikes: bool, c: real): (r: Range)
    ensures r.low >= 0.01
    ensures r.high >= r.low + cfg.intervalStep
    ensures !(noStrikes && c > 0.0) ==> r.low == Max(0.01, padded.low) && r.high >= padded.high
  {
    var low := Max(0.01, padded.low);
    var high := Max(low + cfg.intervalStep, padded.high);
    if noStrikes && c > 0.0 then
      var half := c * 0.5;
      var low2 := Max(0.01, Max(low, c - half));
      Range(low2, Max(low2 + cfg.intervalStep, Min(high, c + half)))
    else Range(low, high)
  }

  function SpotRange(cfg: Config, p: GraphParams, selected: seq<Leg>, c: real, bands: Option<Bands>): Range {
    var strikes := LegStrikes(selected);
    EffectiveRange(cfg, PaddedRange(cfg, p, strikes, c, bands), |strikes| == 0, c)
  }

  /** With strikes present, the padded range starts from the padded extremes. */
  lemma PaddedFromStrikes(cfg: Config, p: GraphParams, strikes: seq<Num>, c: real, bands: Option<Bands>)
    requires |strikes| > 0
    requires MinOf(strikes, c).Fin? && MaxOf(strikes, c).Fin?
    ensures var r := PaddedRange(cfg, p, strikes, c, bands);
      var span := PaddedSpan(cfg.paddingFactor, MinOf(strikes, c), MaxOf(strikes, c), c);
      r.low <= span.low && r.high >= span.high
  {
  }

  /** Before the floor, the padded range reaches the lowest and the highest
      of the strikes and the centre, as far as they are positive. */
  lemma PaddedReachesExtremes(cfg: Config, p: GraphParams, strikes: seq<Num>, c: real, bands: Option<Bands>)
    requires cfg.paddingFactor >= 0.0
    requires |strikes| > 0
    requires forall i :: 0 <= i < |strikes| ==> strikes[i].Fin?
    ensures var r := PaddedRange(cfg, p, strikes, c, bands);
      && (r.low <= 0.0 || r.low <= MinOf(strikes, c).r)
      && (MaxOf(strikes, c).r <= 0.0 || r.high >= MaxOf(strikes, c).r)
  {
    assert MinOf(strikes, c).Fin? && MaxOf(strikes, c).Fin?;
    PaddedFromStrikes(cfg, p, strikes, c, bands);
  }

  /** With a non-negative padding factor the range shows every leg strike
      from 0.01 up, and the centre. */
  lemma RangeCoversStrikes(cfg: Config, p: GraphParams, selected: seq<Leg>, c: real, bands: Option<Bands>)
    requires cfg.paddingFactor >= 0.0
    requires |LegStrikes(selected)| > 0
    requires forall i :: 0 <= i < |LegStrikes(selected)| ==> LegStrikes(selected)[i].Fin?
    ensures var r := SpotRange(cfg, p, selected, c, bands);
      && (forall i :: 0 <= i < |LegStrikes(selected)| && LegStrikes(selected)[i].r >= 0.01 ==>
            r.low <= LegStrikes(selected)[i].r <= r.high)
      && (c >= 0.01 ==> r.low <= c <= r.high)
  {
    var strikes := LegStrikes(selected);
    PaddedReachesExtremes(cfg, p, strikes, c, bands);
    var padded := PaddedRange(cfg, p, strikes, c, bands);
    var r := EffectiveRange(cfg, padded, false, c);
    assert r == SpotRange(cfg, p, selected, c, bands);
  }

  // ---------------------------------------------------------------------------
  // Spot grid
  // ---------------------------------------------------------------------------

  /** `underlying || 50000` when the centre is not positive. */
  function FallbackCenter(c: real, underlying: real): real {
    if c > 0.0 then c else if underlying != 0.0 then underlying else 50000.0
  }

  lemma CancelFactor(n: real, d: real)
    requires n != 0.0
    ensures n * d / n == d
  {
  }

  /** `low + i * (high - low) / n`. */
  function Interpolate(r: Range, n: int, i: int): real
    requires n > 0
  {
    r.low + (i as real) * (r.high - r.low) / (n as real)
  }

  function GridSpot(env: Env, r: Range, n: int, i: int): real
    requires n > 0
  {
    env.round2(Interpolate(r, n, i))
  }

  lemma LastGridSpot(env: Env, r: Range, n: int)
    requires n > 0
    ensures GridSpot(env, r, n, n) == env.round2(r.high)
  {
    CancelFactor(n as real, r.high - r.low);
    assert Interpolate(r, n, n) == r.high;
  }

  /** The `n + 1` evenly spaced spots from `low` to `high`, rounded. */
  function EvenGrid(env: Env, r: Range, n: int): (g: seq<real>)
    requires n > 0
    ensures |g| == n + 1
    ensures g[0] == env.round2(r.low) && g[n] == env.round2(r.high)
  {
    var g := seq(n + 1, i => GridSpot(env, r, n, i));
    LastGridSpot(env, r, n);
    assert g[n] == GridSpot(env, r, n, n);
    g
  }

  /** The spots `fc + i * step` for `i` from `-(n/2)` to `n/2`, rounded. */
  function StepGrid(env: Env, fc: real, step: real, n: int): (g: seq<real>)
    ensures n >= 0 ==> |g| == 2 * (n / 2) + 1
    ensures n < 0 ==> g == []
  {
    var h := n / 2;
    if h < 0 then [] else seq(2 * h + 1, i => env.round2(fc + ((i - h) as real) * step))
  }

  function NonNegative(s: seq<real>): (r: seq<real>)
    ensures forall x :: x in r <==> x in s && x >= 0.0
  {
    if |s| == 0 then []
    else if s[0] >= 0.0 then [s[0]] + NonNegative(s[1..])
    else NonNegative(s[1..])
  }

  /** The P&L grid: evenly spaced over a non-empty range, else stepped
      around the fallback centre; negatives dropped, sorted, distinct. */
  function PnLGrid(env: Env, cfg: Config, p: GraphParams, c: real, r: Range): (g: seq<real>)
    ensures forall i, j :: 0 <= i < j < |g| ==> g[i] < g[j]
    ensures forall x :: x in g ==> x >= 0.0
    ensures r.high > r.low && p.graphPoints > 0 ==>
      forall x :: x in g <==> x in EvenGrid(env, r, p.graphPoints) && x >= 0.0
    ensures !(r.high > r.low && p.graphPoints > 0) ==>
      forall x :: x in g <==> x in StepGrid(env, FallbackCenter(c, p.underlying), cfg.intervalStep, p.graphPoints) && x >= 0.0
  {
    var raw := if r.high > r.low && p.graphPoints > 0 then EvenGrid(env, r, p.graphPoints)
               else StepGrid(env, FallbackCenter(c, p.underlying), cfg.intervalStep, p.graphPoints);
    SortUniqueReals(NonNegative(raw))
  }

  /** A chain option with a strike that `parseFloat` reads. */
  predicate ListedStrike(i: Instrument) {
    i.legTypeDb == DbOption && !i.strike.Undef? && ParseFloat(i.strike).Fin?
  }

  /** Strikes of chain options that `parseFloat` reads. */
  function ChainStrikes(chain: seq<Instrument>): (r: seq<real>)
    ensures forall x :: x in r ==> exists i :: 0 <= i < |chain| && chain[i].legTypeDb == DbOption
                                    && ParseFloat(chain[i].strike) == Fin(x)
    ensures forall i :: 0 <= i < |chain| && ListedStrike(chain[i]) ==> ParseFloat(chain[i].strike).r in r
  {
    if |chain| == 0 then []
    else
      var rest := ChainStrikes(chain[1..]);
      assert forall i :: 1 <= i < |chain| ==> chain[i] == chain[1..][i - 1];
      var i := chain[0];
      if i.legTypeDb == DbOption && !i.strike.Undef? && ParseFloat(i.strike).Fin?
      then [ParseFloat(i.strike).r] + rest
      else rest
  }

  function Within(s: seq<real>, r: Range): (w: seq<real>)
    ensures forall x :: x in w <==> x in s && r.low <= x <= r.high
  {
    if |s| == 0 then []
    else if r.low <= s[0] <= r.high then [s[0]] + Within(s[1..], r)
    else Within(s[1..], r)
  }

  function RoundAll(env: Env, s: seq<real>): (t: seq<real>)
    ensures |t| == |s|
    ensures forall i :: 0 <= i < |s| ==> t[i] == env.round2(s[i])
  {
    if |s| == 0 then [] else [env.round2(s[0])] + RoundAll(env, s[1..])
  }

  /** Chain strikes inside the range, distinct, rounded; only these
      open-interest strikes join the grid. */
  function OIGrid(env: Env, chain: seq<Instrument>, r: Range): (g: seq<real>)
    ensures forall i :: 0 <= i < |g| ==>
      exists x :: x in ChainStrikes(chain) && r.low <= x <= r.high && g[i] == env.round2(x)
    ensures forall x :: x in ChainStrikes(chain) && r.low <= x <= r.high ==> env.round2(x) in g
  {
    if |chain| == 0 then []
    else
      var kept := Dedup(Within(ChainStrikes(chain), r));
      var g := RoundAll(env, kept);
      assert forall i :: 0 <= i < |g| ==> kept[i] in kept;
      assert forall x :: x in kept ==> exists i :: 0 <= i < |kept| && kept[i] == x;
      g
  }

  /** The eleven spots `fc ± 2%` steps, rounded and sorted, used when the grid is empty. */
  function LastResortGrid(env: Env, fc: real): (g: seq<real>)
    ensures |g| == 11
    ensures forall i, j :: 0 <= i < j < |g| ==> g[i] <= g[j]
  {
    var raw := seq(11, i => env.round2(fc + ((i - 5) as real) * (fc * 0.02)));
    SortByKey(raw, (x: real) => x)
  }

  /** The x-axis: the P&L grid merged with the open-interest strikes, sorted
      and distinct, or the last-resort grid when both are empty. */
  function FinalGrid(env: Env, cfg: Config, p: GraphParams, c: real, r: Range): (g: seq<real>)
    ensures |g| > 0
    ensures forall i, j :: 0 <= i < j < |g| ==> g[i] <= g[j]
    ensures |PnLGrid(env, cfg, p, c, r) + OIGrid(env, p.chain, r)| > 0 ==>
      (forall i, j :: 0 <= i < j < |g| ==> g[i] < g[j])
      && (forall x :: x in g <==> x in PnLGrid(env, cfg, p, c, r) || x in OIGrid(env, p.chain, r))
  {
    var all := PnLGrid(env, cfg, p, c, r) + OIGrid(env, p.chain, r);
    var merged := SortUniqueReals(all);
    assert |all| > 0 ==> all[0] in merged;
    if |merged| == 0 then LastResortGrid(env, FallbackCenter(c, p.underlying)) else merged
  }

  // ---------------------------------------------------------------------------
  // Points
  // ---------------------------------------------------------------------------

  function ExpiryTotal(legs: seq<Leg>, spot: real, lookup: Lookup): real {
    if |legs| == 0 then 0.0
    else PnLAtExpiry(legs[0], spot, lookup(legs[0].token)) + ExpiryTotal(legs[1..], spot, lookup)
  }

  function TargetTotal(env: Env, rate: real, legs: seq<Leg>, spot: real, target: Date,
                       scenarioIV: string -> Num, lookup: Lookup): real {
    if |legs| == 0 then 0.0
    else PnLAtTarget(env, rate, legs[0], spot, target, scenarioIV, lookup)
         + TargetTotal(env, rate, legs[1..], spot, target, scenarioIV, lookup)
  }

  /** Swapping Buy and Sell on every leg negates both P&L totals. */
  lemma {:induction false} FlipNegatesTotals(env: Env, rate: real, legs: seq<Leg>, spot: real, target: Date,
                                             scenarioIV: string -> Num, lookup: Lookup)
    ensures ExpiryTotal(FlipAll(legs), spot, lookup) == -ExpiryTotal(legs, spot, lookup)
    ensures TargetTotal(env, rate, FlipAll(legs), spot, target, scenarioIV, lookup)
            == -TargetTotal(env, rate, legs, spot, target, scenarioIV, lookup)
  {
    if |legs| > 0 {
      assert FlipAll(legs)[1..] == FlipAll(legs[1..]);
      assert FlipAll(legs)[0].token == legs[0].token;
      FlipNegatesPnLAtExpiry(legs[0], spot, lookup(legs[0].token));
      FlipNegatesPnLAtTarget(env, rate, legs[0], spot, target, scenarioIV, lookup);
      FlipNegatesTotals(env, rate, legs[1..], spot, target, scenarioIV, lookup);
    }
  }

  /** A chain option of this kind, within half a step of the spot, with a truthy open interest. */
  predicate CountsForOI(i: Instrument, spot: real, step: real, kind: OptionKind) {
    && i.legTypeDb == DbOption
    && !i.strike.Undef?
    && NumberOf(i.strike).Fin?
    && Abs(NumberOf(i.strike).r - spot) < step / 2.0
    && i.optionType == Some(kind)
    && i.marketData.Some?
    && Truthy(i.marketData.value.oi)
  }

  /** Open interest of one option kind at a grid spot. */
  function OpenInterest(chain: seq<Instrument>, spot: real, step: real, kind: OptionKind): (oi: Num)
    ensures (forall i :: 0 <= i < |chain| ==> !CountsForOI(chain[i], spot, step, kind)) ==> oi == Fin(0.0)
    ensures oi.NaN? ==> exists i :: 0 <= i < |chain| && CountsForOI(chain[i], spot, step, kind)
                                    && NumberOf(chain[i].marketData.value.oi).NaN?
  {
    if |chain| == 0 then Fin(0.0)
    else
      var rest := OpenInterest(chain[1..], spot, step, kind);
      assert forall i :: 1 <= i < |chain| ==> chain[i] == chain[1..][i - 1];
      if CountsForOI(chain[0], spot, step, kind)
      then Add(NumberOf(chain[0].marketData.value.oi), rest)
      else rest
  }

  /** Open interest adds up over a chain split in two. */
  lemma {:induction false} OpenInterestSplits(a: seq<Instrument>, b: seq<Instrument>, spot: real, step: real, kind: OptionKind)
    ensures OpenInterest(a + b, spot, step, kind) == Add(OpenInterest(a, spot, step, kind), OpenInterest(b, spot, step, kind))
  {
    if |a| == 0 {
      assert a + b == b;
      assert Add(Fin(0.0), OpenInterest(b, spot, step, kind)) == OpenInterest(b, spot, step, kind);
    } else {
      assert (a + b)[0] == a[0];
      assert (a + b)[1..] == a[1..] + b;
      OpenInterestSplits(a[1..], b, spot, step, kind);
    }
  }

  /** One instrument adds its `Number(oi)` exactly when it is an option of
      this kind within half a step of the spot with a truthy open interest. */
  lemma OpenInterestOne(i: Instrument, spot: real, step: real, kind: OptionKind)
    ensures OpenInterest([i], spot, step, kind)
            == if CountsForOI(i, spot, step, kind) then Add(NumberOf(i.marketData.value.oi), Fin(0.0)) else Fin(0.0)
  {
    assert [i][1..] == [];
  }

  /** `100 * total / underlying`, rounded, when percentages are requested and the live spot is non-zero. */
  function Percent(env: Env, p: GraphParams, total: real): (r: Option<real>)
    ensures r.Some? <==> p.showPercentage && p.underlying != 0.0
    ensures r.Some? ==> r.value == env.round2(100.0 * total / p.underlying)
  {
    if p.showPercentage && p.underlying != 0.0
    then
      assert (total / p.underlying) * 100.0 == 100.0 * total / p.underlying;
      Some(env.round2((total / p.underlying) * 100.0))
    else None
  }

  function PointAt(env: Env, cfg: Config, p: GraphParams, selected: seq<Leg>, c: real, spot: real): (pt: Point)
    ensures pt.spot == spot
    ensures pt.isCurrentSpot <==> c > 0.0 && Abs(spot - c) < 0.01
    ensures pt.pnlAtExpiryPct.Some? <==> p.showPercentage && p.underlying != 0.0
    ensures pt.pnlAtTargetPct.Some? <==> p.showPercentage && p.underlying != 0.0
    ensures PointValues(env, cfg, p, selected, pt)
  {
    var target := env.dateOf(p.targetISO);
    var expiryTotal := ExpiryTotal(selected, spot, p.lookup);
    var targetTotal := TargetTotal(env, p.rate, selected, spot, target, p.scenarioIV, p.lookup);
    Point(
      spot,
      env.round2(expiryTotal),
      env.round2(targetTotal),
      Percent(env, p, expiryTotal),
      Percent(env, p, targetTotal),
      OpenInterest(p.chain, spot, cfg.intervalStep, CE),
      OpenInterest(p.chain, spot, cfg.intervalStep, PE),
      c > 0.0 && Abs(spot - c) < 0.01)
  }

  function Points(env: Env, cfg: Config, p: GraphParams, selected: seq<Leg>, c: real, grid: seq<real>): (pts: seq<Point>)
    ensures |pts| == |grid|
    ensures forall i :: 0 <= i < |grid| ==> pts[i] == PointAt(env, cfg, p, selected, c, grid[i])
    ensures forall i :: 0 <= i < |grid| ==>
      pts[i].spot == grid[i] && (pts[i].isCurrentSpot <==> c > 0.0 && Abs(grid[i] - c) < 0.01)
  {
    if |grid| == 0 then [] else [PointAt(env, cfg, p, selected, c, grid[0])] + Points(env, cfg, p, selected, c, grid[1..])
  }

  /** One point per grid spot, in grid order. */
  predicate OnGrid(pts: seq<Point>, grid: seq<real>) {
    |pts| == |grid| && forall i :: 0 <= i < |grid| ==> pts[i].spot == grid[i]
  }

  /** Points in ascending spot order. */
  predicate SpotsAscend(pts: seq<Point>) {
    forall i, j :: 0 <= i < j < |pts| ==> pts[i].spot <= pts[j].spot
  }

  /** Each point shows the rounded expiry and scenario-date P&L totals of
      the `selected` legs at its spot. */
  predicate ValuesSelected(env: Env, p: GraphParams, selected: seq<Leg>, pts: seq<Point>) {
    forall i :: 0 <= i < |pts| ==>
      && pts[i].pnlAtExpiry == env.round2(ExpiryTotal(selected, pts[i].spot, p.lookup))
      && pts[i].pnlAtTarget
         == env.round2(TargetTotal(env, p.rate, selected, pts[i].spot, env.dateOf(p.targetISO), p.scenarioIV, p.lookup))
  }

  /** A point's percentages are those of its P&L totals, and its call and
      put open interest are those of the chain around its spot. */
  predicate PointValues(env: Env, cfg: Config, p: GraphParams, selected: seq<Leg>, pt: Point) {
    && pt.pnlAtExpiryPct == Percent(env, p, ExpiryTotal(selected, pt.spot, p.lookup))
    && pt.pnlAtTargetPct
       == Percent(env, p, TargetTotal(env, p.rate, selected, pt.spot, env.dateOf(p.targetISO), p.scenarioIV, p.lookup))
    && pt.callOI == OpenInterest(p.chain, pt.spot, cfg.intervalStep, CE)
    && pt.putOI == OpenInterest(p.chain, pt.spot, cfg.intervalStep, PE)
  }

  predicate AllPointValues(env: Env, cfg: Config, p: GraphParams, selected: seq<Leg>, pts: seq<Point>) {
    forall i :: 0 <= i < |pts| ==> PointValues(env, cfg, p, selected, pts[i])
  }

  /** Each point is flagged as the current spot exactly when it lies within
      0.01 of a positive centre `c`. */
  predicate FlagsCurrentSpot(pts: seq<Point>, c: real) {
    forall i :: 0 <= i < |pts| ==> (pts[i].isCurrentSpot <==> c > 0.0 && Abs(pts[i].spot - c) < 0.01)
  }

  /** The payoff chart: nothing at all without a centre, legs or chain;
      otherwise a point per grid spot, in ascending spot order. */
  function GeneratePayoffGraph(env: Env, cfg: Config, legs: seq<Leg>, p: GraphParams): (g: Graph)
    ensures Center(p) == 0.0 && |SelectedLegs(legs)| == 0 && |p.chain| == 0 ==> g.points == [] && g.bands.None?
    ensures g.bands.Some? ==> Center(p) > 0.0 && p.sdDays > 0.0
    ensures SpotsAscend(g.points)
    ensures FlagsCurrentSpot(g.points, Center(p))
    ensures ValuesSelected(env, p, SelectedLegs(legs), g.points)
    ensures AllPointValues(env, cfg, p, SelectedLegs(legs), g.points)
    ensures !(Center(p) == 0.0 && |SelectedLegs(legs)| == 0 && |p.chain| == 0) ==>
      var bands := SDBands(env, cfg, p, SelectedLegs(legs), Center(p));
      && g.bands == bands
      && OnGrid(g.points, FinalGrid(env, cfg, p, Center(p), SpotRange(cfg, p, SelectedLegs(legs), Center(p), bands)))
  {
    var selected := SelectedLegs(legs);
    var c := Center(p);
    if c == 0.0 && |selected| == 0 && |p.chain| == 0 then Graph([], None)
    else
      var bands := SDBands(env, cfg, p, selected, c);
      var grid := FinalGrid(env, cfg, p, c, SpotRange(cfg, p, selected, c, bands));
      GraphOver(env, cfg, p, selected, c, grid, bands)
  }

  /** The chart over a given ascending grid: its points keep the grid's
      order and carry the current-spot flag of the given centre. */
  function GraphOver(env: Env, cfg: Config, p: GraphParams, selected: seq<Leg>, c: real,
                     grid: seq<real>, bands: Option<Bands>): (g: Graph)
    requires forall i, j :: 0 <= i < j < |grid| ==> grid[i] <= grid[j]
    ensures g.bands == bands
    ensures OnGrid(g.points, grid)
    ensures SpotsAscend(g.points)
    ensures FlagsCurrentSpot(g.points, c)
    ensures ValuesSelected(env, p, selected, g.points)
    ensures AllPointValues(env, cfg, p, selected, g.points)
  {
    Graph(Points(env, cfg, p, selected, c, grid), bands)
  }

  /** A chart with a centre, a selected leg or a chain always has points. */
  lemma GraphHasPoints(env: Env, cfg: Config, legs: seq<Leg>, p: GraphParams)
    requires Center(p) > 0.0 || |SelectedLegs(legs)| > 0 || |p.chain| > 0
    ensures |GeneratePayoffGraph(env, cfg, legs, p).points| > 0
  {
  }

  /** Unselected legs (and legs without token, numeric price or leg type)
      do not affect the chart. */
  lemma GraphIgnoresUnselectedLegs(env: Env, cfg: Config, legs: seq<Leg>, p: GraphParams)
    ensures GeneratePayoffGraph(env, cfg, legs, p) == GeneratePayoffGraph(env, cfg, SelectedLegs(legs), p)
  {
    SelectedLegsIdempotent(legs);
  }

  /** With no selected legs every point shows zero P&L. */
  lemma NoLegsFlatPayoff(env: Env, cfg: Config, legs: seq<Leg>, p: GraphParams)
    requires MonotoneRounding(env.round2)
    requires |SelectedLegs(legs)| == 0
    ensures forall pt :: pt in GeneratePayoffGraph(env, cfg, legs, p).points ==>
      pt.pnlAtExpiry == 0.0 && pt.pnlAtTarget == 0.0
  {
    var pts := GeneratePayoffGraph(env, cfg, legs, p).points;
    forall pt | pt in pts
      ensures pt.pnlAtExpiry == 0.0 && pt.pnlAtTarget == 0.0
    {
      var i :| 0 <= i < |pts| && pts[i] == pt;
      assert SelectedLegs(legs) == [];
    }
  }
}

=== FILE: PayoffLeg.dfy ===
/** Valuation of a single strategy leg for the payoff chart: its value and
    P&L at its own expiry, and its theoretical price and P&L on the scenario
    date. */
module PayoffLeg {
  import opened Common
  import opened Market

  /** The strike used at expiry: the instrument's when it has one, else the leg's. */
  function ExpiryStrike(leg: Leg, inst: Option<Instrument>): (k: Num)
    ensures inst.Some? && !inst.value.strike.Undef? ==> k == NumberOf(inst.value.strike)
    ensures !(inst.Some? && !inst.value.strike.Undef?) ==> k == NumberOf(leg.strike)
  {
    NumberOf(if inst.Some? && !inst.value.strike.Undef? then inst.value.strike else leg.strike)
  }

  /** Intrinsic value of a call or put with strike `k` at spot `s`. */
  function Intrinsic(kind: OptionKind, s: real, k: real): (v: real)
    ensures v >= 0.0
    ensures kind.CE? ==> v >= s - k && (v == 0.0 || v == s - k)
    ensures kind.PE? ==> v >= k - s && (v == 0.0 || v == k - s)
  {
    if kind.CE? then Max(0.0, s - k) else Max(0.0, k - s)
  }

  /** Value per unit of a leg at its own expiry: intrinsic value for an
      option (0 when the strike is unreadable or the option type missing), the
      settlement spot for a future, 0 for anything else. */
  function ValueAtExpiry(leg: Leg, spot: real, inst: Option<Instrument>): (v: real)
    ensures leg.legType.OptionLeg? ==> v >= 0.0
    ensures leg.legType.OptionLeg? && (ExpiryStrike(leg, inst).NaN? || leg.optionType.None?) ==> v == 0.0
    ensures leg.legType.OptionLeg? && leg.optionType == Some(CE) && ExpiryStrike(leg, inst).Fin?
            ==> v == Max(0.0, spot - ExpiryStrike(leg, inst).r)
    ensures leg.legType.OptionLeg? && leg.optionType == Some(PE) && ExpiryStrike(leg, inst).Fin?
            ==> v == Max(0.0, ExpiryStrike(leg, inst).r - spot)
    ensures leg.legType.FutureLeg? ==> v == spot
    ensures leg.legType.OtherLeg? ==> v == 0.0
  {
    match leg.legType
    case OptionLeg =>
      var k := ExpiryStrike(leg, inst);
      if k.NaN? || leg.optionType.None? then 0.0
      else Intrinsic(leg.optionType.value, spot, k.r)
    case FutureLeg => spot
    case OtherLeg(_) => 0.0
  }

  /** `(lots || 1) * (lotSize || 1)` */
  function Multiplier(leg: Leg): (m: real)
    ensures m != 0.0
  {
    OrOne(leg.lots) * OrOne(leg.lotSize)
  }

  /** `(price - entry) * multiplier`: what a bought position makes when the
      price moves from the entry to `price`. */
  function Gain(price: real, entry: real, mult: real): real {
    (price - entry) * mult
  }

  /** P&L of a leg at its own expiry; 0 when the entry price is unreadable. */
  function PnLAtExpiry(leg: Leg, spot: real, inst: Option<Instrument>): (p: real)
    ensures ParseFloat(leg.price).NaN? || leg.legType.OtherLeg? ==> p == 0.0
  {
    var entry := ParseFloat(leg.price);
    if entry.NaN? then 0.0
    else
      var mult := Multiplier(leg);
      match leg.legType
      case OptionLeg => Signed(Gain(ValueAtExpiry(leg, spot, inst), entry.r, mult), leg.buySell)
      case FutureLeg => Signed(Gain(spot, entry.r, mult), leg.buySell)
      case OtherLeg(_) => 0.0
  }

  /** With a readable entry price the expiry P&L is (value at expiry − entry)
      × lots × lot size × direction, the value of a future being the spot. */
  lemma PnLAtExpiryFormula(leg: Leg, spot: real, inst: Option<Instrument>)
    requires ParseFloat(leg.price).Fin? && !leg.legType.OtherLeg?
    ensures PnLAtExpiry(leg, spot, inst)
            == (ValueAtExpiry(leg, spot, inst) - ParseFloat(leg.price).r) * Multiplier(leg) * Direction(leg.buySell)
  {
    var g := Gain(ValueAtExpiry(leg, spot, inst), ParseFloat(leg.price).r, Multiplier(leg));
    assert PnLAtExpiry(leg, spot, inst) == Signed(g, leg.buySell);
    SignedIsProduct(g, leg.buySell);
  }

  /** Calls and puts of the same strike differ at expiry by spot minus strike. */
  lemma PutCallParityAtExpiry(call: Leg, put: Leg, spot: real, inst: Option<Instrument>)
    requires call.legType.OptionLeg? && put.legType.OptionLeg?
    requires call.optionType == Some(CE) && put.optionType == Some(PE)
    requires call.strike == put.strike && ExpiryStrike(call, inst).Fin?
    ensures ValueAtExpiry(call, spot, inst) - ValueAtExpiry(put, spot, inst)
            == spot - ExpiryStrike(call, inst).r
  {
  }

  /** Swapping Buy and Sell negates the expiry P&L. */
  lemma FlipNegatesPnLAtExpiry(leg: Leg, spot: real, inst: Option<Instrument>)
    ensures PnLAtExpiry(FlipLeg(leg), spot, inst) == -PnLAtExpiry(leg, spot, inst)
  {
    FlipKeepsExpiryInputs(leg, spot, inst);
    OppositeSidesCancel(leg, FlipLeg(leg), spot, inst);
  }

  /** Two legs that differ only in side have opposite expiry P&Ls. */
  lemma OppositeSidesCancel(leg: Leg, other: Leg, spot: real, inst: Option<Instrument>)
    requires other.legType == leg.legType && other.price == leg.price
    requires other.buySell == Flip(leg.buySell)
    requires ValueAtExpiry(other, spot, inst) == ValueAtExpiry(leg, spot, inst)
    requires Multiplier(other) == Multiplier(leg)
    ensures PnLAtExpiry(other, spot, inst) == -PnLAtExpiry(leg, spot, inst)
  {
  }

  /** Everything the expiry P&L reads except the side is unchanged by a flip. */
  lemma FlipKeepsExpiryInputs(leg: Leg, spot: real, inst: Option<Instrument>)
    ensures FlipLeg(leg).legType == leg.legType && FlipLeg(leg).price == leg.price
    ensures FlipLeg(leg).buySell == Flip(leg.buySell)
    ensures ValueAtExpiry(FlipLeg(leg), spot, inst) == ValueAtExpiry(leg, spot, inst)
    ensures Multiplier(FlipLeg(leg)) == Multiplier(leg)
  {
    var f := FlipLeg(leg);
    assert f.strike == leg.strike && f.optionType == leg.optionType;
    assert f.lots == leg.lots && f.lotSize == leg.lotSize;
  }

  /** A bought option loses at most what was paid for it. */
  lemma LongOptionLossBounded(leg: Leg, spot: real, inst: Option<Instrument>)
    requires leg.legType.OptionLeg? && leg.buySell.Buy? && Multiplier(leg) > 0.0
    requires ParseFloat(leg.price).Fin?
    ensures PnLAtExpiry(leg, spot, inst) >= -ParseFloat(leg.price).r * Multiplier(leg)
  {
    var v := ValueAtExpiry(leg, spot, inst);
    var e := ParseFloat(leg.price).r;
    var m := Multiplier(leg);
    assert (v - e) * m >= -e * m by {
      assert v * m >= 0.0;
    }
  }

  /** A written option gains at most the premium received. */
  lemma ShortOptionGainBounded(leg: Leg, spot: real, inst: Option<Instrument>)
    requires leg.legType.OptionLeg? && leg.buySell.Sell? && Multiplier(leg) > 0.0
    requires ParseFloat(leg.price).Fin?
    ensures PnLAtExpiry(leg, spot, inst) <= ParseFloat(leg.price).r * Multiplier(leg)
  {
    var v := ValueAtExpiry(leg, spot, inst);
    var e := ParseFloat(leg.price).r;
    var m := Multiplier(leg);
    assert (v - e) * m * -1.0 <= e * m by {
      assert v * m >= 0.0;
    }
  }

  /** A bought call never loses value as the spot rises. */
  lemma LongCallMonotone(leg: Leg, s1: real, s2: real, inst: Option<Instrument>)
    requires leg.legType.OptionLeg? && leg.optionType == Some(CE) && leg.buySell.Buy?
    requires Multiplier(leg) > 0.0 && s1 <= s2
    ensures PnLAtExpiry(leg, s1, inst) <= PnLAtExpiry(leg, s2, inst)
  {
    var e := ParseFloat(leg.price);
    if e.Fin? {
      var m := Multiplier(leg);
      var v1 := ValueAtExpiry(leg, s1, inst);
      var v2 := ValueAtExpiry(leg, s2, inst);
      assert v1 <= v2;
      MulMonotone(v1 - e.r, v2 - e.r, m);
      assert Direction(leg.buySell) == 1.0;
    }
  }

  // ---------------------------------------------------------------------------
  // Scenario-date valuation
  // ---------------------------------------------------------------------------

  const Tiny: real := 0.000000001

  /** Option details are usable only when expiry, strike and option type are
      present and the instrument is tagged as an option. */
  predicate OptionDetailsComplete(i: Instrument) {
    i.expiry != "" && !i.strike.Undef? && i.optionType.Some? && i.legTypeDb == DbOption
  }

  /** The expiry date of a future: `expiryDate`, else `expiry`. */
  function FutureExpiry(env: Env, i: Instrument): Date
    requires i.expiryDate != "" || i.expiry != ""
  {
    env.dateOf(if i.expiryDate != "" then i.expiryDate else i.expiry)
  }

  /** Theoretical per-unit price of a leg on the scenario date `target` at
      spot `spot`. It falls back to the entry price when the instrument is
      unknown or its option details are incomplete, to intrinsic value when
      no time or volatility is left, and to the spot for an expired future. */
  function TheoreticalPrice(env: Env, rate: real, leg: Leg, spot: real, target: Date,
                            scenarioIV: string -> Num, lookup: Lookup): (p: Num)
    ensures lookup(leg.token).None? ==> p == ParseFloat(leg.price)
    ensures lookup(leg.token).Some? && leg.legType.OptionLeg? && !OptionDetailsComplete(lookup(leg.token).value)
            ==> p == ParseFloat(leg.price)
    ensures leg.legType.OtherLeg? ==> p == ParseFloat(leg.price)
    ensures lookup(leg.token).Some? && leg.legType.OptionLeg? && OptionDetailsComplete(lookup(leg.token).value)
            && env.timeToExpiry(env.dateOf(lookup(leg.token).value.expiry), target) <= Tiny
            ==> p == Fin(ValueAtExpiry(leg, spot, lookup(leg.token)))
    ensures lookup(leg.token).Some? && leg.legType.FutureLeg?
            && (lookup(leg.token).value.expiryDate == "" && lookup(leg.token).value.expiry == "")
            ==> p == Fin(spot)
    ensures lookup(leg.token).Some? && leg.legType.FutureLeg?
            && (lookup(leg.token).value.expiryDate != "" || lookup(leg.token).value.expiry != "")
            && target >= FutureExpiry(env, lookup(leg.token).value)
            ==> p == Fin(spot)
    ensures lookup(leg.token).Some? && leg.legType.FutureLeg?
            && (lookup(leg.token).value.expiryDate != "" || lookup(leg.token).value.expiry != "")
            && target < FutureExpiry(env, lookup(leg.token).value)
            ==> var t := env.timeToExpiry(FutureExpiry(env, lookup(leg.token).value), target);
                p == if t <= Tiny then Fin(spot) else Fin(Forward(env, spot, rate, t))
    ensures lookup(leg.token).Some? && leg.legType.OptionLeg? && OptionDetailsComplete(lookup(leg.token).value)
            ==> var inst := lookup(leg.token).value;
                var t := env.timeToExpiry(env.dateOf(inst.expiry), target);
                var iv := scenarioIV(leg.token);
                t > Tiny ==>
                  p == if iv.Fin? && iv.r <= Tiny then Fin(ValueAtExpiry(leg, spot, Some(inst)))
                       else env.black76Price(Forward(env, spot, rate, t), NumberOf(inst.strike), t, rate, iv, inst.optionType.value)
  {
    match lookup(leg.token)
    case None => ParseFloat(leg.price)
    case Some(inst) =>
      match leg.legType
      case OptionLeg =>
        if !OptionDetailsComplete(inst) then ParseFloat(leg.price)
        else
          var iv := scenarioIV(leg.token);
          var t := env.timeToExpiry(env.dateOf(inst.expiry), target);
          if t <= Tiny then Fin(ValueAtExpiry(leg, spot, Some(inst)))
          else if iv.Fin? && iv.r <= Tiny then Fin(ValueAtExpiry(leg, spot, Some(inst)))
          else
            env.black76Price(Forward(env, spot, rate, t), NumberOf(inst.strike), t, rate, iv, inst.optionType.value)
      case FutureLeg =>
        if inst.expiryDate == "" && inst.expiry == "" then Fin(spot)
        else
          var expiry := FutureExpiry(env, inst);
          if target >= expiry then Fin(spot)
          else
            var t := env.timeToExpiry(expiry, target);
            if t <= Tiny then Fin(spot) else Fin(Forward(env, spot, rate, t))
      case OtherLeg(_) => ParseFloat(leg.price)
  }

  /** P&L of a leg on the scenario date; 0 when either price is unreadable. */
  function PnLAtTarget(env: Env, rate: real, leg: Leg, spot: real, target: Date,
                       scenarioIV: string -> Num, lookup: Lookup): (p: real)
    ensures TheoreticalPrice(env, rate, leg, spot, target, scenarioIV, lookup).NaN? || ParseFloat(leg.price).NaN?
            ==> p == 0.0
  {
    var theo := TheoreticalPrice(env, rate, leg, spot, target, scenarioIV, lookup);
    var entry := ParseFloat(leg.price);
    if theo.NaN? || entry.NaN? then 0.0
    else Signed(Gain(theo.r, entry.r, Multiplier(leg)), leg.buySell)
  }

  /** With readable theoretical and entry prices the scenario-date P&L is
      (theoretical − entry) × lots × lot size × direction. */
  lemma PnLAtTargetFormula(env: Env, rate: real, leg: Leg, spot: real, target: Date,
                           scenarioIV: string -> Num, lookup: Lookup)
    requires TheoreticalPrice(env, rate, leg, spot, target, scenarioIV, lookup).Fin? && ParseFloat(leg.price).Fin?
    ensures PnLAtTarget(env, rate, leg, spot, target, scenarioIV, lookup)
            == (TheoreticalPrice(env, rate, leg, spot, target, scenarioIV, lookup).r - ParseFloat(leg.price).r)
               * Multiplier(leg) * Direction(leg.buySell)
  {
    var g := Gain(TheoreticalPrice(env, rate, leg, spot, target, scenarioIV, lookup).r, ParseFloat(leg.price).r, Multiplier(leg));
    assert PnLAtTarget(env, rate, leg, spot, target, scenarioIV, lookup) == Signed(g, leg.buySell);
    SignedIsProduct(g, leg.buySell);
  }

  /** An unknown instrument, or incomplete option details, leave the leg at its
      entry price: its scenario-date P&L is 0. */
  lemma UnpricedLegHasNoPnL(env: Env, rate: real, leg: Leg, spot: real, target: Date,
                            scenarioIV: string -> Num, lookup: Lookup)
    requires lookup(leg.token).None? || leg.legType.OtherLeg?
             || (leg.legType.OptionLeg? && !OptionDetailsComplete(lookup(leg.token).value))
    ensures PnLAtTarget(env, rate, leg, spot, target, scenarioIV, lookup) == 0.0
  {
    var theo := TheoreticalPrice(env, rate, leg, spot, target, scenarioIV, lookup);
    assert theo == ParseFloat(leg.price);
    if theo.Fin? {
      assert Gain(theo.r, theo.r, Multiplier(leg)) == 0.0;
    }
  }

  /** Once an option has expired on the scenario date, its scenario-date P&L
      and its expiry P&L coincide. */
  lemma ExpiredOptionMatchesExpiryPnL(env: Env, rate: real, leg: Leg, spot: real, target: Date,
                                      scenarioIV: string -> Num, lookup: Lookup)
    requires leg.legType.OptionLeg? && lookup(leg.token).Some?
    requires OptionDetailsComplete(lookup(leg.token).value)
    requires env.timeToExpiry(env.dateOf(lookup(leg.token).value.expiry), target) <= Tiny
    ensures PnLAtTarget(env, rate, leg, spot, target, scenarioIV, lookup)
            == PnLAtExpiry(leg, spot, lookup(leg.token))
  {
  }

  /** Once a future has expired on the scenario date, its scenario-date P&L
      and its expiry P&L coincide. */
  lemma ExpiredFutureMatchesExpiryPnL(env: Env, rate: real, leg: Leg, spot: real, target: Date,
                                      scenarioIV: string -> Num, lookup: Lookup)
    requires leg.legType.FutureLeg? && lookup(leg.token).Some?
    requires lookup(leg.token).value.expiryDate != "" || lookup(leg.token).value.expiry != ""
    requires target >= FutureExpiry(env, lookup(leg.token).value)
    ensures PnLAtTarget(env, rate, leg, spot, target, scenarioIV, lookup)
            == PnLAtExpiry(leg, spot, lookup(leg.token))
  {
  }

  /** Swapping Buy and Sell negates the scenario-date P&L. */
  lemma FlipNegatesPnLAtTarget(env: Env, rate: real, leg: Leg, spot: real, target: Date,
                               scenarioIV: string -> Num, lookup: Lookup)
    ensures PnLAtTarget(env, rate, FlipLeg(leg), spot, target, scenarioIV, lookup)
            == -PnLAtTarget(env, rate, leg, spot, target, scenarioIV, lookup)
  {
    var f := FlipLeg(leg);
    SideKeepsTheoreticalPrice(env, rate, leg, f, spot, target, scenarioIV, lookup);
    assert f.lots == leg.lots && f.lotSize == leg.lotSize;
  }

  /** The theoretical price does not read the side. */
  lemma SideKeepsTheoreticalPrice(env: Env, rate: real, leg: Leg, other: Leg, spot: real, target: Date,
                                  scenarioIV: string -> Num, lookup: Lookup)
    requires other == leg.(buySell := other.buySell)
    ensures TheoreticalPrice(env, rate, other, spot, target, scenarioIV, lookup)
            == TheoreticalPrice(env, rate, leg, spot, target, scenarioIV, lookup)
  {
    assert other.token == leg.token && other.legType == leg.legType && other.price == leg.price;
    assert forall inst :: ValueAtExpiry(other, spot, inst) == ValueAtExpiry(leg, spot, inst);
  }
}

=== FILE: ReadyMade.dfy ===
/** The ready-made strategies panel: building the legs of a strategy template
    from the live chain, loading a saved strategy into the builder, and the
    profit-and-loss card shown for an open position. Both copies of the
    application carry the panel; they differ only in how the expiry after the
    selected one is found. */
module ReadyMade {
  import opened Common
  import opened Market
  import opened StrategyUtils
  import opened Builder

  // ---------------------------------------------------------------------------
  // Expiry display
  // ---------------------------------------------------------------------------

  /** `formatDisplayExpiry`: "DDMMMYY" and "DDMMMYYYY" become "DD MMM YYYY"
      with the month upper-cased and a two-digit year read as 20YY; every
      other string is shown as it is. */
  function FormatDisplayExpiry(s: string): (r: string)
    ensures |s| != 7 && |s| != 9 ==> r == s
    ensures |s| == 7 || |s| == 9 ==> |r| == 11 && r[2] == ' ' && r[6] == ' '
    ensures |s| == 7 || |s| == 9 ==> r[..2] == s[..2] && r[3..6] == Upper(s[2..5])
    ensures |s| == 7 ==> r[7..] == "20" + s[5..]
    ensures |s| == 9 ==> r[7..] == s[5..]
  {
    if |s| < 7 then s
    else
      var day := s[..2];
      var month := Upper(s[2..5]);
      var rest := s[5..];
      var year := if |rest| == 2 then "20" + rest else rest;
      if |year| == 4 then day + " " + month + " " + year else s
  }

  /** A displayed expiry is displayed unchanged. */
  lemma FormatDisplayExpiryIdempotent(s: string)
    ensures FormatDisplayExpiry(FormatDisplayExpiry(s)) == FormatDisplayExpiry(s)
  {
  }

  // ---------------------------------------------------------------------------
  // Templates
  // ---------------------------------------------------------------------------

  datatype ExpirySelector = SelectedExpiry | NextAvailable

  /** `SELECTED_FROM_DROPDOWN`, `NEAREST`, `NEXT`, or anything else. */
  datatype ContractSelector = FromDropdown | Nearest | Next | AnyContract

  /** One leg of a strategy template; `strikeOffset` counts strike steps
      from the at-the-money strike and may be missing. */
  datatype LegDef = LegDef(
    legType: LegKind,
    buySell: Side,
    optionType: Option<OptionKind>,
    strikeOffset: Option<int>,
    lotsRatio: Option<real>,
    expirySelector: ExpirySelector,
    contractSelector: ContractSelector
  )

  datatype Template = Template(requiresDifferentExpiries: bool, legs: seq<LegDef>)

  /** `lotsRatio || 1` */
  function LotsOf(d: LegDef): (n: real)
    ensures n != 0.0
  {
    match d.lotsRatio
    case Some(x) => if x != 0.0 then x else 1.0
    case None => 1.0
  }

  /** The lot size assumed when an instrument carries none. */
  function DefaultLotSize(underlying: string): (n: int)
    ensures n == 15 <==> Contains(Upper(underlying), "BANKNIFTY")
    ensures n == 40 <==> !Contains(Upper(underlying), "BANKNIFTY") && Contains(Upper(underlying), "FINNIFTY")
    ensures n == 15 || n == 40 || n == 50
  {
    if Contains(Upper(underlying), "BANKNIFTY") then 15
    else if Contains(Upper(underlying), "FINNIFTY") then 40
    else 50
  }

  /** The 15-lot default goes with the 100-point strike ladder: both are
      the BANKNIFTY conventions. */
  lemma DefaultLotSizeFollowsStrikeStep(underlying: string)
    ensures DefaultLotSize(underlying) == 15 <==> StrikeStep(underlying) == 100
    ensures DefaultLotSize(underlying) != 15 ==> StrikeStep(underlying) == 50
  {
    if underlying == "" {
      assert !StartsWith(Upper(underlying), "BANKNIFTY");
    }
  }

  // ---------------------------------------------------------------------------
  // The expiry after the selected one
  // ---------------------------------------------------------------------------

  /** The expiries of the listed options, one per option. */
  function Expiries(options: seq<Instrument>): (r: seq<string>)
    ensures |r| == |options|
    ensures forall i :: 0 <= i < |options| ==> r[i] == options[i].expiry
  {
    seq(|options|, i requires 0 <= i < |options| => options[i].expiry)
  }

  /** An element repeated in a sequence is counted at least twice. */
  lemma RepeatCounted<T>(s: seq<T>, i: int, j: int)
    requires 0 <= i < j < |s| && s[i] == s[j]
    ensures multiset(s)[s[i]] >= 2
  {
    assert s == s[..i] + [s[i]] + s[i + 1..j] + [s[j]] + s[j + 1..];
  }

  lemma {:induction false} DistinctCountedOnce<T>(s: seq<T>, x: T)
    requires NoDuplicates(s)
    ensures multiset(s)[x] <= 1
  {
    if |s| > 0 {
      assert s == [s[0]] + s[1..];
      DistinctCountedOnce(s[1..], x);
      if s[0] == x {
        assert x !in s[1..];
      }
    }
  }

  /** Reordering a duplicate-free sequence leaves it duplicate-free. */
  lemma PermutationKeepsDistinct<T>(a: seq<T>, b: seq<T>)
    requires multiset(a) == multiset(b) && NoDuplicates(a)
    ensures NoDuplicates(b)
  {
    forall i, j | 0 <= i < j < |b|
      ensures b[i] != b[j]
    {
      if b[i] == b[j] {
        RepeatCounted(b, i, j);
        DistinctCountedOnce(a, b[i]);
        assert false;
      }
    }
  }

  /** The NEXT_AVAILABLE search list: the option expiries sorted by date,
      made distinct first in the Tradved copy and left with one entry per
      option in the Frontend copy. */
  function ExpiryOrder(variant: Variant, expiries: seq<string>, key: string -> real): (r: seq<string>)
    ensures SortedByKey(r, key)
    ensures forall e :: e in r <==> e in expiries
    ensures variant == Tradved ==> NoDuplicates(r)
  {
    var listed := if variant == Tradved then Dedup(expiries) else expiries;
    var r := SortByKey(listed, key);
    assert forall e :: e in r <==> e in multiset(listed);
    if variant == Tradved then PermutationKeepsDistinct(listed, r); r else r
  }

  /** The element after the first occurrence of the selected expiry in the
      search list, or the selected expiry itself when it is not listed or
      comes last. */
  function NextExpiry(variant: Variant, expiries: seq<string>, key: string -> real, selected: string): (r: string)
    ensures r == selected || (r in expiries && key(selected) <= key(r))
    ensures selected !in expiries ==> r == selected
    ensures r != selected ==> forall e :: e in expiries && key(selected) < key(e) ==> key(r) <= key(e)
  {
    var order := ExpiryOrder(variant, expiries, key);
    var k := IndexOf(order, selected);
    if k != -1 && k + 1 < |order| then
      NextInOrderIsLeast(order, key, k);
      order[k + 1]
    else selected
  }

  /** With the distinct list, a listed expiry that has a later date than
      another is always followed: the result is a different, listed expiry
      no earlier than the selected one, and no listed expiry dated after the
      selected one is dated before it. */
  lemma NextExpiryAdvances(expiries: seq<string>, key: string -> real, selected: string, later: string)
    requires selected in expiries && later in expiries && key(later) > key(selected)
    ensures NextExpiry(Tradved, expiries, key, selected) != selected
    ensures NextExpiry(Tradved, expiries, key, selected) in expiries
    ensures forall e :: e in expiries && key(selected) < key(e) ==>
      key(NextExpiry(Tradved, expiries, key, selected)) <= key(e)
  {
    var order := ExpiryOrder(Tradved, expiries, key);
    assert selected in order && later in order;
    var k := IndexOf(order, selected);
    assert 0 <= k && order[k] == selected;
    var j :| 0 <= j < |order| && order[j] == later;
    SortedKeyOrder(order, key, k, j);
    assert NextExpiry(Tradved, expiries, key, selected) == order[k + 1];
    assert order[k + 1] != order[k];
    assert order[k + 1] in order;
    NextInOrderIsLeast(order, key, k);
  }

  /** In a list sorted by key, the element after position `k` is dated no
      later than any element dated after the one at `k`. */
  lemma NextInOrderIsLeast(order: seq<string>, key: string -> real, k: int)
    requires SortedByKey(order, key) && 0 <= k && k + 1 < |order|
    ensures forall e :: e in order && key(order[k]) < key(e) ==> key(order[k + 1]) <= key(e)
  {
    forall e | e in order && key(order[k]) < key(e)
      ensures key(order[k + 1]) <= key(e)
    {
      var i :| 0 <= i < |order| && order[i] == e;
      SortedKeyOrder(order, key, k, i);
    }
  }

  /** In a list sorted by key, an element with a greater key comes later. */
  lemma SortedKeyOrder<T>(s: seq<T>, key: T -> real, i: int, j: int)
    requires SortedByKey(s, key) && 0 <= i < |s| && 0 <= j < |s|
    requires key(s[j]) > key(s[i])
    ensures i < j
  {
  }

  /** Two options on the selected expiry `a` and one on a later expiry `b`
      (24JUL2025 twice and 31JUL2025, say): the Frontend copy finds the
      selected expiry again, the Tradved copy the later one. */
  lemma FrontendNextExpiryStalls(a: string, b: string, key: string -> real)
    requires key(a) < key(b)
    ensures NextExpiry(Frontend, [a, a, b], key, a) == a
    ensures NextExpiry(Tradved, [a, a, b], key, a) == b
  {
    var ex := [a, a, b];
    AlreadySorted(a, b, key);
    assert ExpiryOrder(Frontend, ex, key) == ex;
    assert IndexOf(ex, a) == 0;
    NextExpiryAdvances(ex, key, a, b);
  }

  /** A list already in key order is left as it is by the sort. */
  lemma AlreadySorted(a: string, b: string, key: string -> real)
    requires key(a) < key(b)
    ensures SortByKey([a, a, b], key) == [a, a, b]
  {
    var ex := [a, a, b];
    assert ex[..2] == [a, a];
    assert ex[..2][..1] == [a];
    assert SortByKey(ex[..2][..1], key) == [a];
    assert SortByKey(ex[..2], key) == [a, a];
  }

  // ---------------------------------------------------------------------------
  // Building the legs of a template
  // ---------------------------------------------------------------------------

  /** Why building a template stops (each is an alert in the panel). */
  datatype Failure =
    | MissingExpiryOrSpot
    | NoOptionsForExpiry
    | NoStrikes
    | NoTargetStrike
    | OptionNotListed
    | NoFutures
    | NoContractSelected
    | FutureNotFound

  datatype Pick<T> = Fail(why: Failure) | Ok(value: T)

  /** The future a template leg asks for. */
  function ChooseFuture(futures: seq<Instrument>, selector: ContractSelector, token: string): (r: Pick<Instrument>)
    ensures r.Ok? ==> r.value in futures
    ensures r.Fail? <==>
      |futures| == 0 || (selector == FromDropdown && (token == "" || forall f :: f in futures ==> f.token != token))
    ensures r.Fail? && |futures| > 0 ==> r.why == (if token == "" then NoContractSelected else FutureNotFound)
    ensures r.Ok? && selector == FromDropdown ==> r.value.token == token
    ensures r.Ok? && selector == Nearest ==> r.value == futures[0]
    ensures r.Ok? && selector == Next ==> r.value == futures[if |futures| > 1 then 1 else 0]
    ensures r.Ok? && selector == AnyContract ==>
      r.value.token == token || (r.value == futures[0] && (token == "" || forall f :: f in futures ==> f.token != token))
  {
    if |futures| == 0 then Fail(NoFutures)
    else
      match selector
      case FromDropdown =>
        if token == "" then Fail(NoContractSelected)
        else
          (match FindFuture(futures, token)
           case Some(f) => Ok(f)
           case None => Fail(FutureNotFound))
      case Nearest => Ok(futures[0])
      case Next => Ok(if |futures| > 1 then futures[1] else futures[0])
      case AnyContract =>
        match FindFuture(futures, token)
        case Some(f) => Ok(f)
        case None => Ok(futures[0])
  }

  /** The expiry, the strike to look for, the fresh leg ids and the default
      volatility the panel works with besides the builder's context. A NaN
      spot in the context stands for "no spot". */
  datatype Selection = Selection(
    expiry: string,
    futureToken: string,
    dateKey: string -> real,
    freshId: nat -> string,
    defaultVolatility: real,
    numberText: real -> string
  )

  /** The option type as it is written into a symbol; nothing for none. */
  function KindText(kind: Option<OptionKind>): string {
    match kind
    case Some(CE) => "CE"
    case Some(PE) => "PE"
    case None => ""
  }

  /** The template loader's fallback symbol `${underlying} ${expiry}
      ${strike}${type}`: underlying, expiry and strike separated by single
      spaces (the builder's fallback runs them together). */
  function TemplateSymbol(underlying: string, expiry: string, strikeText: string, kind: Option<OptionKind>): (s: string)
    ensures |s| == |underlying| + |expiry| + |strikeText| + |KindText(kind)| + 2
    ensures s[..|underlying|] == underlying && s[|underlying|] == ' '
    ensures s[|underlying| + 1 + |expiry|] == ' '
  {
    underlying + " " + expiry + " " + strikeText + KindText(kind)
  }

  /** The expiry a template leg uses. */
  function LegExpiry(ctx: Context, sel: Selection, variant: Variant, tmpl: Template, d: LegDef): string {
    if tmpl.requiresDifferentExpiries && d.expirySelector == NextAvailable
    then NextExpiry(variant, Expiries(ctx.options), sel.dateKey, sel.expiry)
    else sel.expiry
  }

  /** The leg for a listed option at the chosen strike. */
  function OptionLegOf(ctx: Context, sel: Selection, d: LegDef, id: string, o: Instrument, expiry: string, strike: real): Leg {
    Leg(
      id := id,
      selected := true,
      token := o.token,
      legType := OptionLeg,
      buySell := d.buySell,
      optionType := d.optionType,
      strike := JNum(Fin(strike)),
      expiry := expiry,
      price := JNum(Fin(ParseOr(o.lastPrice, 0.0))),
      lots := JNum(Fin(LotsOf(d))),
      lotSize := OptionLotSize(o, JNum(Fin(DefaultLotSize(ctx.underlying) as real))),
      iv := JNum(Fin(ParseOr(o.iv, sel.defaultVolatility * 100.0))),
      symbol := SymbolOr(o, TemplateSymbol(ctx.underlying, expiry, sel.numberText(strike), d.optionType)),
      status := NewLeg)
  }

  /** The leg for a chosen future; its expiry field holds the future's token. */
  function FutureLegOf(ctx: Context, d: LegDef, id: string, f: Instrument): Leg {
    Leg(
      id := id,
      selected := true,
      token := f.token,
      legType := FutureLeg,
      buySell := d.buySell,
      optionType := None,
      strike := Undef,
      expiry := f.token,
      price := JNum(Fin(ParseOr(f.lastPrice, 0.0))),
      lots := JNum(Fin(LotsOf(d))),
      lotSize := if Truthy(f.lotSize) then f.lotSize else JNum(Fin(DefaultLotSize(ctx.underlying) as real)),
      iv := Undef,
      symbol := SymbolOr(f, ctx.underlying + " Future"),
      status := NewLeg)
  }

  datatype Step = Skipped | Failed(why: Failure) | Made(leg: Leg)

  /** The option leg at the strike `offset` steps from the one nearest the
      spot among `strikes`: the first listed option of the template's type
      there, or "not listed". */
  function PickOption(ctx: Context, sel: Selection, d: LegDef, expiry: string, strikes: seq<real>, offset: int, id: string): (r: Step)
    requires ctx.spot.Fin? && |strikes| > 0
    ensures r.Made? || r == Failed(OptionNotListed)
    ensures r.Made? ==>
      && r.leg.id == id && r.leg.status == NewLeg && r.leg.selected
      && r.leg.legType == OptionLeg && r.leg.buySell == d.buySell
      && r.leg.lots == JNum(Fin(LotsOf(d)))
      && d.optionType.Some? && r.leg.optionType == d.optionType
      && r.leg.expiry == expiry
      && r.leg.strike.JNum? && r.leg.strike.n.Fin?
      && Some(r.leg.strike.n.r) == StrikeByOffset(Some(ctx.spot.r), strikes, offset)
    ensures r.Made? ==> Bound(ctx, r.leg)
    ensures r.Made? ==>
      exists o :: o in ctx.options && o.token == r.leg.token
        && r.leg.symbol == SymbolOr(o, TemplateSymbol(ctx.underlying, expiry, sel.numberText(r.leg.strike.n.r), r.leg.optionType))
        && r.leg.lotSize == OptionLotSize(o, JNum(Fin(DefaultLotSize(ctx.underlying) as real)))
        && r.leg.price == JNum(Fin(ParseOr(o.lastPrice, 0.0)))
        && r.leg.iv == JNum(Fin(ParseOr(o.iv, sel.defaultVolatility * 100.0)))
    ensures d.optionType.Some? ==>
      (r.Made? <==> Lists(ctx.options, expiry, JNum(Fin(StrikeByOffset(Some(ctx.spot.r), strikes, offset).value)), d.optionType.value))
  {
    var target := StrikeByOffset(Some(ctx.spot.r), strikes, offset).value;
    var found := if d.optionType.Some? then FirstMatch(ctx.options, expiry, JNum(Fin(target)), d.optionType.value) else None;
    if found.None? then Failed(OptionNotListed)
    else
      var o := found.value;
      var leg := OptionLegOf(ctx, sel, d, id, o, expiry, target);
      assert o in ctx.options && o.token == leg.token;
      assert MatchesContract(o, leg.expiry, leg.strike) && o.optionType == leg.optionType;
      Made(leg)
  }

  /** An option leg on `expiry`, once the selected expiry and the spot are
      known: it needs listed options on that expiry, readable strikes and a
      strike offset. */
  function BuildOptionLeg(ctx: Context, sel: Selection, d: LegDef, expiry: string, id: string): (r: Step)
    requires ctx.spot.Fin?
    ensures !r.Skipped?
    ensures expiry !in Expiries(ctx.options) ==> r == Failed(NoOptionsForExpiry)
    ensures var strikes := SortUniqueReals(ReadableStrikes(ctx.options, expiry));
      && (expiry in Expiries(ctx.options) && |strikes| == 0 ==> r == Failed(NoStrikes))
      && (expiry in Expiries(ctx.options) && |strikes| > 0 && d.strikeOffset.None? ==> r == Failed(NoTargetStrike))
      && (expiry in Expiries(ctx.options) && |strikes| > 0 && d.strikeOffset.Some? ==>
            r == PickOption(ctx, sel, d, expiry, strikes, d.strikeOffset.value, id))
    ensures r.Made? ==> d.strikeOffset.Some? && |SortUniqueReals(ReadableStrikes(ctx.options, expiry))| > 0
  {
    if expiry !in Expiries(ctx.options) then Failed(NoOptionsForExpiry)
    else
      var strikes := SortUniqueReals(ReadableStrikes(ctx.options, expiry));
      if |strikes| == 0 then Failed(NoStrikes)
      else if d.strikeOffset.None? then Failed(NoTargetStrike)
      else PickOption(ctx, sel, d, expiry, strikes, d.strikeOffset.value, id)
  }

  /** A future leg on the contract the template's selector chooses. */
  function BuildFutureLeg(ctx: Context, sel: Selection, d: LegDef, id: string): (r: Step)
    ensures !r.Skipped?
    ensures r.Failed? <==> ChooseFuture(ctx.futures, d.contractSelector, sel.futureToken).Fail?
    ensures r.Made? ==>
      && r.leg.id == id && r.leg.status == NewLeg && r.leg.selected
      && r.leg.legType == FutureLeg && r.leg.buySell == d.buySell
      && r.leg.lots == JNum(Fin(LotsOf(d)))
    ensures r.Made? ==>
      var f := ChooseFuture(ctx.futures, d.contractSelector, sel.futureToken);
      && f.Ok? && f.value in ctx.futures
      && r.leg.token == f.value.token && r.leg.expiry == f.value.token
      && r.leg.lotSize == (if Truthy(f.value.lotSize) then f.value.lotSize else JNum(Fin(DefaultLotSize(ctx.underlying) as real)))
      && r.leg.price == JNum(Fin(ParseOr(f.value.lastPrice, 0.0)))
  {
    match ChooseFuture(ctx.futures, d.contractSelector, sel.futureToken)
    case Fail(why) => Failed(why)
    case Ok(f) => Made(FutureLegOf(ctx, d, id, f))
  }

  /** The outcome of template leg `k`: legs that are neither options nor
      futures are skipped. */
  function BuildLeg(ctx: Context, sel: Selection, variant: Variant, tmpl: Template, k: nat): (r: Step)
    requires k < |tmpl.legs|
    ensures r.Skipped? <==> tmpl.legs[k].legType.OtherLeg?
    ensures r.Made? ==> r.leg.id == sel.freshId(k) && r.leg.status == NewLeg && r.leg.selected
    ensures r.Made? ==> r.leg.legType == tmpl.legs[k].legType && r.leg.buySell == tmpl.legs[k].buySell
    ensures r.Made? ==> r.leg.lots.JNum? && r.leg.lots.n.Fin? && r.leg.lots.n.r != 0.0
    ensures r.Made? ==> r.leg.lots == JNum(Fin(LotsOf(tmpl.legs[k])))
    ensures tmpl.legs[k].legType == OptionLeg && (sel.expiry == "" || ctx.spot.NaN?) ==> r == Failed(MissingExpiryOrSpot)
    ensures tmpl.legs[k].legType == OptionLeg && sel.expiry != "" && ctx.spot.Fin? ==>
      r == BuildOptionLeg(ctx, sel, tmpl.legs[k], LegExpiry(ctx, sel, variant, tmpl, tmpl.legs[k]), sel.freshId(k))
    ensures r.Made? && r.leg.legType == OptionLeg ==> Bound(ctx, r.leg)
    ensures r.Made? && r.leg.legType == OptionLeg ==>
      r.leg.expiry == sel.expiry ||
      (r.leg.expiry in Expiries(ctx.options) && sel.dateKey(sel.expiry) <= sel.dateKey(r.leg.expiry))
    ensures tmpl.legs[k].legType == FutureLeg ==> r == BuildFutureLeg(ctx, sel, tmpl.legs[k], sel.freshId(k))
  {
    var d := tmpl.legs[k];
    match d.legType
    case OptionLeg =>
      if sel.expiry == "" || ctx.spot.NaN? then Failed(MissingExpiryOrSpot)
      else BuildOptionLeg(ctx, sel, d, LegExpiry(ctx, sel, variant, tmpl, d), sel.freshId(k))
    case FutureLeg => BuildFutureLeg(ctx, sel, d, sel.freshId(k))
    case OtherLeg(_) => Skipped
  }

  datatype Construction = Aborted(why: Failure) | Built(legs: seq<Leg>)

  /** The outcome of every template leg, in template order. */
  function Steps(ctx: Context, sel: Selection, variant: Variant, tmpl: Template): (r: seq<Step>)
    ensures |r| == |tmpl.legs|
    ensures forall k :: 0 <= k < |tmpl.legs| ==> r[k] == BuildLeg(ctx, sel, variant, tmpl, k)
  {
    seq(|tmpl.legs|, k requires 0 <= k < |tmpl.legs| => BuildLeg(ctx, sel, variant, tmpl, k))
  }

  /** The legs made by steps `from..`, stopping at the first failure. */
  function BuildLegs(steps: seq<Step>, from: nat): (r: Construction)
    requires from <= |steps|
    decreases |steps| - from
    ensures r.Built? ==> |r.legs| <= |steps| - from
  {
    if from == |steps| then Built([])
    else
      match steps[from]
      case Failed(why) => Aborted(why)
      case Skipped => BuildLegs(steps, from + 1)
      case Made(l) =>
        match BuildLegs(steps, from + 1)
        case Aborted(why) => Aborted(why)
        case Built(rest) => Built([l] + rest)
  }

  /** `why` is the failure of the first failing step from `from` on. */
  ghost predicate FirstFailure(steps: seq<Step>, from: nat, why: Failure)
    requires from <= |steps|
  {
    exists k :: from <= k < |steps| && steps[k] == Failed(why)
      && forall j :: from <= j < k ==> !steps[j].Failed?
  }

  /** All or nothing: the legs are built exactly when no step fails, and
      otherwise the failure reported is that of the first failing step. */
  lemma {:induction false} BuildLegsAllOrNothing(steps: seq<Step>, from: nat)
    requires from <= |steps|
    decreases |steps| - from
    ensures BuildLegs(steps, from).Built? <==> forall k :: from <= k < |steps| ==> !steps[k].Failed?
    ensures BuildLegs(steps, from).Aborted? ==> FirstFailure(steps, from, BuildLegs(steps, from).why)
  {
    if from < |steps| {
      BuildLegsAllOrNothing(steps, from + 1);
      var r := BuildLegs(steps, from);
      if steps[from].Failed? {
        assert FirstFailure(steps, from, r.why);
      } else if r.Aborted? {
        var k :| from + 1 <= k < |steps| && steps[k] == Failed(r.why)
          && forall j :: from + 1 <= j < k ==> !steps[j].Failed?;
        assert FirstFailure(steps, from, r.why);
      }
    }
  }

  /** The built legs are exactly the legs the steps made. */
  lemma {:induction false} BuildLegsCollects(steps: seq<Step>, from: nat, l: Leg)
    requires from <= |steps|
    requires BuildLegs(steps, from).Built?
    decreases |steps| - from
    ensures l in BuildLegs(steps, from).legs <==> exists k :: from <= k < |steps| && steps[k] == Made(l)
  {
    if from < |steps| {
      BuildLegsCollects(steps, from + 1, l);
    }
  }

  /** Without skipped steps, every step contributes one leg. */
  lemma {:induction false} BuildLegsKeepsEveryStep(steps: seq<Step>, from: nat)
    requires from <= |steps|
    requires forall k :: from <= k < |steps| ==> !steps[k].Skipped?
    requires BuildLegs(steps, from).Built?
    decreases |steps| - from
    ensures |BuildLegs(steps, from).legs| == |steps| - from
  {
    if from < |steps| {
      BuildLegsKeepsEveryStep(steps, from + 1);
    }
  }

  datatype Outcome = MissingUnderlying | Abort(why: Failure) | NothingBuilt(warned: bool) | LoadLegs(legs: seq<Leg>)

  /** `handleSelectReadyMadeStrategy`: the template's legs are loaded into
      the builder as new legs only when every option and future leg could be
      built; nothing is loaded otherwise. */
  function SelectTemplate(ctx: Context, sel: Selection, variant: Variant, tmpl: Template): (r: Outcome)
    ensures r.MissingUnderlying? <==> ctx.underlying == ""
    ensures r.LoadLegs? ==> 0 < |r.legs| <= |tmpl.legs|
    ensures r.NothingBuilt? ==> r.warned == (|tmpl.legs| > 0)
    ensures r.Abort? ==> FirstFailure(Steps(ctx, sel, variant, tmpl), 0, r.why)
    ensures ctx.underlying != "" ==>
      (r.Abort? <==> exists k :: 0 <= k < |tmpl.legs| && BuildLeg(ctx, sel, variant, tmpl, k).Failed?)
  {
    if ctx.underlying == "" then MissingUnderlying
    else
      var steps := Steps(ctx, sel, variant, tmpl);
      BuildLegsAllOrNothing(steps, 0);
      match BuildLegs(steps, 0)
      case Aborted(why) => Abort(why)
      case Built(legs) => if |legs| > 0 then LoadLegs(legs) else NothingBuilt(|tmpl.legs| > 0)
  }

  /** Every option leg loaded from a template quotes a listed contract with
      the leg's expiry, strike and type. */
  lemma LoadedOptionLegsAreListed(ctx: Context, sel: Selection, variant: Variant, tmpl: Template, l: Leg)
    requires SelectTemplate(ctx, sel, variant, tmpl).LoadLegs?
    requires l in SelectTemplate(ctx, sel, variant, tmpl).legs && l.legType == OptionLeg
    ensures Bound(ctx, l)
  {
    BuildLegsCollects(Steps(ctx, sel, variant, tmpl), 0, l);
    var k :| 0 <= k < |tmpl.legs| && Steps(ctx, sel, variant, tmpl)[k] == Made(l);
    assert BuildLeg(ctx, sel, variant, tmpl, k) == Made(l);
  }

  /** Every leg loaded from a template is a new, selected leg with a
      non-zero number of lots. */
  lemma LoadedLegsAreNew(ctx: Context, sel: Selection, variant: Variant, tmpl: Template, l: Leg)
    requires SelectTemplate(ctx, sel, variant, tmpl).LoadLegs?
    requires l in SelectTemplate(ctx, sel, variant, tmpl).legs
    ensures l.status == NewLeg && l.selected
    ensures l.lots.JNum? && l.lots.n.Fin? && l.lots.n.r != 0.0
  {
    BuildLegsCollects(Steps(ctx, sel, variant, tmpl), 0, l);
    var k :| 0 <= k < |tmpl.legs| && Steps(ctx, sel, variant, tmpl)[k] == Made(l);
    assert BuildLeg(ctx, sel, variant, tmpl, k) == Made(l);
  }

  /** A template with only option legs loads one leg per template leg. */
  lemma OptionTemplateLoadsEveryLeg(ctx: Context, sel: Selection, variant: Variant, tmpl: Template)
    requires forall k :: 0 <= k < |tmpl.legs| ==> tmpl.legs[k].legType == OptionLeg
    requires SelectTemplate(ctx, sel, variant, tmpl).LoadLegs?
    ensures |SelectTemplate(ctx, sel, variant, tmpl).legs| == |tmpl.legs|
  {
    var steps := Steps(ctx, sel, variant, tmpl);
    assert forall k :: 0 <= k < |steps| ==> !steps[k].Skipped?;
    BuildLegsKeepsEveryStep(steps, 0);
  }

  // ---------------------------------------------------------------------------
  // Loading a saved strategy
  // ---------------------------------------------------------------------------

  /** The leg of a saved strategy as the builder receives it: numbers are
      re-read, lots and lot size default to 1, a missing status is a new
      leg, and an option's strike becomes a number. */
  function LoadSavedLeg(leg: Leg, freshId: string, defaultVolatility: real): (r: Leg)
    ensures r.id == (if leg.id != "" then leg.id else freshId)
    ensures r.status == (if leg.status == NoStatus then NewLeg else leg.status)
    ensures r.lots.JNum? && r.lots.n.Fin? && r.lots.n.r != 0.0
    ensures r.lotSize.JNum? && r.lotSize.n.Fin? && r.lotSize.n.r != 0.0
    ensures r.price.JNum? && (leg.price.Undef? ==> r.price.n == Fin(0.0))
    ensures !leg.price.Undef? ==> r.price.n == ParseFloat(leg.price)
    ensures leg.legType == OptionLeg ==> r.strike == JNum(NumberOf(leg.strike)) && r.iv.JNum?
    ensures leg.legType == OptionLeg && leg.iv.Undef? ==> r.iv == JNum(Fin(defaultVolatility * 100.0))
    ensures leg.legType != OptionLeg ==> r.strike == leg.strike && r.iv == leg.iv
    ensures r.token == leg.token && r.legType == leg.legType && r.buySell == leg.buySell
    ensures r.selected == leg.selected && r.expiry == leg.expiry && r.optionType == leg.optionType
    ensures r.symbol == leg.symbol
  {
    var base := leg.(
      price := JNum(if leg.price.Undef? then Fin(0.0) else ParseFloat(leg.price)),
      lotSize := JNum(Fin(OrOne(leg.lotSize))),
      id := if leg.id != "" then leg.id else freshId,
      status := if leg.status == NoStatus then NewLeg else leg.status,
      lots := JNum(Fin(OrOne(leg.lots))));
    if leg.legType == OptionLeg then
      base.(strike := JNum(NumberOf(leg.strike)),
            iv := if leg.iv.Undef? then JNum(Fin(defaultVolatility * 100.0)) else JNum(ParseFloat(leg.iv)))
    else base
  }

  /** Loading a loaded leg again changes nothing. */
  lemma LoadSavedLegIdempotent(leg: Leg, freshId: string, defaultVolatility: real)
    ensures LoadSavedLeg(LoadSavedLeg(leg, freshId, defaultVolatility), freshId, defaultVolatility)
         == LoadSavedLeg(leg, freshId, defaultVolatility)
  {
  }

  /** A saved leg with an id, numeric lots and lot size (and a numeric
      strike, for an option) loads back unchanged. */
  lemma SavedLegLoadsBack(leg: Leg, freshId: string, defaultVolatility: real)
    requires ValidLeg(leg) && leg.id != "" && leg.status != NoStatus
    requires leg.lots.JNum? && leg.lotSize.JNum? && (leg.legType.OptionLeg? ==> leg.strike.JNum?)
    ensures LoadSavedLeg(leg, freshId, defaultVolatility) == leg
  {
  }

  /** `handleLoadSavedItemToBuilder`: none for a strategy without legs. */
  function LoadSavedItem(legs: seq<Leg>, freshId: nat -> string, defaultVolatility: real): (r: Option<seq<Leg>>)
    ensures r.None? <==> |legs| == 0
    ensures r.Some? ==> |r.value| == |legs|
    ensures r.Some? ==> forall i :: 0 <= i < |legs| ==> r.value[i] == LoadSavedLeg(legs[i], freshId(i), defaultVolatility)
  {
    if |legs| == 0 then None
    else Some(seq(|legs|, i requires 0 <= i < |legs| => LoadSavedLeg(legs[i], freshId(i), defaultVolatility)))
  }

  /** Saving and loading back: the builder receives exactly the legs that
      were saved. */
  lemma SaveThenLoad(legs: seq<Leg>, underlying: string, status: Status, multiplier: Num,
                     defaultName: string, answer: Option<string>, freshId: nat -> string, defaultVolatility: real)
    requires status != NoStatus
    requires PrepareSave(legs, underlying, status, multiplier, defaultName, answer).SavePayload?
    requires forall l :: l in CountedLegs(legs) ==>
      l.id != "" && l.lots.JNum? && l.lotSize.JNum? && (l.legType.OptionLeg? ==> l.strike.JNum?)
    ensures var saved := PrepareSave(legs, underlying, status, multiplier, defaultName, answer).legs;
      LoadSavedItem(saved, freshId, defaultVolatility) == Some(saved)
  {
    var chosen := CountedLegs(legs);
    var saved := PrepareSave(legs, underlying, status, multiplier, defaultName, answer).legs;
    assert saved == WithStatus(chosen, status);
    forall i | 0 <= i < |saved|
      ensures ValidLeg(saved[i]) && saved[i].id != "" && saved[i].status != NoStatus
      ensures saved[i].lots.JNum? && saved[i].lotSize.JNum? && (saved[i].legType.OptionLeg? ==> saved[i].strike.JNum?)
    {
      assert chosen[i] in chosen;
    }
    SavedLegsLoadBack(saved, freshId, defaultVolatility);
  }

  /** Legs that each load back unchanged load back as a whole. */
  lemma SavedLegsLoadBack(saved: seq<Leg>, freshId: nat -> string, defaultVolatility: real)
    requires |saved| > 0
    requires forall i :: 0 <= i < |saved| ==>
      ValidLeg(saved[i]) && saved[i].id != "" && saved[i].status != NoStatus &&
      saved[i].lots.JNum? && saved[i].lotSize.JNum? && (saved[i].legType.OptionLeg? ==> saved[i].strike.JNum?)
    ensures LoadSavedItem(saved, freshId, defaultVolatility) == Some(saved)
  {
    forall i | 0 <= i < |saved|
      ensures LoadSavedLeg(saved[i], freshId(i), defaultVolatility) == saved[i]
    {
      SavedLegLoadsBack(saved[i], freshId(i), defaultVolatility);
    }
    assert LoadSavedItem(saved, freshId, defaultVolatility).value == saved;
  }

  // ---------------------------------------------------------------------------
  // The card of an open position
  // ---------------------------------------------------------------------------

  /** Unrealized P&L and the net debit (positive) or credit (negative) paid
      to open the position. */
  datatype Card = Card(unrealized: Num, net: Num)

  function EntryPrice(leg: Leg): Num {
    ParseFloat(leg.price)
  }

  /** The instrument's last price, or the entry price when there is none. */
  function CurrentPrice(leg: Leg, lookup: Lookup): Num {
    match lookup(leg.token)
    case Some(i) => if i.lastPrice.Undef? then EntryPrice(leg) else ParseFloat(i.lastPrice)
    case None => EntryPrice(leg)
  }

  /** `(Number(lots) || 1) * (Number(lotSize) || 1)` */
  function Quantity(leg: Leg): (q: real)
    ensures q != 0.0
  {
    OrOne(leg.lots) * OrOne(leg.lotSize)
  }

  function LegCard(leg: Leg, lookup: Lookup): Card {
    var entry := EntryPrice(leg);
    var ltp := CurrentPrice(leg, lookup);
    var q := Fin(Quantity(leg));
    match leg.buySell
    case Buy => Card(Mul(Sub(ltp, entry), q), Mul(entry, q))
    case Sell => Card(Mul(Sub(entry, ltp), q), Neg(Mul(entry, q)))
  }

  function AddCard(a: Card, b: Card): Card {
    Card(Add(a.unrealized, b.unrealized), Add(a.net, b.net))
  }

  function NegCard(c: Card): Card {
    Card(Neg(c.unrealized), Neg(c.net))
  }

  function CardTotals(legs: seq<Leg>, lookup: Lookup): Card {
    if |legs| == 0 then Card(Fin(0.0), Fin(0.0))
    else AddCard(LegCard(legs[0], lookup), CardTotals(legs[1..], lookup))
  }

  /** The card of a saved item: only open positions with legs have one. */
  function PositionCard(status: Status, legs: seq<Leg>, lookup: Lookup): (r: Option<Card>)
    ensures r.Some? <==> status == ActivePosition && |legs| > 0
  {
    if status == ActivePosition && |legs| > 0 then Some(CardTotals(legs, lookup)) else None
  }

  /** The mark-to-market value of the legs at their current prices,
      long legs counted positive. */
  function MarkValue(legs: seq<Leg>, lookup: Lookup): Num {
    if |legs| == 0 then Fin(0.0)
    else Add(LegMark(legs[0], lookup), MarkValue(legs[1..], lookup))
  }

  /** One leg at its current price, long counted positive. */
  function LegMark(leg: Leg, lookup: Lookup): Num {
    Mul(CurrentPrice(leg, lookup), Fin(Quantity(leg) * Direction(leg.buySell)))
  }

  lemma LegCardMarks(leg: Leg, lookup: Lookup)
    requires EntryPrice(leg).Fin?
    ensures Add(LegCard(leg, lookup).unrealized, LegCard(leg, lookup).net) == LegMark(leg, lookup)
  {
    var e := EntryPrice(leg).r;
    var q := Quantity(leg);
    if CurrentPrice(leg, lookup).Fin? {
      var p := CurrentPrice(leg, lookup).r;
      if leg.buySell == Buy {
        assert (p - e) * q + e * q == p * (q * 1.0);
      } else {
        assert (e - p) * q + -(e * q) == p * (q * -1.0);
      }
    }
  }

  lemma CardSumStep(c: Card, rest: Card, m: Num, mrest: Num)
    requires Add(c.unrealized, c.net) == m && Add(rest.unrealized, rest.net) == mrest
    ensures Add(AddCard(c, rest).unrealized, AddCard(c, rest).net) == Add(m, mrest)
  {
    AddSwap(c.unrealized, rest.unrealized, c.net, rest.net);
  }

  /** Unrealized P&L plus the net paid is what the position is worth now. */
  lemma {:induction false} UnrealizedPlusNetIsMarkValue(legs: seq<Leg>, lookup: Lookup)
    requires forall l :: l in legs ==> EntryPrice(l).Fin?
    ensures Add(CardTotals(legs, lookup).unrealized, CardTotals(legs, lookup).net) == MarkValue(legs, lookup)
  {
    if |legs| > 0 {
      var c := LegCard(legs[0], lookup);
      var rest := CardTotals(legs[1..], lookup);
      var m := LegMark(legs[0], lookup);
      var mrest := MarkValue(legs[1..], lookup);
      assert CardTotals(legs, lookup) == AddCard(c, rest);
      assert MarkValue(legs, lookup) == Add(m, mrest);
      assert forall l :: l in legs[1..] ==> l in legs;
      UnrealizedPlusNetIsMarkValue(legs[1..], lookup);
      assert Add(rest.unrealized, rest.net) == mrest;
      LegCardMarks(legs[0], lookup);
      assert Add(c.unrealized, c.net) == m;
      CardSumStep(c, rest, m, mrest);
    }
  }

  lemma LegCardFlip(leg: Leg, lookup: Lookup)
    ensures LegCard(FlipLeg(leg), lookup) == NegCard(LegCard(leg, lookup))
  {
    var f := FlipLeg(leg);
    assert f == leg.(buySell := Flip(leg.buySell));
    CardInputsIgnoreSide(leg, Flip(leg.buySell), lookup);
    var q := Quantity(leg);
    var e := EntryPrice(leg);
    var p := CurrentPrice(leg, lookup);
    if e.Fin? && p.Fin? {
      assert (p.r - e.r) * q == -((e.r - p.r) * q);
    }
  }

  lemma CardInputsIgnoreSide(leg: Leg, side: Side, lookup: Lookup)
    ensures Quantity(leg.(buySell := side)) == Quantity(leg)
    ensures EntryPrice(leg.(buySell := side)) == EntryPrice(leg)
    ensures CurrentPrice(leg.(buySell := side), lookup) == CurrentPrice(leg, lookup)
  {
    var f := leg.(buySell := side);
    assert f.lots == leg.lots && f.lotSize == leg.lotSize && f.price == leg.price && f.token == leg.token;
  }

  /** Swapping buy and sell on every leg negates both figures of the card. */
  lemma {:induction false} CardFlip(legs: seq<Leg>, lookup: Lookup)
    ensures CardTotals(FlipAll(legs), lookup) == NegCard(CardTotals(legs, lookup))
  {
    if |legs| > 0 {
      assert FlipAll(legs)[1..] == FlipAll(legs[1..]);
      CardFlip(legs[1..], lookup);
      LegCardFlip(legs[0], lookup);
      var c := LegCard(legs[0], lookup);
      var rest := CardTotals(legs[1..], lookup);
      NegAdd(c.unrealized, rest.unrealized);
      NegAdd(c.net, rest.net);
    }
  }

  /** Without live quotes every leg is marked at its entry price, so the
      position shows no unrealized P&L. */
  lemma {:induction false} NoQuotesNoPnl(legs: seq<Leg>, lookup: Lookup)
    requires forall l :: l in legs ==> EntryPrice(l).Fin? && lookup(l.token).None?
    ensures CardTotals(legs, lookup).unrealized == Fin(0.0)
  {
    if |legs| > 0 {
      NoQuotesNoPnl(legs[1..], lookup);
    }
  }

  /** How the unrealized P&L is shown: as zero below a hundredth, otherwise
      with a percentage of the net paid when that exceeds a hundredth, or the
      absolute amount when it does not. */
  datatype Percentage = Percent(p: Num) | AbsoluteOnly(amount: Num) | ZeroPercent
  datatype PnlShown = ZeroPnl | Signed(pnl: Num, pct: Percentage)

  function ShowPnl(card: Card): (r: PnlShown)
    ensures r.ZeroPnl? <==> card.unrealized.Fin? && Abs(card.unrealized.r) < 0.01
    ensures r.Signed? ==> r.pnl == card.unrealized && !r.pct.ZeroPercent?
    ensures r.Signed? && r.pct.Percent? ==> card.net.Fin? && Abs(card.net.r) > 0.01
    ensures r.Signed? && card.net.Fin? && Abs(card.net.r) > 0.01 ==> r.pct.Percent?
    ensures r.Signed? && r.pct.Percent? && r.pct.p.Fin? ==>
      card.unrealized.Fin? && r.pct.p.r * Abs(card.net.r) == 100.0 * card.unrealized.r
  {
    var u := card.unrealized;
    if u.Fin? && Abs(u.r) < 0.01 then ZeroPnl
    else if card.net.Fin? && Abs(card.net.r) > 0.01 then
      var a := Abs(card.net.r);
      if u.Fin? then
        var x := u.r / a;
        assert x * a == u.r;
        Signed(u, Percent(Fin(x * 100.0)))
      else Signed(u, Percent(NaN))
    else if u != Fin(0.0) then Signed(u, AbsoluteOnly(u))
    else Signed(u, ZeroPercent)
  }

  datatype NetSide = Debit | Credit | Even

  /** The net label: a debit when more was paid than received. */
  function NetLabel(net: Num): (r: NetSide)
    ensures r == Debit <==> Gt(net, Fin(0.0))
    ensures r == Credit <==> Gt(Fin(0.0), net)
  {
    if Gt(net, Fin(0.0)) then Debit else if Gt(Fin(0.0), net) then Credit else Even
  }

  /** The mirror position of a debit position is a credit position. */
  lemma NetLabelFlip(legs: seq<Leg>, lookup: Lookup)
    ensures NetLabel(CardTotals(FlipAll(legs), lookup).net) == Debit <==>
            NetLabel(CardTotals(legs, lookup).net) == Credit
  {
    CardFlip(legs, lookup);
  }
}

=== FILE: RiskSummary.dfy ===
/** The risk summary panel: intrinsic and time value of the option legs, the
    analytical classification of unlimited profit and loss, maximum profit
    and loss, breakevens read off the payoff curve, and the risk/reward
    verdict. Two copies of the panel exist (`Tradved` and `Frontend`); they
    differ in where the time value's market price comes from and in when a
    pair of curve points triggers a breakeven. */
module RiskSummary {
  import opened Common
  import opened Market
  import opened PayoffLeg

  /** The spot and expiry P&L of one point of the payoff chart. */
  datatype CurvePoint = CurvePoint(spot: real, pnl: real)

  /** The `1e-9` tolerance of the panel. */
  const Eps: real := 0.000000001

  // ---------------------------------------------------------------------------
  // Participating legs and the theoretical P&L at expiry
  // ---------------------------------------------------------------------------

  /** Selected, typed, and with numeric price, lots and lot size. */
  predicate Participates(leg: Leg) {
    leg.selected && HasLegType(leg.legType)
    && IsNumber(leg.price) && IsNumber(leg.lots) && IsNumber(leg.lotSize)
  }

  function SummaryLegs(legs: seq<Leg>): (r: seq<Leg>)
    ensures forall l :: l in r <==> l in legs && Participates(l)
    ensures forall l :: l in r ==> Participates(l)
    ensures |r| <= |legs|
    ensures r == Filter(legs, Participates)
  {
    if |legs| == 0 then []
    else
      assert legs == [legs[0]] + legs[1..];
      (if Participates(legs[0]) then [legs[0]] else []) + SummaryLegs(legs[1..])
  }

  /** `(value - entry) * mult * dir` */
  function Scaled(perUnit: real, leg: Leg): real {
    perUnit * Multiplier(leg) * Direction(leg.buySell)
  }

  /** P&L of a leg at expiry for a settlement spot. Unlike the chart, an
      option with an unreadable strike or without an option type contributes
      nothing at all rather than the loss of its premium. */
  function TheoreticalLegPnL(leg: Leg, spot: real): (p: real)
    ensures ParseFloat(leg.price).NaN? ==> p == 0.0
    ensures leg.legType.OptionLeg? && (NumberOf(leg.strike).NaN? || leg.optionType.None?) ==> p == 0.0
  {
    var entry := ParseFloat(leg.price);
    if entry.NaN? then 0.0
    else
      match leg.legType
      case OptionLeg =>
        var k := NumberOf(leg.strike);
        if k.NaN? || leg.optionType.None? then 0.0
        else Scaled(Intrinsic(leg.optionType.value, spot, k.r) - entry.r, leg)
      case FutureLeg => Scaled(spot - entry.r, leg)
      case OtherLeg(_) => Scaled(0.0 - entry.r, leg)
  }

  /** With a readable entry price e, a leg's P&L at expiry is (value − e) ×
      lots × lot size × direction, the value being max(0, S − K) for a call
      and max(0, K − S) for a put with a readable strike K, the spot S for a
      future and 0 for a leg of another kind. */
  lemma TheoreticalLegPnLFormula(leg: Leg, spot: real)
    requires ParseFloat(leg.price).Fin?
    ensures var e := ParseFloat(leg.price).r;
            var k := NumberOf(leg.strike);
            var scale := Multiplier(leg) * Direction(leg.buySell);
            && (leg.legType.OptionLeg? && leg.optionType == Some(CE) && k.Fin? ==>
                  TheoreticalLegPnL(leg, spot) == (Max(0.0, spot - k.r) - e) * scale)
            && (leg.legType.OptionLeg? && leg.optionType == Some(PE) && k.Fin? ==>
                  TheoreticalLegPnL(leg, spot) == (Max(0.0, k.r - spot) - e) * scale)
            && (leg.legType.FutureLeg? ==> TheoreticalLegPnL(leg, spot) == (spot - e) * scale)
            && (leg.legType.OtherLeg? ==> TheoreticalLegPnL(leg, spot) == (0.0 - e) * scale)
  {
    var e := ParseFloat(leg.price).r;
    var m := Multiplier(leg);
    var d := Direction(leg.buySell);
    forall x: real ensures Scaled(x, leg) == x * (m * d) {
      assert x * m * d == x * (m * d);
    }
  }

  /** For futures and for options whose strike and type are readable, the
      panel's P&L at expiry is the chart's. */
  lemma TheoreticalAgreesWithChart(leg: Leg, spot: real)
    requires leg.legType.FutureLeg? || (leg.legType.OptionLeg? && NumberOf(leg.strike).Fin? && leg.optionType.Some?)
    ensures TheoreticalLegPnL(leg, spot) == PnLAtExpiry(leg, spot, None)
  {
    assert ExpiryStrike(leg, None) == NumberOf(leg.strike);
  }

  lemma ScaledFlip(perUnit: real, leg: Leg)
    ensures Scaled(perUnit, FlipLeg(leg)) == -Scaled(perUnit, leg)
  {
    var m := perUnit * Multiplier(leg);
    assert Multiplier(FlipLeg(leg)) == Multiplier(leg);
    if leg.buySell.Buy? {
      assert Scaled(perUnit, leg) == m;
      assert Scaled(perUnit, FlipLeg(leg)) == -m;
    } else {
      assert Scaled(perUnit, leg) == -m;
      assert Scaled(perUnit, FlipLeg(leg)) == m;
    }
  }

  /** Swapping Buy and Sell negates the theoretical P&L. */
  lemma TheoreticalFlip(leg: Leg, spot: real)
    ensures TheoreticalLegPnL(FlipLeg(leg), spot) == -TheoreticalLegPnL(leg, spot)
  {
    var entry := ParseFloat(leg.price);
    if entry.Fin? {
      match leg.legType
      case OptionLeg =>
        var k := NumberOf(leg.strike);
        if k.Fin? && leg.optionType.Some? {
          ScaledFlip(Intrinsic(leg.optionType.value, spot, k.r) - entry.r, leg);
        }
      case FutureLeg => ScaledFlip(spot - entry.r, leg);
      case OtherLeg(_) => ScaledFlip(0.0 - entry.r, leg);
    }
  }

  /** A long call's P&L at expiry exceeds every bound: the reason a net long
      call position is classified as unlimited profit. */
  lemma LongCallProfitUnbounded(leg: Leg, bound: real) returns (spot: real)
    requires leg.legType.OptionLeg? && leg.optionType == Some(CE) && leg.buySell.Buy?
    requires ParseFloat(leg.price).Fin? && NumberOf(leg.strike).Fin?
    requires Multiplier(leg) > 0.0
    ensures TheoreticalLegPnL(leg, spot) > bound
  {
    var e := ParseFloat(leg.price).r;
    var k := NumberOf(leg.strike).r;
    var m := Multiplier(leg);
    var gain := Abs(e) + Abs(bound) / m + 1.0;
    spot := k + gain;
    assert Intrinsic(CE, spot, k) == gain;
    GainBeyondBound(e, bound, m);
    assert TheoreticalLegPnL(leg, spot) == (gain - e) * m;
  }

  /** The arithmetic behind `LongCallProfitUnbounded`. */
  lemma GainBeyondBound(e: real, bound: real, m: real)
    requires m > 0.0
    ensures (Abs(e) + Abs(bound) / m + 1.0 - e) * m > bound
  {
    var q := Abs(bound) / m + 1.0;
    var perUnit := Abs(e) + q - e;
    assert perUnit >= q;
    MulMonotone(q, perUnit, m);
    assert q * m == Abs(bound) + m;
  }

  /** The same leg sold loses more than any bound. */
  lemma ShortCallLossUnbounded(leg: Leg, bound: real) returns (spot: real)
    requires leg.legType.OptionLeg? && leg.optionType == Some(CE) && leg.buySell.Sell?
    requires ParseFloat(leg.price).Fin? && NumberOf(leg.strike).Fin?
    requires Multiplier(leg) > 0.0
    ensures TheoreticalLegPnL(leg, spot) < bound
  {
    var long := FlipLeg(leg);
    assert Multiplier(long) == Multiplier(leg);
    spot := LongCallProfitUnbounded(long, -bound);
    TheoreticalFlip(long, spot);
    assert FlipLeg(long) == leg;
  }

  /** Σ P&L of the legs with the underlying at 0. */
  function PnLAtZero(legs: seq<Leg>): real {
    if |legs| == 0 then 0.0 else TheoreticalLegPnL(legs[0], 0.0) + PnLAtZero(legs[1..])
  }

  /** The P&L at 0 of a list is the P&L at 0 of its parts: the sum does not
      depend on how the legs are grouped. */
  lemma {:induction false} PnLAtZeroSplits(a: seq<Leg>, b: seq<Leg>)
    ensures PnLAtZero(a + b) == PnLAtZero(a) + PnLAtZero(b)
  {
    if |a| > 0 {
      assert (a + b)[1..] == a[1..] + b;
      PnLAtZeroSplits(a[1..], b);
    } else {
      assert a + b == b;
    }
  }

  /** With the underlying at 0 and a non-negative strike K, a call has
      expired worthless (its P&L is the premium, −e × scale) and a put is
      worth K (its P&L is (K − e) × scale). */
  lemma LegPnLAtZero(leg: Leg)
    requires ParseFloat(leg.price).Fin? && leg.legType.OptionLeg?
    requires NumberOf(leg.strike).Fin? && NumberOf(leg.strike).r >= 0.0
    ensures var e := ParseFloat(leg.price).r;
            var scale := Multiplier(leg) * Direction(leg.buySell);
            && (leg.optionType == Some(CE) ==> TheoreticalLegPnL(leg, 0.0) == -e * scale)
            && (leg.optionType == Some(PE) ==> TheoreticalLegPnL(leg, 0.0) == (NumberOf(leg.strike).r - e) * scale)
  {
    TheoreticalLegPnLFormula(leg, 0.0);
    var e := ParseFloat(leg.price).r;
    var scale := Multiplier(leg) * Direction(leg.buySell);
    assert (0.0 - e) * scale == -e * scale;
  }

  /** Reversing every leg negates the P&L at 0. */
  lemma {:induction false} PnLAtZeroFlip(legs: seq<Leg>)
    ensures PnLAtZero(FlipAll(legs)) == -PnLAtZero(legs)
  {
    if |legs| > 0 {
      assert FlipAll(legs)[1..] == FlipAll(legs[1..]);
      TheoreticalFlip(legs[0], 0.0);
      PnLAtZeroFlip(legs[1..]);
    }
  }

  // ---------------------------------------------------------------------------
  // Intrinsic and time value of the option legs
  // ---------------------------------------------------------------------------

  /** An option leg with a readable strike and a call/put type. */
  predicate ValuedOption(leg: Leg) {
    leg.legType.OptionLeg? && !leg.strike.Undef? && NumberOf(leg.strike).Fin? && leg.optionType.Some?
  }

  function ValuedOptions(legs: seq<Leg>): (r: seq<Leg>)
    ensures forall l :: l in r <==> l in legs && ValuedOption(l)
    ensures forall l :: l in r ==> ValuedOption(l)
    ensures r == Filter(legs, ValuedOption)
  {
    if |legs| == 0 then []
    else
      assert legs == [legs[0]] + legs[1..];
      (if ValuedOption(legs[0]) then [legs[0]] else []) + ValuedOptions(legs[1..])
  }

  /** The per-share market price: the instrument's last price when it has
      one (the Frontend copy also asks that the instrument be tagged as an
      option), the leg's entry price otherwise. */
  function MarketPrice(variant: Variant, leg: Leg, inst: Option<Instrument>): (m: Num)
    ensures inst.None? || inst.value.lastPrice.Undef? ==> m == ParseFloat(leg.price)
    ensures variant.Frontend? && inst.Some? && inst.value.legTypeDb != DbOption ==> m == ParseFloat(leg.price)
    ensures (inst.Some? && !inst.value.lastPrice.Undef? && (variant.Tradved? || inst.value.legTypeDb == DbOption))
            ==> m == ParseFloat(inst.value.lastPrice)
  {
    if inst.Some? && !inst.value.lastPrice.Undef? && (variant.Tradved? || inst.value.legTypeDb == DbOption)
    then ParseFloat(inst.value.lastPrice)
    else ParseFloat(leg.price)
  }

  /** `lots * lotSize` */
  function Contracts(leg: Leg): Num {
    Mul(NumberOf(leg.lots), NumberOf(leg.lotSize))
  }

  /** `x * contracts * direction`, NaN staying NaN. */
  function Signed(x: Num, leg: Leg): Num {
    var y := Mul(x, Contracts(leg));
    if y.Fin? then Fin(Common.Signed(y.r, leg.buySell)) else NaN
  }

  function LegIntrinsic(leg: Leg, spot: real): real
    requires ValuedOption(leg)
  {
    Intrinsic(leg.optionType.value, spot, NumberOf(leg.strike).r)
  }

  datatype ValueSplit = ValueSplit(intrinsic: Num, time: Num)

  const NoValue := ValueSplit(Fin(0.0), Fin(0.0))

  function AddSplit(a: ValueSplit, b: ValueSplit): ValueSplit {
    ValueSplit(Add(a.intrinsic, b.intrinsic), Add(a.time, b.time))
  }

  function LegSplit(variant: Variant, leg: Leg, spot: real, lookup: Lookup): ValueSplit
    requires ValuedOption(leg)
  {
    var intrinsic := LegIntrinsic(leg, spot);
    var market := MarketPrice(variant, leg, lookup(leg.token));
    ValueSplit(Signed(Fin(intrinsic), leg), Signed(Sub(market, Fin(intrinsic)), leg))
  }

  function SplitAll(variant: Variant, legs: seq<Leg>, spot: real, lookup: Lookup): ValueSplit
    requires forall l :: l in legs ==> ValuedOption(l)
  {
    if |legs| == 0 then NoValue
    else AddSplit(LegSplit(variant, legs[0], spot, lookup), SplitAll(variant, legs[1..], spot, lookup))
  }

  /** Intrinsic and time value over the participating option legs; both 0
      unless there is such a leg and the live spot is a positive number
      (`spot` is NaN when there is none). */
  function IntrinsicAndTimeValue(variant: Variant, legs: seq<Leg>, spot: Num, lookup: Lookup): (r: ValueSplit)
    ensures !Gt(spot, Fin(0.0)) || |ValuedOptions(SummaryLegs(legs))| == 0 ==> r == NoValue
  {
    var options := ValuedOptions(SummaryLegs(legs));
    if |options| > 0 && Gt(spot, Fin(0.0)) then SplitAll(variant, options, spot.r, lookup)
    else NoValue
  }

  /** The market value the split accounts for. */
  function MarketValue(variant: Variant, legs: seq<Leg>, lookup: Lookup): Num {
    if |legs| == 0 then Fin(0.0)
    else Add(Signed(MarketPrice(variant, legs[0], lookup(legs[0].token)), legs[0]),
             MarketValue(variant, legs[1..], lookup))
  }

  /** A sold leg's signed amount is the negated product, a bought leg's the
      product itself. */
  lemma SignedIsDirected(x: Num, leg: Leg)
    ensures Signed(x, leg) == if leg.buySell.Buy? then Mul(x, Contracts(leg)) else Neg(Mul(x, Contracts(leg)))
  {
    DirectedNum(Mul(x, Contracts(leg)), leg.buySell);
  }

  lemma DirectedNum(y: Num, side: Side)
    ensures (if y.Fin? then Fin(Common.Signed(y.r, side)) else NaN) == (if side.Buy? then y else Neg(y))
  {
  }

  lemma SignedSplits(i: real, m: Num, leg: Leg)
    ensures Add(Signed(Fin(i), leg), Signed(Sub(m, Fin(i)), leg)) == Signed(m, leg)
  {
    SignedIsDirected(Fin(i), leg);
    SignedIsDirected(Sub(m, Fin(i)), leg);
    SignedIsDirected(m, leg);
    MulSplits(i, m, Contracts(leg));
  }

  lemma MulSplits(i: real, m: Num, c: Num)
    ensures Add(Mul(Fin(i), c), Mul(Sub(m, Fin(i)), c)) == Mul(m, c)
    ensures Add(Neg(Mul(Fin(i), c)), Neg(Mul(Sub(m, Fin(i)), c))) == Neg(Mul(m, c))
  {
    if m.Fin? && c.Fin? {
      assert i * c.r + (m.r - i) * c.r == m.r * c.r;
    }
  }

  lemma {:induction false} SplitAllSums(variant: Variant, legs: seq<Leg>, spot: real, lookup: Lookup)
    requires forall l :: l in legs ==> ValuedOption(l)
    ensures Add(SplitAll(variant, legs, spot, lookup).intrinsic, SplitAll(variant, legs, spot, lookup).time)
            == MarketValue(variant, legs, lookup)
  {
    if |legs| > 0 {
      var leg := legs[0];
      assert legs[0] in legs;
      var s := LegSplit(variant, leg, spot, lookup);
      var rest := SplitAll(variant, legs[1..], spot, lookup);
      assert forall l :: l in legs[1..] ==> l in legs;
      SplitAllSums(variant, legs[1..], spot, lookup);
      SignedSplits(LegIntrinsic(leg, spot), MarketPrice(variant, leg, lookup(leg.token)), leg);
      AddSwap(s.intrinsic, s.time, rest.intrinsic, rest.time);
    }
  }

  /** Intrinsic value plus time value is the market value of the option legs. */
  lemma IntrinsicPlusTimeIsMarketValue(variant: Variant, legs: seq<Leg>, spot: Num, lookup: Lookup)
    requires Gt(spot, Fin(0.0)) && |ValuedOptions(SummaryLegs(legs))| > 0
    ensures Add(IntrinsicAndTimeValue(variant, legs, spot, lookup).intrinsic,
                IntrinsicAndTimeValue(variant, legs, spot, lookup).time)
            == MarketValue(variant, ValuedOptions(SummaryLegs(legs)), lookup)
  {
    SplitAllSums(variant, ValuedOptions(SummaryLegs(legs)), spot.r, lookup);
  }

  /** Σ max(0, S − K) (calls) or max(0, K − S) (puts) × lots × lot size ×
      direction over the option legs with a readable strike and a type. */
  function IntrinsicTotal(legs: seq<Leg>, spot: real): Num {
    if |legs| == 0 then Fin(0.0)
    else
      var rest := IntrinsicTotal(legs[1..], spot);
      if ValuedOption(legs[0]) then Add(SignedIntrinsic(legs[0], spot), rest) else rest
  }

  /** max(0, S − K) for a call, max(0, K − S) for a put, times lots, lot size
      and direction. */
  function SignedIntrinsic(leg: Leg, spot: real): Num
    requires ValuedOption(leg)
  {
    var k := NumberOf(leg.strike).r;
    Signed(Fin(if leg.optionType == Some(CE) then Max(0.0, spot - k) else Max(0.0, k - spot)), leg)
  }

  lemma IntrinsicTotalCons(leg: Leg, rest: seq<Leg>, spot: real)
    ensures IntrinsicTotal([leg] + rest, spot)
         == if ValuedOption(leg) then Add(SignedIntrinsic(leg, spot), IntrinsicTotal(rest, spot)) else IntrinsicTotal(rest, spot)
  {
    assert ([leg] + rest)[0] == leg && ([leg] + rest)[1..] == rest;
  }

  /** One valued option in front adds its signed intrinsic value. */
  lemma SplitAllConsIntrinsic(variant: Variant, leg: Leg, rest: seq<Leg>, spot: real, lookup: Lookup)
    requires ValuedOption(leg) && forall l :: l in rest ==> ValuedOption(l)
    ensures forall l :: l in [leg] + rest ==> ValuedOption(l)
    ensures SplitAll(variant, [leg] + rest, spot, lookup).intrinsic
         == Add(SignedIntrinsic(leg, spot), SplitAll(variant, rest, spot, lookup).intrinsic)
  {
    assert ([leg] + rest)[0] == leg && ([leg] + rest)[1..] == rest;
    SignedIntrinsicIsLegIntrinsic(leg, spot);
  }

  /** The signed intrinsic value is the split's intrinsic part. */
  lemma SignedIntrinsicIsLegIntrinsic(leg: Leg, spot: real)
    requires ValuedOption(leg)
    ensures SignedIntrinsic(leg, spot) == Signed(Fin(LegIntrinsic(leg, spot)), leg)
  {
    var k := NumberOf(leg.strike).r;
    assert LegIntrinsic(leg, spot) == if leg.optionType == Some(CE) then Max(0.0, spot - k) else Max(0.0, k - spot);
  }

  lemma {:induction false} SplitAllIntrinsic(variant: Variant, legs: seq<Leg>, spot: real, lookup: Lookup)
    ensures SplitAll(variant, ValuedOptions(legs), spot, lookup).intrinsic == IntrinsicTotal(legs, spot)
  {
    SplitAllIsIntrinsicTotal(variant, ValuedOptions(legs), spot, lookup);
    IntrinsicTotalOfValued(legs, spot);
  }

  /** Over valued options alone, the split's intrinsic part is the intrinsic total. */
  lemma {:induction false} SplitAllIsIntrinsicTotal(variant: Variant, vs: seq<Leg>, spot: real, lookup: Lookup)
    requires forall l :: l in vs ==> ValuedOption(l)
    ensures SplitAll(variant, vs, spot, lookup).intrinsic == IntrinsicTotal(vs, spot)
  {
    if |vs| > 0 {
      assert vs == [vs[0]] + vs[1..];
      assert forall l :: l in vs[1..] ==> l in vs;
      SplitAllIsIntrinsicTotal(variant, vs[1..], spot, lookup);
      SplitAllConsIntrinsic(variant, vs[0], vs[1..], spot, lookup);
    }
  }

  /** Legs that are not valued options add nothing to the intrinsic total. */
  lemma {:induction false} IntrinsicTotalOfValued(legs: seq<Leg>, spot: real)
    ensures IntrinsicTotal(ValuedOptions(legs), spot) == IntrinsicTotal(legs, spot)
  {
    if |legs| > 0 {
      var rest := ValuedOptions(legs[1..]);
      IntrinsicTotalOfValued(legs[1..], spot);
      if ValuedOption(legs[0]) {
        assert ValuedOptions(legs) == [legs[0]] + rest;
        IntrinsicTotalCons(legs[0], rest, spot);
        assert IntrinsicTotal(legs, spot) == Add(SignedIntrinsic(legs[0], spot), IntrinsicTotal(legs[1..], spot));
      } else {
        assert ValuedOptions(legs) == rest;
        assert IntrinsicTotal(legs, spot) == IntrinsicTotal(legs[1..], spot);
      }
    }
  }

  /** The intrinsic figure the panel shows is the intrinsic total of the
      participating legs. */
  lemma IntrinsicValueIsTotal(variant: Variant, legs: seq<Leg>, spot: Num, lookup: Lookup)
    requires Gt(spot, Fin(0.0)) && |ValuedOptions(SummaryLegs(legs))| > 0
    ensures IntrinsicAndTimeValue(variant, legs, spot, lookup).intrinsic == IntrinsicTotal(SummaryLegs(legs), spot.r)
  {
    SplitAllIntrinsic(variant, SummaryLegs(legs), spot.r, lookup);
  }

  // ---------------------------------------------------------------------------
  // Unlimited profit and loss
  // ---------------------------------------------------------------------------

  /** Quantities (`lots * lotSize`) held long and short, per instrument kind. */
  datatype Exposure = Exposure(
    longCall: Num, shortCall: Num,
    longPut: Num, shortPut: Num,
    longFuture: Num, shortFuture: Num)

  const NoExposure := Exposure(Fin(0.0), Fin(0.0), Fin(0.0), Fin(0.0), Fin(0.0), Fin(0.0))

  /** Adds a leg's quantity to its bucket; an option without a type and a
      leg of another kind add nothing. */
  function AddExposure(leg: Leg, e: Exposure): (r: Exposure)
    ensures !leg.legType.FutureLeg? && !(leg.legType.OptionLeg? && leg.optionType.Some?) ==> r == e
  {
    var q := Contracts(leg);
    var buy := leg.buySell.Buy?;
    match leg.legType
    case OptionLeg =>
      if leg.optionType == Some(CE) then
        if buy then e.(longCall := Add(e.longCall, q)) else e.(shortCall := Add(e.shortCall, q))
      else if leg.optionType == Some(PE) then
        if buy then e.(longPut := Add(e.longPut, q)) else e.(shortPut := Add(e.shortPut, q))
      else e
    case FutureLeg =>
      if buy then e.(longFuture := Add(e.longFuture, q)) else e.(shortFuture := Add(e.shortFuture, q))
    case OtherLeg(_) => e
  }

  function ExposureOf(legs: seq<Leg>): Exposure {
    if |legs| == 0 then NoExposure else AddExposure(legs[0], ExposureOf(legs[1..]))
  }

  predicate UnlimitedProfit(e: Exposure) {
    Gt(e.longFuture, e.shortFuture) || Gt(e.longCall, e.shortCall)
  }

  predicate UnlimitedLoss(e: Exposure) {
    Gt(e.shortFuture, e.longFuture) || Gt(e.shortPut, e.longPut) || Gt(e.shortCall, e.longCall)
  }

  /** Long and short exchanged. */
  function Mirror(e: Exposure): Exposure {
    Exposure(e.shortCall, e.longCall, e.shortPut, e.longPut, e.shortFuture, e.longFuture)
  }

  lemma AddExposureFlip(leg: Leg, e: Exposure)
    ensures AddExposure(FlipLeg(leg), Mirror(e)) == Mirror(AddExposure(leg, e))
  {
    var f := FlipLeg(leg);
    var q := Contracts(leg);
    assert f.lots == leg.lots && f.lotSize == leg.lotSize;
    assert Contracts(f) == q;
    assert f.legType == leg.legType && f.optionType == leg.optionType;
    assert f.buySell.Buy? <==> !leg.buySell.Buy?;
    match leg.legType
    case OptionLeg =>
      if leg.optionType == Some(CE) {
        if leg.buySell.Buy? {
          assert AddExposure(f, Mirror(e)) == Mirror(e).(shortCall := Add(e.longCall, q));
        } else {
          assert AddExposure(f, Mirror(e)) == Mirror(e).(longCall := Add(e.shortCall, q));
        }
      } else if leg.optionType == Some(PE) {
        if leg.buySell.Buy? {
          assert AddExposure(f, Mirror(e)) == Mirror(e).(shortPut := Add(e.longPut, q));
        } else {
          assert AddExposure(f, Mirror(e)) == Mirror(e).(longPut := Add(e.shortPut, q));
        }
      }
    case FutureLeg =>
      if leg.buySell.Buy? {
        assert AddExposure(f, Mirror(e)) == Mirror(e).(shortFuture := Add(e.longFuture, q));
      } else {
        assert AddExposure(f, Mirror(e)) == Mirror(e).(longFuture := Add(e.shortFuture, q));
      }
    case OtherLeg(_) =>
  }

  /** Reversing every leg exchanges long and short quantities. */
  lemma {:induction false} FlipMirrorsExposure(legs: seq<Leg>)
    ensures ExposureOf(FlipAll(legs)) == Mirror(ExposureOf(legs))
  {
    if |legs| == 0 {
      assert Mirror(NoExposure) == NoExposure;
    } else {
      assert FlipAll(legs)[1..] == FlipAll(legs[1..]);
      FlipMirrorsExposure(legs[1..]);
      AddExposureFlip(legs[0], ExposureOf(legs[1..]));
    }
  }

  /** Reversing a position turns an unlimited profit into an unlimited loss,
      and an unlimited loss that does not come from puts into an unlimited
      profit: puts never make a profit unlimited. */
  lemma FlipExchangesUnlimited(legs: seq<Leg>)
    ensures UnlimitedProfit(ExposureOf(legs)) ==> UnlimitedLoss(ExposureOf(FlipAll(legs)))
    ensures UnlimitedLoss(ExposureOf(FlipAll(legs))) <==>
              UnlimitedProfit(ExposureOf(legs)) || Gt(ExposureOf(legs).longPut, ExposureOf(legs).shortPut)
    ensures UnlimitedProfit(ExposureOf(FlipAll(legs))) ==> UnlimitedLoss(ExposureOf(legs))
  {
    FlipMirrorsExposure(legs);
  }

  // ---------------------------------------------------------------------------
  // Maximum profit and loss
  // ---------------------------------------------------------------------------

  /** A displayed extremum: unlimited, an amount, or "N/A". */
  datatype Extreme = Unlimited | Amount(v: real) | NotApplicable

  function Pnls(curve: seq<CurvePoint>): (r: seq<real>)
    ensures |r| == |curve|
    ensures forall i :: 0 <= i < |curve| ==> r[i] == curve[i].pnl
  {
    if |curve| == 0 then [] else [curve[0].pnl] + Pnls(curve[1..])
  }

  function SeqMax(xs: seq<real>): (m: real)
    requires |xs| > 0
    ensures m in xs
    ensures forall x :: x in xs ==> x <= m
  {
    if |xs| == 1 then xs[0]
    else
      assert xs == [xs[0]] + xs[1..];
      Max(xs[0], SeqMax(xs[1..]))
  }

  function SeqMin(xs: seq<real>): (m: real)
    requires |xs| > 0
    ensures m in xs
    ensures forall x :: x in xs ==> m <= x
  {
    if |xs| == 1 then xs[0]
    else
      assert xs == [xs[0]] + xs[1..];
      Min(xs[0], SeqMin(xs[1..]))
  }

  /** Maximum profit: unlimited when the exposure says so; otherwise the
      largest curve value, merged with the P&L at spot 0 when legs take
      part; "N/A" with neither. */
  function MaxProfit(curve: seq<real>, anyLegs: bool, atZero: real, unlimited: bool): (r: Extreme)
    ensures r.Unlimited? <==> unlimited
    ensures r.NotApplicable? <==> !unlimited && !anyLegs && |curve| == 0
    ensures r.Amount? ==> forall x :: x in curve ==> x <= r.v
    ensures r.Amount? && anyLegs ==> atZero <= r.v
    ensures r.Amount? ==> r.v in curve || (anyLegs && r.v == atZero)
  {
    if unlimited then Unlimited
    else if anyLegs then Amount(if |curve| > 0 then Max(SeqMax(curve), atZero) else atZero)
    else if |curve| > 0 then Amount(SeqMax(curve))
    else NotApplicable
  }

  /** Maximum loss, the same with the smallest values. */
  function MaxLoss(curve: seq<real>, anyLegs: bool, atZero: real, unlimited: bool): (r: Extreme)
    ensures r.Unlimited? <==> unlimited
    ensures r.NotApplicable? <==> !unlimited && !anyLegs && |curve| == 0
    ensures r.Amount? ==> forall x :: x in curve ==> r.v <= x
    ensures r.Amount? && anyLegs ==> r.v <= atZero
    ensures r.Amount? ==> r.v in curve || (anyLegs && r.v == atZero)
  {
    if unlimited then Unlimited
    else if anyLegs then Amount(if |curve| > 0 then Min(SeqMin(curve), atZero) else atZero)
    else if |curve| > 0 then Amount(SeqMin(curve))
    else NotApplicable
  }

  /** Without unlimited sides the maximum profit is never below the maximum loss. */
  lemma ProfitNotBelowLoss(curve: seq<real>, anyLegs: bool, atZero: real)
    requires anyLegs || |curve| > 0
    ensures MaxLoss(curve, anyLegs, atZero, false).v <= MaxProfit(curve, anyLegs, atZero, false).v
  {
    var p := MaxProfit(curve, anyLegs, atZero, false).v;
    var l := MaxLoss(curve, anyLegs, atZero, false).v;
    if anyLegs {
      assert l <= atZero <= p;
    } else {
      assert l <= curve[0] <= p;
    }
  }

  // ---------------------------------------------------------------------------
  // Breakevens
  // ---------------------------------------------------------------------------

  predicate NearZero(x: real) {
    Abs(x) < Eps
  }

  predicate AwayFromZero(x: real) {
    Abs(x) > Eps
  }

  /** The zero of the straight line through `(s0, p0)` and `(s1, p1)`. */
  function Crossing(s0: real, p0: real, s1: real, p1: real): real
    requires p0 != p1
  {
    s0 - p0 * (s1 - s0) / (p1 - p0)
  }

  /** At a strict sign change the crossing lies strictly between the two
      spots, and the interpolated P&L vanishes there. */
  lemma CrossingBetween(s0: real, p0: real, s1: real, p1: real)
    requires s0 < s1 && p0 * p1 < 0.0
    ensures p0 != p1
    ensures s0 < Crossing(s0, p0, s1, p1) < s1
    ensures p0 + (p1 - p0) * (Crossing(s0, p0, s1, p1) - s0) / (s1 - s0) == 0.0
  {
    SignChange(p0, p1);
    var t := CrossingFraction(p0, p1);
    var w := s1 - s0;
    CrossingForm(s0, p0, s1, p1);
    MulStrict(t, 1.0, w);
    MulStrict(0.0, t, w);
    var x := Crossing(s0, p0, s1, p1);
    assert x - s0 == t * w;
    assert (x - s0) / w == t;
    assert (p1 - p0) * (x - s0) / w == (p1 - p0) * t;
    assert (p1 - p0) * t == -p0;
  }

  /** The fraction of the way from the first point to the second at which
      the line crosses zero. */
  lemma CrossingFraction(p0: real, p1: real) returns (t: real)
    requires (p0 < 0.0 && p1 > 0.0) || (p0 > 0.0 && p1 < 0.0)
    ensures t == -p0 / (p1 - p0)
    ensures 0.0 < t < 1.0
  {
    t := -p0 / (p1 - p0);
    if p0 < 0.0 {
      DivBetween(-p0, p1 - p0);
    } else {
      assert t == p0 / (p0 - p1);
      DivBetween(p0, p0 - p1);
    }
  }

  lemma CrossingForm(s0: real, p0: real, s1: real, p1: real)
    requires p0 != p1
    ensures Crossing(s0, p0, s1, p1) == s0 + (-p0 / (p1 - p0)) * (s1 - s0)
  {
  }

  lemma SignChange(a: real, b: real)
    requires a * b < 0.0
    ensures (a < 0.0 && b > 0.0) || (a > 0.0 && b < 0.0)
  {
  }

  lemma DivBetween(x: real, d: real)
    requires 0.0 < x < d
    ensures 0.0 < x / d < 1.0
  {
    var q := x / d;
    assert q * d == x;
    if q >= 1.0 {
      MulMonotone(1.0, q, d);
      assert false;
    }
    if q <= 0.0 {
      MulMonotone(q, 0.0, d);
      assert false;
    }
  }

  lemma MulStrict(a: real, b: real, m: real)
    requires a < b && m > 0.0
    ensures a * m < b * m
  {
  }

  /** A point with exactly zero P&L is its own crossing. */
  lemma CrossingAtZero(s0: real, s1: real, p1: real)
    requires p1 != 0.0
    ensures Crossing(s0, 0.0, s1, p1) == s0
    ensures Crossing(s1, p1, s0, 0.0) == s0
  {
  }

  /** The breakeven (rounded, at most one) a pair of consecutive points
      contributes in the tradved copy. */
  function TradvedPair(env: Env, prev: CurvePoint, cur: CurvePoint): (r: seq<real>)
    ensures |r| <= 1
    ensures !(prev.pnl * cur.pnl < 0.0 || NearZero(prev.pnl)) ==> r == []
  {
    if prev.pnl * cur.pnl < 0.0 || NearZero(prev.pnl) then
      if AwayFromZero(cur.pnl - prev.pnl) then [env.round0(Crossing(prev.spot, prev.pnl, cur.spot, cur.pnl))]
      else if NearZero(prev.pnl) then [env.round0(prev.spot)]
      else []
    else []
  }

  /** The same in the Frontend copy, which also triggers when only the later
      point is near zero and not when both are. */
  function FrontendPair(env: Env, prev: CurvePoint, cur: CurvePoint): (r: seq<real>)
    ensures |r| <= 1
    ensures NearZero(prev.pnl) && NearZero(cur.pnl) && prev.pnl * cur.pnl >= 0.0 ==> r == []
  {
    if prev.pnl * cur.pnl < 0.0
       || (NearZero(prev.pnl) && AwayFromZero(cur.pnl))
       || (NearZero(cur.pnl) && AwayFromZero(prev.pnl)) then
      if AwayFromZero(cur.pnl - prev.pnl) then [env.round0(Crossing(prev.spot, prev.pnl, cur.spot, cur.pnl))]
      else if NearZero(prev.pnl) then [env.round0(prev.spot)]
      else if NearZero(cur.pnl) then [env.round0(cur.spot)]
      else []
    else []
  }

  function PairBreakeven(env: Env, variant: Variant, prev: CurvePoint, cur: CurvePoint): seq<real> {
    match variant
    case Tradved => TradvedPair(env, prev, cur)
    case Frontend => FrontendPair(env, prev, cur)
  }

  /** Breakevens of every consecutive pair, in curve order, repeats kept. */
  function Candidates(env: Env, variant: Variant, curve: seq<CurvePoint>): (r: seq<real>)
    ensures forall i :: 1 <= i < |curve| ==>
              forall b :: b in PairBreakeven(env, variant, curve[i - 1], curve[i]) ==> b in r
    ensures forall b :: b in r ==> exists i :: 1 <= i < |curve| && b in PairBreakeven(env, variant, curve[i - 1], curve[i])
  {
    if |curve| < 2 then []
    else
      var rest := Candidates(env, variant, curve[1..]);
      assert forall i :: 1 <= i < |curve[1..]| ==> curve[1..][i - 1] == curve[i] && curve[1..][i] == curve[i + 1];
      PairBreakeven(env, variant, curve[0], curve[1]) + rest
  }

  /** The distinct rounded breakevens in increasing order; empty is "N/A". */
  function Breakevens(env: Env, variant: Variant, curve: seq<CurvePoint>): (r: seq<real>)
    ensures forall i, j :: 0 <= i < j < |r| ==> r[i] < r[j]
    ensures forall b :: b in r <==>
              exists i :: 1 <= i < |curve| && b in PairBreakeven(env, variant, curve[i - 1], curve[i])
  {
    SortUniqueReals(Candidates(env, variant, curve))
  }

  /** Both copies report the crossing of a clear sign change. */
  lemma SignChangeReported(env: Env, variant: Variant, curve: seq<CurvePoint>, i: nat)
    requires 1 <= i < |curve|
    requires curve[i - 1].pnl * curve[i].pnl < 0.0 && AwayFromZero(curve[i].pnl - curve[i - 1].pnl)
    ensures env.round0(Crossing(curve[i - 1].spot, curve[i - 1].pnl, curve[i].spot, curve[i].pnl))
              in Breakevens(env, variant, curve)
  {
    var b := env.round0(Crossing(curve[i - 1].spot, curve[i - 1].pnl, curve[i].spot, curve[i].pnl));
    assert b in PairBreakeven(env, variant, curve[i - 1], curve[i]);
  }

  /** Both copies report a zero-P&L point that the curve leaves by more than
      the tolerance. */
  lemma ZeroBeforeMoveReported(env: Env, variant: Variant, curve: seq<CurvePoint>, i: nat)
    requires i + 1 < |curve|
    requires curve[i].pnl == 0.0 && AwayFromZero(curve[i + 1].pnl)
    ensures env.round0(curve[i].spot) in Breakevens(env, variant, curve)
  {
    CrossingAtZero(curve[i].spot, curve[i + 1].spot, curve[i + 1].pnl);
    assert env.round0(curve[i].spot) in PairBreakeven(env, variant, curve[i], curve[i + 1]);
  }

  /** The tradved copy misses a zero reached from a non-zero P&L when it is
      the last point: a curve from -5 at 100 to 0 at 105 has no breakeven. */
  lemma TradvedMissesFinalZero(env: Env)
    ensures Breakevens(env, Tradved, [CurvePoint(100.0, -5.0), CurvePoint(105.0, 0.0)]) == []
  {
    var curve := [CurvePoint(100.0, -5.0), CurvePoint(105.0, 0.0)];
    assert TradvedPair(env, curve[0], curve[1]) == [];
    assert Candidates(env, Tradved, curve[1..]) == [];
  }

  /** The Frontend copy reports every zero-P&L point reached from a P&L
      beyond the tolerance, the last point included. */
  lemma FrontendReportsZeroAfterMove(env: Env, curve: seq<CurvePoint>, i: nat)
    requires 1 <= i < |curve|
    requires curve[i].pnl == 0.0 && AwayFromZero(curve[i - 1].pnl)
    ensures env.round0(curve[i].spot) in Breakevens(env, Frontend, curve)
  {
    CrossingAtZero(curve[i].spot, curve[i - 1].spot, curve[i - 1].pnl);
    assert env.round0(curve[i].spot) in FrontendPair(env, curve[i - 1], curve[i]);
  }

  // ---------------------------------------------------------------------------
  // Risk/reward
  // ---------------------------------------------------------------------------

  /** The risk/reward verdict; `Multiple(x)` is shown as `x` to two decimals
      followed by "X". */
  datatype Ratio =
    | NoRatio
    | BothUnlimited
    | UnlimitedReward
    | UnlimitedRisk
    | ZeroRatio
    | InfiniteRatio
    | Multiple(x: real)

  /** Reward over risk when `rewardOverRisk`, risk over reward otherwise;
      the risk is the size of the maximum loss. */
  function RiskReward(profit: Extreme, loss: Extreme, rewardOverRisk: bool): (r: Ratio)
    ensures r.NoRatio? <==> profit.NotApplicable? || loss.NotApplicable?
    ensures r.BothUnlimited? <==> profit.Unlimited? && loss.Unlimited?
    ensures r.UnlimitedReward? <==> profit.Unlimited? && loss.Amount?
    ensures r.UnlimitedRisk? <==> profit.Amount? && loss.Unlimited?
    ensures r.InfiniteRatio? <==> profit.Amount? && loss.Amount? && NearZero(loss.v) && profit.v >= Eps
    ensures r.ZeroRatio? <==> profit.Amount? && loss.Amount? && profit.v < Eps
                               && (NearZero(loss.v) || profit.v <= 0.0)
    ensures r.Multiple? <==> profit.Amount? && loss.Amount? && profit.v > 0.0 && !NearZero(loss.v)
                              && !(profit.v < Eps && NearZero(loss.v))
    ensures r.Multiple? ==> r.x > 0.0
    ensures r.Multiple? && rewardOverRisk ==> r.x * Abs(loss.v) == profit.v
    ensures r.Multiple? && !rewardOverRisk ==> r.x * profit.v == Abs(loss.v)
  {
    if profit.NotApplicable? || loss.NotApplicable? then NoRatio
    else if profit.Unlimited? && loss.Unlimited? then BothUnlimited
    else if profit.Unlimited? then UnlimitedReward
    else if loss.Unlimited? then UnlimitedRisk
    else
      var p := profit.v;
      var a := Abs(loss.v);
      if a < Eps && p < Eps then ZeroRatio
      else if a < Eps && p > 0.0 then InfiniteRatio
      else if p <= 0.0 && a > 0.0 then ZeroRatio
      else if a > 0.0 && p > 0.0 then Multiple(if rewardOverRisk then p / a else a / p)
      else NoRatio
  }

  /** The toggle shows reciprocal multiples. */
  lemma RatioToggleReciprocal(profit: Extreme, loss: Extreme)
    requires RiskReward(profit, loss, true).Multiple?
    ensures RiskReward(profit, loss, false).Multiple?
    ensures RiskReward(profit, loss, true).x * RiskReward(profit, loss, false).x == 1.0
  {
    var p := profit.v;
    var a := Abs(loss.v);
    assert (p / a) * (a / p) == 1.0;
  }

  // ---------------------------------------------------------------------------
  // The panel
  // ---------------------------------------------------------------------------

  datatype Summary = Summary(
    values: ValueSplit,
    maxProfit: Extreme,
    maxLoss: Extreme,
    breakevens: seq<real>,
    ratio: Ratio)

  function Summarize(env: Env, variant: Variant, legs: seq<Leg>, spot: Num, lookup: Lookup,
                     curve: seq<CurvePoint>, rewardOverRisk: bool): (r: Summary)
    ensures r.maxProfit.Unlimited? <==> UnlimitedProfit(ExposureOf(SummaryLegs(legs)))
    ensures r.maxLoss.Unlimited? <==> UnlimitedLoss(ExposureOf(SummaryLegs(legs)))
    ensures r.maxProfit.Amount? && |SummaryLegs(legs)| > 0 ==>
              PnLAtZero(SummaryLegs(legs)) <= r.maxProfit.v
              && forall i :: 0 <= i < |curve| ==> curve[i].pnl <= r.maxProfit.v
    ensures r.maxLoss.Amount? && |SummaryLegs(legs)| > 0 ==>
              r.maxLoss.v <= PnLAtZero(SummaryLegs(legs))
              && forall i :: 0 <= i < |curve| ==> r.maxLoss.v <= curve[i].pnl
    ensures forall i, j :: 0 <= i < j < |r.breakevens| ==> r.breakevens[i] < r.breakevens[j]
    ensures r.ratio == RiskReward(r.maxProfit, r.maxLoss, rewardOverRisk)
    ensures r.maxProfit.NotApplicable? <==>
      !UnlimitedProfit(ExposureOf(SummaryLegs(legs))) && |SummaryLegs(legs)| == 0 && |curve| == 0
    ensures r.maxLoss.NotApplicable? <==>
      !UnlimitedLoss(ExposureOf(SummaryLegs(legs))) && |SummaryLegs(legs)| == 0 && |curve| == 0
    ensures r.breakevens == Breakevens(env, variant, curve)
    ensures r.values == IntrinsicAndTimeValue(variant, legs, spot, lookup)
  {
    var active := SummaryLegs(legs);
    var e := ExposureOf(active);
    var pnls := Pnls(curve);
    var anyLegs := |active| > 0;
    var atZero := PnLAtZero(active);
    var profit := MaxProfit(pnls, anyLegs, atZero, UnlimitedProfit(e));
    var loss := MaxLoss(pnls, anyLegs, atZero, UnlimitedLoss(e));
    assert forall i :: 0 <= i < |curve| ==> curve[i].pnl in pnls;
    Summary(IntrinsicAndTimeValue(variant, legs, spot, lookup), profit, loss,
            Breakevens(env, variant, curve), RiskReward(profit, loss, rewardOverRisk))
  }

  /** Whenever both extremes of a summary are amounts, the maximum loss is
      not above the maximum profit. */
  lemma SummaryExtremesOrdered(env: Env, variant: Variant, legs: seq<Leg>, spot: Num, lookup: Lookup,
                               curve: seq<CurvePoint>, rewardOverRisk: bool)
    ensures var r := Summarize(env, variant, legs, spot, lookup, curve, rewardOverRisk);
      r.maxProfit.Amount? && r.maxLoss.Amount? ==> r.maxLoss.v <= r.maxProfit.v
  {
    var r := Summarize(env, variant, legs, spot, lookup, curve, rewardOverRisk);
    if r.maxProfit.Amount? && r.maxLoss.Amount? && |SummaryLegs(legs)| == 0 {
      assert |curve| > 0;
      assert r.maxLoss.v <= curve[0].pnl <= r.maxProfit.v;
    }
  }
}

=== FILE: StrategyUtils.dfy ===
/** Strike selection: the strike step of an underlying, the at-the-money
    strike of a list, and the strike a given number of steps away from it. */
module StrategyUtils {
  import opened Common

  /** 100 for BANKNIFTY symbols, 50 for everything else (NIFTY, FINNIFTY and
      the empty symbol included). */
  function StrikeStep(symbol: string): (step: int)
    ensures step == 100 <==> Contains(Upper(symbol), "BANKNIFTY")
    ensures step == 50 || step == 100
    ensures symbol == "" ==> step == 50
  {
    if symbol == "" then 50
    else if Contains(Upper(symbol), "BANKNIFTY") then 100
    else 50
  }

  function Distance(spot: real, strike: real): real {
    Abs(strike - spot)
  }

  /** The index `reduce` settles on: a later strike replaces the current one
      only when it is strictly closer to the spot. */
  function ClosestIndex(spot: real, strikes: seq<real>): (k: nat)
    requires |strikes| > 0
    ensures k < |strikes|
    ensures forall j :: 0 <= j < |strikes| ==> Distance(spot, strikes[k]) <= Distance(spot, strikes[j])
    ensures forall j :: 0 <= j < k ==> Distance(spot, strikes[j]) > Distance(spot, strikes[k])
  {
    if |strikes| == 1 then 0
    else
      var init := strikes[..|strikes| - 1];
      var k := ClosestIndex(spot, init);
      assert forall j :: 0 <= j < |init| ==> init[j] == strikes[j];
      if Distance(spot, strikes[|strikes| - 1]) < Distance(spot, strikes[k]) then |strikes| - 1 else k
  }

  /** The strike nearest the spot, the earliest on ties; none for an empty list. */
  function ATMStrike(spot: real, strikes: seq<real>): (r: Option<real>)
    ensures r.None? <==> |strikes| == 0
    ensures r.Some? ==> r.value in strikes
    ensures r.Some? ==> forall x :: x in strikes ==> Distance(spot, r.value) <= Distance(spot, x)
    ensures r.Some? ==> forall j :: 0 <= j < |strikes| && strikes[j] != r.value ==>
      (Distance(spot, strikes[j]) > Distance(spot, r.value) || exists i :: 0 <= i < j && strikes[i] == r.value)
  {
    if |strikes| == 0 then None else Some(strikes[ClosestIndex(spot, strikes)])
  }

  /** In an ascending list, the nearest strike is the lower of two equally
      near ones. */
  lemma ATMTieGoesLow(spot: real, strikes: seq<real>)
    requires |strikes| > 0
    requires forall i, j :: 0 <= i < j < |strikes| ==> strikes[i] < strikes[j]
    ensures forall x :: x in strikes && Distance(spot, x) == Distance(spot, ATMStrike(spot, strikes).value) ==>
      ATMStrike(spot, strikes).value <= x
  {
    var a := ATMStrike(spot, strikes).value;
    forall x | x in strikes && Distance(spot, x) == Distance(spot, a)
      ensures a <= x
    {
      var j :| 0 <= j < |strikes| && strikes[j] == x;
      if x != a {
        var i :| 0 <= i < j && strikes[i] == a;
      }
    }
  }

  /** `min(max(t, 0), n - 1)`: out-of-range targets go to the edge. */
  function ClampIndex(t: int, n: nat): (k: nat)
    requires n > 0
    ensures k < n
    ensures 0 <= t < n ==> k == t
    ensures t < 0 ==> k == 0
    ensures t >= n ==> k == n - 1
  {
    if 0 <= t < n then t else if t < 0 then 0 else n - 1
  }

  /** Index of the at-the-money strike in the sorted, de-duplicated list. */
  function ATMIndex(spot: real, sorted: seq<real>): (k: nat)
    requires |sorted| > 0
    requires forall i, j :: 0 <= i < j < |sorted| ==> sorted[i] < sorted[j]
    ensures k < |sorted|
    ensures ATMStrike(spot, sorted) == Some(sorted[k])
  {
    var atm := sorted[ClosestIndex(spot, sorted)];
    var k := IndexOf(sorted, atm);
    assert k == ClosestIndex(spot, sorted);
    k
  }

  /** The strike `offset` places above (or below) the at-the-money strike
      among the distinct strikes, clamped to the lowest or highest; none for
      an empty list or a missing spot. */
  function StrikeByOffset(spot: Option<real>, strikes: seq<real>, offset: int): (r: Option<real>)
    ensures r.None? <==> |strikes| == 0 || spot.None?
    ensures r.Some? ==> r.value in strikes
  {
    if |strikes| == 0 || spot.None? then None
    else
      var sorted := SortUniqueReals(strikes);
      assert strikes[0] in sorted;
      Some(PickAt(sorted, spot.value, offset))
  }

  /** The strike `offset` places from the at-the-money one in a strictly
      ascending list, clamped to its ends. */
  function PickAt(sorted: seq<real>, spot: real, offset: int): (x: real)
    requires |sorted| > 0
    requires forall i, j :: 0 <= i < j < |sorted| ==> sorted[i] < sorted[j]
    ensures x in sorted
  {
    sorted[ClampIndex(ATMIndex(spot, sorted) + offset, |sorted|)]
  }

  /** Offset 0 picks a strike nearest the spot among all given strikes. */
  lemma OffsetZeroIsATM(spot: real, strikes: seq<real>)
    requires |strikes| > 0
    ensures StrikeByOffset(Some(spot), strikes, 0).Some?
    ensures forall x :: x in strikes ==>
      Distance(spot, StrikeByOffset(Some(spot), strikes, 0).value) <= Distance(spot, x)
  {
    var sorted := SortUniqueReals(strikes);
    assert strikes[0] in sorted;
    var k := ATMIndex(spot, sorted);
    assert ClampIndex(k + 0, |sorted|) == k;
    forall x | x in strikes
      ensures Distance(spot, sorted[k]) <= Distance(spot, x)
    {
      assert x in sorted;
    }
  }

  /** When the spot lies exactly between two neighbouring strikes of the
      list, offset 0 resolves to the lower one, whatever the list's order. */
  lemma OffsetZeroTieGoesLow(spot: real, strikes: seq<real>, lo: real, hi: real)
    requires lo in strikes && hi in strikes && lo < hi && spot - lo == hi - spot
    requires forall z :: z in strikes ==> !(lo < z < hi)
    ensures StrikeByOffset(Some(spot), strikes, 0) == Some(lo)
  {
    var sorted := SortUniqueReals(strikes);
    assert lo in sorted;
    var k := ClosestIndex(spot, sorted);
    var a :| 0 <= a < |sorted| && sorted[a] == lo;
    forall j | 0 <= j < |sorted|
      ensures Distance(spot, sorted[j]) >= spot - lo
      ensures j < a ==> Distance(spot, sorted[j]) > spot - lo
    {
      assert sorted[j] in strikes;
      if j < a { assert sorted[j] < lo; }
    }
    assert k == a;
    assert ClampIndex(ATMIndex(spot, sorted) + 0, |sorted|) == a;
  }

  /** One step further up from a non-negative offset gives the next listed
      strike: the least strike above the current one. */
  lemma OffsetSuccessor(spot: real, strikes: seq<real>, offset: int, higher: real)
    requires offset >= 0
    requires higher in strikes && higher > StrikeByOffset(Some(spot), strikes, offset).value
    ensures var x := StrikeByOffset(Some(spot), strikes, offset).value;
            var y := StrikeByOffset(Some(spot), strikes, offset + 1).value;
            y > x && forall z :: z in strikes && z > x ==> z >= y
  {
    var sorted := SortUniqueReals(strikes);
    assert strikes[0] in sorted && higher in sorted;
    SortedEnds(sorted, higher);
    PickNext(sorted, spot, offset);
    forall z | z in strikes
      ensures z in sorted
    {
    }
  }

  /** One step further down from a non-positive offset gives the previous
      listed strike: the greatest strike below the current one. */
  lemma OffsetPredecessor(spot: real, strikes: seq<real>, offset: int, lower: real)
    requires offset <= 0
    requires lower in strikes && lower < StrikeByOffset(Some(spot), strikes, offset).value
    ensures var x := StrikeByOffset(Some(spot), strikes, offset).value;
            var y := StrikeByOffset(Some(spot), strikes, offset - 1).value;
            y < x && forall z :: z in strikes && z < x ==> z <= y
  {
    var sorted := SortUniqueReals(strikes);
    assert strikes[0] in sorted && lower in sorted;
    SortedEnds(sorted, lower);
    PickPrevious(sorted, spot, offset);
    forall z | z in strikes
      ensures z in sorted
    {
    }
  }

  /** In a strictly ascending list, below the top the next offset picks the
      next element. */
  lemma PickNext(sorted: seq<real>, spot: real, offset: int)
    requires |sorted| > 0 && offset >= 0
    requires forall i, j :: 0 <= i < j < |sorted| ==> sorted[i] < sorted[j]
    requires PickAt(sorted, spot, offset) != sorted[|sorted| - 1]
    ensures PickAt(sorted, spot, offset + 1) > PickAt(sorted, spot, offset)
    ensures forall z :: z in sorted && z > PickAt(sorted, spot, offset) ==> z >= PickAt(sorted, spot, offset + 1)
  {
    var k := ATMIndex(spot, sorted);
    var i := ClampIndex(k + offset, |sorted|);
    assert i == k + offset;
    assert ClampIndex(k + (offset + 1), |sorted|) == i + 1;
    NextInSorted(sorted, i);
  }

  /** In a strictly ascending list, the element after position `i` is the
      least element above `sorted[i]`. */
  lemma NextInSorted(sorted: seq<real>, i: int)
    requires forall i, j :: 0 <= i < j < |sorted| ==> sorted[i] < sorted[j]
    requires 0 <= i < |sorted| - 1
    ensures forall z :: z in sorted && z > sorted[i] ==> z >= sorted[i + 1]
  {
    forall z | z in sorted && z > sorted[i]
      ensures z >= sorted[i + 1]
    {
      var m :| 0 <= m < |sorted| && sorted[m] == z;
      if m > i + 1 { assert sorted[i + 1] < sorted[m]; }
    }
  }

  /** In a strictly ascending list, the element before position `i` is the
      greatest element below `sorted[i]`. */
  lemma PreviousInSorted(sorted: seq<real>, i: int)
    requires forall i, j :: 0 <= i < j < |sorted| ==> sorted[i] < sorted[j]
    requires 0 < i < |sorted|
    ensures forall z :: z in sorted && z < sorted[i] ==> z <= sorted[i - 1]
  {
    forall z | z in sorted && z < sorted[i]
      ensures z <= sorted[i - 1]
    {
      var m :| 0 <= m < |sorted| && sorted[m] == z;
      if m < i - 1 { assert sorted[m] < sorted[i - 1]; }
    }
  }

  /** In a strictly ascending list, above the bottom the previous offset
      picks the previous element. */
  lemma PickPrevious(sorted: seq<real>, spot: real, offset: int)
    requires |sorted| > 0 && offset <= 0
    requires forall i, j :: 0 <= i < j < |sorted| ==> sorted[i] < sorted[j]
    requires PickAt(sorted, spot, offset) != sorted[0]
    ensures PickAt(sorted, spot, offset - 1) < PickAt(sorted, spot, offset)
    ensures forall z :: z in sorted && z < PickAt(sorted, spot, offset) ==> z <= PickAt(sorted, spot, offset - 1)
  {
    var k := ATMIndex(spot, sorted);
    var i := ClampIndex(k + offset, |sorted|);
    assert i == k + offset;
    assert ClampIndex(k + (offset - 1), |sorted|) == i - 1;
    PreviousInSorted(sorted, i);
  }

  /** Moving further up the ladder never gives a lower strike. */
  lemma OffsetMonotone(spot: real, strikes: seq<real>, a: int, b: int)
    requires |strikes| > 0 && a <= b
    ensures StrikeByOffset(Some(spot), strikes, a).value <= StrikeByOffset(Some(spot), strikes, b).value
  {
    var sorted := SortUniqueReals(strikes);
    assert strikes[0] in sorted;
    PickMonotone(sorted, spot, a, b);
  }

  /** In a strictly ascending list, a larger offset never picks a smaller value. */
  lemma PickMonotone(sorted: seq<real>, spot: real, a: int, b: int)
    requires |sorted| > 0 && a <= b
    requires forall i, j :: 0 <= i < j < |sorted| ==> sorted[i] < sorted[j]
    ensures PickAt(sorted, spot, a) <= PickAt(sorted, spot, b)
  {
    ClampedPickMonotone(sorted, ATMIndex(spot, sorted), a, b);
  }

  /** In a strictly ascending list, a larger clamped offset from the same
      position never picks a smaller value. */
  lemma ClampedPickMonotone(s: seq<real>, k: int, a: int, b: int)
    requires |s| > 0 && a <= b
    requires forall i, j :: 0 <= i < j < |s| ==> s[i] < s[j]
    ensures s[ClampIndex(k + a, |s|)] <= s[ClampIndex(k + b, |s|)]
  {
    var i := ClampIndex(k + a, |s|);
    var j := ClampIndex(k + b, |s|);
    if i < j {
      assert s[i] < s[j];
    }
  }

  /** Offsets beyond either end give the lowest or the highest strike. */
  lemma OffsetClampsToEnds(spot: real, strikes: seq<real>, offset: int)
    requires |strikes| > 0
    requires offset <= -|strikes| || offset >= |strikes|
    ensures offset <= -|strikes| ==> forall x :: x in strikes ==> StrikeByOffset(Some(spot), strikes, offset).value <= x
    ensures offset >= |strikes| ==> forall x :: x in strikes ==> StrikeByOffset(Some(spot), strikes, offset).value >= x
  {
    var sorted := SortUniqueReals(strikes);
    assert strikes[0] in sorted;
    var k := ATMIndex(spot, sorted);
    var r := StrikeByOffset(Some(spot), strikes, offset).value;
    assert r == PickAt(sorted, spot, offset) == sorted[ClampIndex(k + offset, |sorted|)];
    if offset <= -|strikes| {
      assert r == sorted[0];
    } else {
      assert r == sorted[|sorted| - 1];
    }
    forall x | x in strikes
      ensures sorted[0] <= x <= sorted[|sorted| - 1]
    {
      SortedEnds(sorted, x);
    }
  }

  /** A strictly ascending list starts with its least and ends with its
      greatest element. */
  lemma SortedEnds(s: seq<real>, x: real)
    requires forall i, j :: 0 <= i < j < |s| ==> s[i] < s[j]
    requires x in s
    ensures s[0] <= x <= s[|s| - 1]
  {
    var m :| 0 <= m < |s| && s[m] == x;
    if m > 0 { assert s[0] < s[m]; }
    if m < |s| - 1 { assert s[m] < s[|s| - 1]; }
  }
}

=== FILE: Visualizer.dfy ===
/** The scenario controls of the visualizer page (Frontend copy): the spot
    derived from the live chain, the target-spot field, the global and
    per-contract IV adjustments with the scenario IV they produce, and the
    loading of legs into the builder. */
module Visualizer {
  import opened Common
  import opened Market

  // ---------------------------------------------------------------------------
  // Live spot of the underlying
  // ---------------------------------------------------------------------------

  /** The quote a market-data record offers as the spot: its spot field when
      present (even if unreadable), otherwise its futures field. */
  function SpotQuote(md: MarketData): (q: Num)
    ensures !md.spot.Undef? ==> q == ParseFloat(md.spot)
    ensures md.spot.Undef? && !md.futures.Undef? ==> q == ParseFloat(md.futures)
    ensures md.spot.Undef? && md.futures.Undef? ==> q.NaN?
  {
    if !md.spot.Undef? then ParseFloat(md.spot)
    else if !md.futures.Undef? then ParseFloat(md.futures)
    else NaN
  }

  /** The first instrument of the underlying that carries market data. */
  function FirstWithData(term: string, chain: seq<Instrument>): (r: Option<Instrument>)
    ensures r.Some? ==> r.value in chain && r.value.underlying == term && r.value.marketData.Some?
    ensures r.None? <==> forall i :: i in chain ==> !(i.underlying == term && i.marketData.Some?)
    ensures forall k :: 0 <= k < |chain| && chain[k].underlying == term && chain[k].marketData.Some? ==>
      r.Some? && (r.value == chain[k] || r.value in chain[..k])
  {
    if |chain| == 0 then None
    else if chain[0].underlying == term && chain[0].marketData.Some? then
      assert forall k :: 0 < k < |chain| ==> chain[..k][0] == chain[0];
      Some(chain[0])
    else
      assert forall i :: i in chain[1..] ==> i in chain;
      assert forall i :: i in chain ==> i == chain[0] || i in chain[1..];
      assert forall i :: 1 <= i < |chain| ==> chain[i] == chain[1..][i - 1];
      assert forall k :: 1 <= k < |chain| ==> chain[..k] == [chain[0]] + chain[1..][..k - 1];
      FirstWithData(term, chain[1..])
  }

  /** `underlyingSpotPrice`: a positive reading of the first instrument with
      market data, or none. */
  function UnderlyingSpot(term: string, chain: seq<Instrument>): (r: Option<real>)
    ensures r.Some? ==> r.value > 0.0
    ensures term == "" || |chain| == 0 ==> r.None?
    ensures r.Some? ==> exists i :: i in chain && i.underlying == term && i.marketData.Some?
                                    && SpotQuote(i.marketData.value) == Fin(r.value)
    ensures term != "" && FirstWithData(term, chain).Some? ==>
      var q := SpotQuote(FirstWithData(term, chain).value.marketData.value);
      r == if q.Fin? && q.r > 0.0 then Some(q.r) else None
  {
    if term == "" || |chain| == 0 then None
    else
      match FirstWithData(term, chain)
      case None => None
      case Some(i) =>
        var q := SpotQuote(i.marketData.value);
        if q.Fin? && q.r > 0.0 then Some(q.r) else None
  }

  /** A spot field that is present decides the spot on its own: a positive
      reading is the spot, and an unreadable one gives no spot even when the
      futures field could be read. */
  lemma SpotFieldDecides(term: string, chain: seq<Instrument>, i: Instrument)
    requires term != "" && FirstWithData(term, chain) == Some(i)
    requires !i.marketData.value.spot.Undef?
    ensures Gt(ParseFloat(i.marketData.value.spot), Fin(0.0)) ==>
      UnderlyingSpot(term, chain) == Some(ParseFloat(i.marketData.value.spot).r)
    ensures ParseFloat(i.marketData.value.spot).NaN? ==> UnderlyingSpot(term, chain).None?
  {
  }

  // ---------------------------------------------------------------------------
  // Target spot
  // ---------------------------------------------------------------------------

  /** The target-spot field holds `x.toFixed(2)` or is empty; the model keeps
      the rounded number the text spells. */
  datatype Target = NoTarget | TargetValue(value: real)

  datatype TargetField = TargetField(target: Target, manual: bool)

  /** `handleNiftyTargetChange`, where `reading` is `parseFloat(input)`
      (NaN for the empty input). */
  function ChangeTarget(env: Env, field: TargetField, input: string, reading: Num): (r: TargetField)
    requires input == "" ==> reading.NaN?
    ensures r.manual
    ensures Gt(reading, Fin(0.0)) || reading == Fin(0.0) ==> r.target == TargetValue(env.round2(reading.r))
    ensures reading.NaN? && input == "" ==> r.target == NoTarget
    ensures Gt(Fin(0.0), reading) || (reading.NaN? && input != "") ==> r.target == field.target
  {
    if reading.Fin? && reading.r >= 0.0 then TargetField(TargetValue(env.round2(reading.r)), true)
    else if input == "" then TargetField(NoTarget, true)
    else field.(manual := true)
  }

  /** `handleResetNiftyTargetToLive` */
  function ResetTargetToLive(env: Env, field: TargetField, spot: Option<real>): (r: TargetField)
    ensures !r.manual
    ensures spot.Some? ==> r.target == TargetValue(env.round2(spot.value))
    ensures spot.None? ==> r.target == field.target
  {
    TargetField(if spot.Some? then TargetValue(env.round2(spot.value)) else field.target, false)
  }

  ghost predicate NonNegativeTarget(f: TargetField) {
    f.target.TargetValue? ==> f.target.value >= 0.0
  }

  /** With rounding that keeps order and fixes 0, the target never becomes
      negative, whatever is typed and whenever it is reset to a live spot. */
  lemma TargetStaysNonNegative(env: Env, field: TargetField, input: string, reading: Num, spot: Option<real>)
    requires MonotoneRounding(env.round2) && NonNegativeTarget(field)
    requires input == "" ==> reading.NaN?
    requires spot.Some? ==> spot.value > 0.0
    ensures NonNegativeTarget(ChangeTarget(env, field, input, reading))
    ensures NonNegativeTarget(ResetTargetToLive(env, field, spot))
  {
    if reading.Fin? && reading.r >= 0.0 {
      assert env.round2(0.0) <= env.round2(reading.r);
    }
    if spot.Some? {
      assert env.round2(0.0) <= env.round2(spot.value);
    }
  }

  // ---------------------------------------------------------------------------
  // IV adjustments
  // ---------------------------------------------------------------------------

  /** The global IV offset (in IV points) and the per-token adjustments. */
  datatype IvControls = IvControls(offset: real, adjustments: map<string, real>)

  /** `toFixed(1)` rounding as the offset handler relies on it: monotone,
      fixing 0 and ±50, and idempotent. */
  ghost predicate DecimalRounding(round: real -> real) {
    && MonotoneRounding(round)
    && round(50.0) == 50.0 && round(-50.0) == -50.0
    && (forall x :: round(round(x)) == round(x))
  }

  function ClampOffset(x: real): (r: real)
    ensures -50.0 <= r <= 50.0
    ensures -50.0 <= x <= 50.0 ==> r == x
  {
    Max(-50.0, Min(50.0, x))
  }

  /** `handleGlobalIvOffsetChange`: the update (a number, or a function of
      the previous offset) is clamped to [-50, 50] and kept to one decimal. */
  function UpdateOffset(env: Env, c: IvControls, update: real -> real): (r: IvControls)
    ensures r.adjustments == c.adjustments
    ensures DecimalRounding(env.round1) ==> -50.0 <= r.offset <= 50.0
  {
    var x := ClampOffset(update(c.offset));
    assert DecimalRounding(env.round1) ==> env.round1(-50.0) <= env.round1(x) <= env.round1(50.0);
    c.(offset := env.round1(x))
  }

  /** An offset produced by the handler is a fixed point of it: re-applying
      it as the update leaves it unchanged. */
  lemma UpdateOffsetSettles(env: Env, c: IvControls, update: real -> real)
    requires DecimalRounding(env.round1)
    ensures UpdateOffset(env, UpdateOffset(env, c, update), x => x) == UpdateOffset(env, c, update)
  {
    var once := UpdateOffset(env, c, update);
    var y := ClampOffset(update(c.offset));
    assert once.offset == env.round1(y);
    assert ClampOffset(once.offset) == once.offset;
    assert env.round1(env.round1(y)) == env.round1(y);
  }

  /** `handleIndividualIvAdjustmentChange`: sets only this token's entry, to
      `parseFloat(adjustment) || 0`. */
  function SetAdjustment(c: IvControls, token: string, raw: JsVal): (r: IvControls)
    ensures r.offset == c.offset
    ensures token in r.adjustments && r.adjustments[token] == ParseOr(raw, 0.0)
    ensures forall t :: t != token ==> (t in r.adjustments <==> t in c.adjustments)
    ensures forall t :: t != token && t in c.adjustments ==> r.adjustments[t] == c.adjustments[t]
  {
    c.(adjustments := c.adjustments[token := ParseOr(raw, 0.0)])
  }

  /** `handleResetAllIvAdjustments` */
  function ResetIv(c: IvControls): (r: IvControls)
    ensures r.offset == 0.0 && |r.adjustments| == 0
  {
    IvControls(0.0, map[])
  }

  /** `individualIvAdjustments[token] || 0` */
  function AdjustmentFor(c: IvControls, token: string): real {
    if token in c.adjustments then c.adjustments[token] else 0.0
  }

  // ---------------------------------------------------------------------------
  // Scenario IV
  // ---------------------------------------------------------------------------

  const IvFloor: real := 0.001

  /** `getScenarioIV` as written: the default volatility without an
      instrument or an IV, else the adjusted IV as a fraction, floored at
      0.001 by `Math.max` (which passes NaN through). */
  function ScenarioIVAsWritten(c: IvControls, inst: Option<Instrument>, token: string, defaultVolatility: real): (r: Num)
    ensures inst.None? || inst.value.iv.Undef? ==> r == Fin(defaultVolatility)
    ensures r.Fin? && inst.Some? && !inst.value.iv.Undef? ==> r.r >= IvFloor
  {
    if inst.None? || inst.value.iv.Undef? then Fin(defaultVolatility)
    else
      var scenario := Add(Add(ParseFloat(inst.value.iv), Fin(AdjustmentFor(c, token))), Fin(c.offset));
      MaxNum(Fin(IvFloor), if scenario.Fin? then Fin(scenario.r / 100.0) else NaN)
  }

  /** An IV field that is present but unreadable (say the text "-") makes the
      scenario IV NaN: the floor does not hold. */
  lemma UnreadableIvEscapesFloor(c: IvControls, inst: Instrument, token: string, defaultVolatility: real)
    requires !inst.iv.Undef? && ParseFloat(inst.iv).NaN?
    ensures ScenarioIVAsWritten(c, Some(inst), token, defaultVolatility).NaN?
  {
  }

  /** The scenario IV with an unreadable IV treated like a missing one. */
  function ScenarioIV(c: IvControls, inst: Option<Instrument>, token: string, defaultVolatility: real): (r: real)
    ensures inst.None? || ParseFloat(inst.value.iv).NaN? ==> r == defaultVolatility
    ensures inst.Some? && ParseFloat(inst.value.iv).Fin? ==> r >= IvFloor
    ensures inst.Some? && ParseFloat(inst.value.iv).Fin? ==>
      r == Max(IvFloor, (ParseFloat(inst.value.iv).r + AdjustmentFor(c, token) + c.offset) / 100.0)
  {
    if inst.None? || ParseFloat(inst.value.iv).NaN? then defaultVolatility
    else Max(IvFloor, (ParseFloat(inst.value.iv).r + AdjustmentFor(c, token) + c.offset) / 100.0)
  }

  /** The corrected scenario IV agrees with the written one wherever the
      written one is a number. */
  lemma ScenarioIVAgrees(c: IvControls, inst: Option<Instrument>, token: string, defaultVolatility: real)
    ensures ScenarioIVAsWritten(c, inst, token, defaultVolatility).Fin? ==>
      ScenarioIVAsWritten(c, inst, token, defaultVolatility) == Fin(ScenarioIV(c, inst, token, defaultVolatility))
    ensures inst.Some? && ParseFloat(inst.value.iv).Fin? ==>
      ScenarioIVAsWritten(c, inst, token, defaultVolatility) == Fin(ScenarioIV(c, inst, token, defaultVolatility))
  {
  }

  /** The scenario IV of every token as the payoff calculators take it: the
      written `getScenarioIV`, NaN escape included. Where it is a number it is
      the floored IV or the default, and it equals the corrected scenario IV;
      it is NaN exactly when the instrument's IV is present but unreadable. */
  function ScenarioIVOf(c: IvControls, lookup: Lookup, defaultVolatility: real): (f: string -> Num)
    ensures forall t :: f(t).Fin? ==> f(t).r >= IvFloor || f(t).r == defaultVolatility
    ensures forall t :: lookup(t).None? ==> f(t) == Fin(defaultVolatility)
    ensures forall t :: f(t).Fin? ==> f(t) == Fin(ScenarioIV(c, lookup(t), t, defaultVolatility))
    ensures forall t :: lookup(t).Some? && ParseFloat(lookup(t).value.iv).Fin? ==>
      f(t) == Fin(ScenarioIV(c, lookup(t), t, defaultVolatility))
    ensures forall t :: f(t).NaN? <==>
      lookup(t).Some? && !lookup(t).value.iv.Undef? && ParseFloat(lookup(t).value.iv).NaN?
  {
    var f := t => ScenarioIVAsWritten(c, lookup(t), t, defaultVolatility);
    assert forall t :: f(t).Fin? ==> f(t) == Fin(ScenarioIV(c, lookup(t), t, defaultVolatility)) by {
      forall t ensures f(t).Fin? ==> f(t) == Fin(ScenarioIV(c, lookup(t), t, defaultVolatility)) {
        ScenarioIVAgrees(c, lookup(t), t, defaultVolatility);
      }
    }
    assert forall t :: lookup(t).Some? && ParseFloat(lookup(t).value.iv).Fin? ==>
        f(t) == Fin(ScenarioIV(c, lookup(t), t, defaultVolatility)) by {
      forall t ensures lookup(t).Some? && ParseFloat(lookup(t).value.iv).Fin? ==>
          f(t) == Fin(ScenarioIV(c, lookup(t), t, defaultVolatility)) {
        ScenarioIVAgrees(c, lookup(t), t, defaultVolatility);
      }
    }
    f
  }

  /** Adjusting one token leaves the scenario IV of every other token alone. */
  lemma AdjustmentIsLocal(c: IvControls, inst: Option<Instrument>, token: string, other: string, raw: JsVal, defaultVolatility: real)
    requires other != token
    ensures ScenarioIV(SetAdjustment(c, token, raw), inst, other, defaultVolatility) == ScenarioIV(c, inst, other, defaultVolatility)
  {
  }

  /** A larger global offset never lowers the scenario IV. */
  lemma ScenarioIVMonotoneInOffset(c: IvControls, inst: Option<Instrument>, token: string, offset: real, defaultVolatility: real)
    requires c.offset <= offset
    ensures ScenarioIV(c, inst, token, defaultVolatility) <= ScenarioIV(c.(offset := offset), inst, token, defaultVolatility)
  {
  }

  /** After a reset the scenario IV is the listed IV alone. */
  lemma ResetRestoresListedIV(c: IvControls, inst: Instrument, token: string, defaultVolatility: real)
    requires ParseFloat(inst.iv).Fin?
    ensures ScenarioIV(ResetIv(c), Some(inst), token, defaultVolatility) == Max(IvFloor, ParseFloat(inst.iv).r / 100.0)
  {
    assert AdjustmentFor(ResetIv(c), token) == 0.0;
  }

  // ---------------------------------------------------------------------------
  // Loading legs into the builder
  // ---------------------------------------------------------------------------

  /** A leg handed to the builder; `hasSelected` says whether it carries a
      selection flag at all. */
  datatype Incoming = Incoming(leg: Leg, hasSelected: bool)

  /** `handleLoadStrategyLegsIntoBuilder` for one leg. */
  function LoadLeg(inc: Incoming, itemStatus: Status, freshId: string, defaultVolatility: real): (r: Leg)
    ensures r.id == (if inc.leg.id != "" then inc.leg.id else freshId)
    ensures r.selected <==> !inc.hasSelected || inc.leg.selected
    ensures r.price == JNum(if inc.leg.price.Undef? then Fin(0.0) else ParseFloat(inc.leg.price))
    ensures r.iv == JNum(if inc.leg.iv.Undef? then Fin(defaultVolatility * 100.0) else ParseFloat(inc.leg.iv))
    ensures r.status == (if inc.leg.status != NoStatus then inc.leg.status else itemStatus)
    ensures r.(id := inc.leg.id, selected := inc.leg.selected, price := inc.leg.price,
               iv := inc.leg.iv, status := inc.leg.status) == inc.leg
  {
    inc.leg.(
      id := if inc.leg.id != "" then inc.leg.id else freshId,
      selected := if inc.hasSelected then inc.leg.selected else true,
      price := JNum(if inc.leg.price.Undef? then Fin(0.0) else ParseFloat(inc.leg.price)),
      iv := JNum(if inc.leg.iv.Undef? then Fin(defaultVolatility * 100.0) else ParseFloat(inc.leg.iv)),
      status := if inc.leg.status != NoStatus then inc.leg.status else itemStatus)
  }

  function LoadLegs(incoming: seq<Incoming>, itemStatus: Status, freshId: nat -> string, defaultVolatility: real): (r: seq<Leg>)
    ensures |r| == |incoming|
    ensures forall i :: 0 <= i < |incoming| ==> r[i] == LoadLeg(incoming[i], itemStatus, freshId(i), defaultVolatility)
  {
    seq(|incoming|, i requires 0 <= i < |incoming| => LoadLeg(incoming[i], itemStatus, freshId(i), defaultVolatility))
  }

  /** Loading the builder's legs back into it changes nothing. */
  lemma LoadLegsIdempotent(incoming: seq<Incoming>, itemStatus: Status, freshId: nat -> string, defaultVolatility: real)
    ensures var once := LoadLegs(incoming, itemStatus, freshId, defaultVolatility);
      LoadLegs(seq(|once|, i requires 0 <= i < |once| => Incoming(once[i], true)), itemStatus, freshId, defaultVolatility) == once
  {
    var once := LoadLegs(incoming, itemStatus, freshId, defaultVolatility);
    var again := LoadLegs(seq(|once|, i requires 0 <= i < |once| => Incoming(once[i], true)), itemStatus, freshId, defaultVolatility);
    assert forall i :: 0 <= i < |once| ==> again[i] == once[i];
  }
}
